=== FILE: README.md ===
# Expense tracker — a Dafny model

This project models the logic of a React expense tracker: a single-page app
that lists a user's expenses for a date range, summarises them by primary and
secondary category, and lets the user add, edit, delete, filter, sort, page,
bulk-select, export and print them, behind an email/password or one-time-code
sign-in.

The top-level screen in `src/App.jsx` renders only the date filter, the
category summary, the expense list (without selection) and the add/edit
dialog. `BulkActions`, `Pagination`, `CategoryFilter`, `SecondarySummary`,
`PieChart`, `ExpenseCharts`, the export helpers, the search-and-sort helpers
and the password-reset screen are components and utilities that no shown
file mounts, so each is modelled standalone, against the props its own code
reads. Scenarios that involve a parent, such as the off-page selection in
the `BulkActions` finding, assume a paging parent that `src/App.jsx` does
not contain.

Everything is written as pure functions over immutable data. Each React
component or hook becomes a state datatype plus one transition function per
handler. Each awaited call (`fetchExpenses`, `signIn`, `addExpense`, …) is
replaced by its settled outcome, passed in as a parameter. The transition says
which request was sent, what is alerted, and which range is reloaded.

## Modules

- **Shared helpers:**
  - `Options` has `Option`, the `Outcome` of an awaited call, and JavaScript truthiness.
  - `Text` has lower-casing, trimming, substring search, digits, decimal text and splitting.
  - `Seqs` has order-preserving filters and sums.
  - `Sorting` is a generic stable insertion sort on a key.
- **Records:** `Records` is the expense record.
- **Calendar and dates:**
  - `Calendar` is ECMAScript's proleptic Gregorian day arithmetic (section 21.4.1 of ECMA-262).
  - `DateText` handles `YYYY-MM-DD` texts.
  - `DateUtils` has the preset week, month and quarter ranges.
- **List view:**
  - `FilterAndSort` is the search, category filter and six sort orders.
  - `Pagination`, `BulkActions`, `CategoryFilter`, `ExpenseList` and `DateFilter` are the list's widgets.
- **Summaries:**
  - `SummaryItems` holds the rows of the summary endpoints and share-of-total arithmetic.
  - `ExpenseSummary`, `SecondarySummary`, `PieChart` and `ExpenseCharts` are the summary views.
- **Export:**
  - `Csv` is a writer and reader of comma-separated records in the style of section 2 of RFC 4180.
  - `Export` builds the CSV file and the printable report.
- **API layer:** `Api` covers response unwrapping, error messages, query parameters, request bodies and the token store.
- **Sign-in screens:**
  - `Phone` has phone formatting, the E.164-style check, the one-time-code sanitiser and the countdown.
  - `LoginForm` and `ForgotPassword` are the two sign-in screens.
- **State:** `AuthContext` is the authentication state, `ExpenseForm` the add/edit dialog, and `App` the screen's state.

## Conventions

- **Times** are integers: milliseconds since 1970-01-01.
  - The local time zone is taken to be UTC, so local midnight and UTC midnight coincide.
  - An invalid `Date` (time value NaN) is `None`.
- **Amounts** are integers. A missing numeric field is `None`, and JavaScript's `x || 0` reads `None` and `0` alike. Shares of a total are exact rationals (`real`), before any `toFixed` rounding.
- **Missing text fields** are `""`, since the code reads every one of them through `x || ''`.
- **JSON bodies** are a small `Json` datatype with JavaScript truthiness, used where the code inspects a reply's shape.

## Model

| member | source | states |
|---|---|---|
| FilterAndSort.SearchFilter | src/utils/filterAndSort.js:7-23 | An absent, empty or white-space query returns the input unchanged. Otherwise a record is kept exactly when the lower-cased, trimmed query is contained in its lower-cased description or one of its categories. The result is an order-preserving subsequence of the input. |
| FilterAndSort.SearchKeepsIffSubstring | src/utils/filterAndSort.js:12-22 | A record is kept if and only if the normalised query occurs, at some position, in the lower-cased description, primary or secondary category. |
| FilterAndSort.CategoryFilter | src/utils/filterAndSort.js:32-38 | A record is kept exactly when each non-empty filter level equals its category. With both levels empty the input is returned. The result is an order-preserving subsequence. |
| FilterAndSort.SearchCategoryCommute | src/utils/filterAndSort.js:14-37 | Searching then filtering by category gives the same list as the other order. |
| FilterAndSort.SortExpenses | src/utils/filterAndSort.js:46-79 | The result is a permutation of the input, ordered between neighbours by the option: `created`, `amount` with missing read as 0, or the lower-cased description; ascending or descending. The sort is stable: records with equal keys keep their input order. An unrecognised option returns the input order. |
| Sorting.InsertWithKey | src/utils/filterAndSort.js:46-79 | Inserting an element puts it in front of every element sharing its key and keeps the order of the others. |
| Sorting.SortByStable | src/utils/filterAndSort.js:46-79 | For every key, the elements carrying it appear in the sorted result in their input order, as a stable `Array.prototype.sort` keeps them. |
| Pagination.PageRange | src/components/Pagination.jsx:12-14 | The pages `from..to` in order, and none when `to < from`. |
| Pagination.PageNumbersShape | src/components/Pagination.jsx:7-40 | Up to five pages: exactly `1..total`. Above five: seven entries. Page numbers strictly increase and lie in `1..total`, and both 1 and `total` are listed. The current page is listed whenever it is a real page. An ellipsis never starts or ends the list and never follows another. |
| Pagination.EndItem | src/components/Pagination.jsx:43 | The last item shown is the smaller of `current * perPage` and the item count: it is one of the two and exceeds neither. |
| Pagination.ShowingRangeBounds | src/components/Pagination.jsx:42-43 | A page whose first item exists shows between 1 and `perPage` items. |
| Pagination.PagesTileItems | src/components/Pagination.jsx:42-43 | Item `k` lies in the shown range of a page if and only if that page is `(k-1) / perPage + 1`, so the pages' ranges tile the list. |
| Pagination.Render | src/components/Pagination.jsx:5-115 | Nothing renders for at most one page. First and previous are disabled exactly on page 1. Next and last are disabled exactly on the last page. The "Showing x–y of z" line carries `StartItem`, `EndItem` and the item count. |
| Pagination.EnabledButtonsStayInRange | src/components/Pagination.jsx:68-115 | From a real page, every enabled navigation button asks for a different real page. |
| BulkActions.Ids | src/components/BulkActions.jsx:12 | The ids of the visible expenses, in order. |
| BulkActions.SelectionFlags | src/components/BulkActions.jsx:5-7 | The count-based flags as written: "all" exactly when the page is non-empty and the selected count equals the visible count, "some" exactly when the count is positive and below it. "All" and "some" are never both set, and both are clear with nothing selected. On a non-empty page, one is set exactly when something is selected, unless more ids are selected than are visible. |
| BulkActions.CountIsNotMembership | src/components/BulkActions.jsx:6 | Two ids selected on another page make "all" true on a two-row page none of whose rows is selected. |
| BulkActions.MembershipFlags | src/components/BulkActions.jsx:5-7 | The corrected flags. "All" holds if and only if every visible id is selected. "Some" holds if and only if some visible id is selected but not all. |
| BulkActions.CountMatchesMembership | src/components/BulkActions.jsx:6 | When the visible ids are distinct and every selected id is visible, the count test and the membership test agree. |
| BulkActions.FlagsAgree | src/components/BulkActions.jsx:5-7 | Under those conditions the as-written flags equal the corrected ones. |
| BulkActions.AddEvents | src/components/BulkActions.jsx:11-17 | Checking the header box adds only unselected visible ids, and every one of them. |
| BulkActions.RemoveEvents | src/components/BulkActions.jsx:18-22 | Unchecking it issues one remove per selected id, in order. |
| BulkActions.Apply | src/components/BulkActions.jsx:15-20 | One add or remove call changes the selection set by exactly that id and keeps it free of duplicates. |
| BulkActions.SelectAllChecked | src/components/BulkActions.jsx:11-17 | After checking, the selection is the old selection together with every visible id. |
| BulkActions.SelectAllUnchecked | src/components/BulkActions.jsx:18-22 | After unchecking, the selection is empty, including ids that are not on the page. |
| BulkActions.BulkDelete | src/components/BulkActions.jsx:25-31 | Delete is requested exactly when something is selected and the confirmation is accepted, and it receives every selected id. |
| BulkActions.BulkEdit | src/components/BulkActions.jsx:33-36 | Edit receives every selected id, and is requested exactly when something is selected. |
| BulkActions.Render | src/components/BulkActions.jsx:38-72 | Nothing renders for an empty page. The header box is ticked by the count flag, so exactly when the selection has as many ids as the page has rows, and is indeterminate by the partial-count flag, never both. The label counts the page's rows. The action buttons and the `n selected` text show exactly when something is selected, with the selection's size. |
| CategoryFilter.SortedDistinct | src/components/CategoryFilter.jsx:18-31 | The option list is strictly sorted, with no repeats, and holds exactly the non-empty values given. |
| CategoryFilter.StrictlySortedUnique | src/components/CategoryFilter.jsx:30-31 | Two strictly sorted lists with the same elements are equal. |
| CategoryFilter.OptionsOrderIndependent | src/components/CategoryFilter.jsx:16-32 | The option lists depend only on which expenses occur, not on their order. |
| CategoryFilter.Init | src/components/CategoryFilter.jsx:5-32 | The selections start from the parent's filters. The option lists hold exactly the non-empty categories present. |
| CategoryFilter.NextPanel | src/components/CategoryFilter.jsx:11-50 | A selection change stores its value and keeps the other level. Clear empties both. A sync from the parent takes its filters. A new expense list replaces only the option lists, with exactly the non-empty categories present. |
| CategoryFilter.Handle | src/components/CategoryFilter.jsx:34-50 | As written: the panel changes as `NextPanel` says, and only Clear reports, with two empty values. A selection change reports nothing, because its report reads an undeclared name and throws. |
| CategoryFilter.HandleIntended | src/components/CategoryFilter.jsx:34-50 | As intended: each selection change and Clear report the panel's new pair. A sync or a new expense list reports nothing. |
| CategoryFilter.AsWrittenSelectReportsNothing | src/components/CategoryFilter.jsx:37-43 | As written, a selection change updates the panel exactly as intended but the parent hears nothing, where the intended handler reports the new pair. |
| CategoryFilter.HandlersAgreeElsewhere | src/components/CategoryFilter.jsx:11-50 | The two versions always leave the same panel and differ in nothing but the two select reports. |
| CategoryFilter.ClearDeactivates | src/components/CategoryFilter.jsx:46-52 | After clearing, nothing is active, the parent hears `("", "")`, and clearing again changes nothing. |
| CategoryFilter.ChipsThenClearAgree | src/components/CategoryFilter.jsx:104-115 | Removing both chips, one at a time, leaves the panel where Clear Filters does. |
| CategoryFilter.SyncRoundTrip | src/components/CategoryFilter.jsx:11-14 | With the intended handlers, after a sync from the parent, re-selecting a level's current value reports exactly the parent's filters. |
| SummaryItems.Percent | src/components/ExpenseSummary.jsx:86 | A share is 0 when the total is not positive. Otherwise it is the amount times 100 over the total. |
| SummaryItems.PercentBounds | src/components/ExpenseSummary.jsx:85-86 | A non-negative part of a total is between 0 and 100 percent of it. |
| SummaryItems.SharesMakeWhole | src/components/ExpenseSummary.jsx:66-86 | Over all rows, the shares of a positive total add up to 100. |
| SummaryItems.Rows | src/components/ExpenseSummary.jsx:84-105 | One rendered row per item, in order, carrying its name, amount, share and count. |
| SummaryItems.RowsMakeWhole | src/components/ExpenseSummary.jsx:66-86 | Rows listed in any permuted order still have shares adding up to 100. |
| ExpenseSummary.LargestFirst | src/components/ExpenseSummary.jsx:69 | The result is a permutation of the rows, ordered by value from largest down when every row has a value. With a missing value, where the comparator yields NaN, the input order is kept. |
| ExpenseSummary.Show | src/components/ExpenseSummary.jsx:21-105 | Loading takes priority over an error, an error over emptiness, and emptiness over the listing. The listing's total is the sum of values, with missing read as 0. Each row's share is of that total, and the rows come largest first. |
| ExpenseSummary.ListingIsWhole | src/components/ExpenseSummary.jsx:66-105 | The listing holds every row once, and its shares add up to 100 whenever the total is positive. |
| ExpenseSummary.ListedSharesArePercentages | src/components/ExpenseSummary.jsx:85-86 | With non-negative values, every listed share lies between 0 and 100. |
| SecondarySummary.Handle | src/components/SecondarySummary.jsx:16-31 | A reload sets loading and clears the error. A success stores the rows. A failure stores no rows and the message. Loading ends after either outcome. |
| SecondarySummary.SecondaryName | src/components/SecondarySummary.jsx:92 | The row's secondary category, or `Uncategorized` when it is empty. |
| SecondarySummary.LargestFirst | src/components/SecondarySummary.jsx:34 | A permutation of the rows, ordered by `total` (missing read as 0) from largest down. |
| SecondarySummary.PieItem | src/components/SecondarySummary.jsx:68-72 | Each object handed to the pie chart resolves to the row's name, its total and its count. |
| SecondarySummary.PieData | src/components/SecondarySummary.jsx:68-72 | One pie object per row, in order. |
| SecondarySummary.Listing | src/components/SecondarySummary.jsx:33-107 | The content's total is the sum of the totals, a missing one read as 0. The pie shows exactly when there are rows. Row i of the list is the i-th row of the largest-first order: its name is the secondary category or `Uncategorized`, its amount the total (0 when missing), its count the count (0 when missing), and its share that amount's percentage of the total, 0 when the total is not positive. Amounts never increase down the list. |
| SecondarySummary.Show | src/components/SecondarySummary.jsx:33-109 | The spinner follows `loading`, and the error shows when it is truthy. Content shows exactly when neither is set, and it is then the listing of the stored rows, with each row's name, amount, count and share as `Listing` states. |
| SecondarySummary.ListingIsWhole | src/components/SecondarySummary.jsx:33-107 | The listed rows are the stored rows, none dropped or repeated, and their shares add up to 100% when the total is positive. |
| SecondarySummary.ListedSharesArePercentages | src/components/SecondarySummary.jsx:86-87 | With non-negative totals every listed share lies between 0 and 100. |
| SecondarySummary.PieMatchesList | src/components/SecondarySummary.jsx:65-107 | Sector for sector, the pie shows the list's names, amounts and counts, and draws exactly when the total is not zero. |
| SecondarySummary.PieSum | src/components/SecondarySummary.jsx:33-72 | The pie's total equals the list's total. |
| SecondarySummary.LoadCycle | src/components/SecondarySummary.jsx:16-63 | A failed load shows its message and no content. A successful load lists exactly the rows received, with their total. |
| PieChart.PieValue | src/components/PieChart.jsx:17 | `value` if truthy, else `total` if truthy, else 0. A zero `value` falls through to `total`. |
| PieChart.PieLabel | src/components/PieChart.jsx:22-24 | `id` if non-empty, else `secondarycategory` if non-empty, else `Uncategorized`. The label is never empty. |
| PieChart.SectorSpan | src/components/PieChart.jsx:51-52 | A sector spans exactly the angle of its own value. |
| PieChart.Slices | src/components/PieChart.jsx:41-81 | One slice per item, in order, with its label, value, count and share. The large-arc flag is set exactly when the angle exceeds 180 degrees. Each slice starts where the previous one ended, and the last ends after all the values. |
| PieChart.Chart | src/components/PieChart.jsx:6-33 | No chart for missing or empty data or a zero total. Otherwise one slice per item. |
| PieChart.ChartClosesCircle | src/components/PieChart.jsx:36-71 | The first sector starts at -90 degrees, each follows the previous, and the last ends after the whole total, at 270 degrees. |
| PieChart.FullTurn | src/components/PieChart.jsx:44 | A zero value spans no angle, and the whole total spans 360 degrees. |
| PieChart.SectorsWithinCircle | src/components/PieChart.jsx:43-62 | With non-negative values, each sector's angle lies in 0..360 and its share in 0..100. The large-arc flag is set exactly when the share exceeds one half. |
| PieChart.PartOfWhole | src/components/PieChart.jsx:43-62 | For a part of a total, the angle lies in 0..360 and the share in 0..100. The angle exceeds 180 exactly when the share exceeds 50. |
| ExpenseCharts.Show | src/components/ExpenseCharts.jsx:8-59 | A missing summary is the empty list. The pie is the chart of the summary. The list shows exactly when there are rows: one per row, in the summary's order, with shares of the total of `value`s. Row i's share is its `value` (0 when missing) times 100 over that total, and 0 when the total is not positive. |
| ExpenseCharts.ListIsWhole | src/components/ExpenseCharts.jsx:9-32 | The list's shares add up to 100 whenever its total is positive. |
| ExpenseCharts.PieMatchesList | src/components/ExpenseCharts.jsx:8-32 | When every row has a non-zero value and an id, the pie and the list show the same rows with the same amounts. |
| ExpenseCharts.PieAndListDisagreeOnTotalOnlyRows | src/components/ExpenseCharts.jsx:16-31 | For any row of a drawn chart that has a non-zero `total` but no `value`, the pie draws the `total` while the list shows 0. |
| ExpenseList.AddAmounts | src/components/ExpenseList.jsx:57 | The running sum is defined exactly when every amount is present, and then it is the sum of the amounts. |
| ExpenseList.Total | src/components/ExpenseList.jsx:57 | The total is the sum of all amounts, and NaN (`None`) as soon as one is missing. |
| ExpenseList.Checkbox | src/components/ExpenseList.jsx:74-80 | A checkbox shows only with a select handler. It is ticked exactly when a selection exists and holds the id. |
| ExpenseList.Cards | src/components/ExpenseList.jsx:72-81 | One card per expense, in order, each with its checkbox. |
| ExpenseList.Show | src/components/ExpenseList.jsx:6-72 | The range caption shows exactly with a range. Loading takes priority over an error, an error over an empty list, and an empty list over the listing. The listing has the total and one card per expense, in order. |
| ExpenseList.DeleteClick | src/components/ExpenseList.jsx:106-113 | The id is handed on exactly when a delete handler exists and the confirmation is accepted. |
| ExpenseList.CardsTickedIffAllSelected | src/components/ExpenseList.jsx:74-80 | Every card of a non-empty page is ticked if and only if the membership-based "all" flag holds. |
| ExpenseList.HeaderTickedOverUntickedCards | src/components/ExpenseList.jsx:74-80 | Whenever as many ids are selected as there are cards but none is on the page, the bulk bar's header box is ticked while every card is unticked. |
| Csv.Quote | src/utils/exportUtils.js:19-29 | A quoted cell starts and ends with a quote. |
| Csv.ReadBare | src/utils/exportUtils.js:24-31 | Reading an unquoted cell splits the text at its first comma. |
| Csv.ReadQuotedDoubled | src/utils/exportUtils.js:19-26 | Reading a quoted cell un-doubles its quotes, giving back the text, and stops right after the closing quote. |
| Csv.RecordRoundTrip | src/utils/exportUtils.js:24-31 | Reading back a written record gives the texts of its cells. |
| Export.CsvFields | src/utils/exportUtils.js:16-31 | Each row has six cells: the date, the quoted description, `amount \|\| 0`, the two quoted categories and the id. |
| Export.CsvContent | src/utils/exportUtils.js:6-38 | No file for a missing or empty list. Otherwise the header line, then one line per expense, joined by newlines. |
| Export.RowRoundTrip | src/utils/exportUtils.js:16-32 | A row is one line that reads back as the expense's six texts. |
| Export.HeaderRoundTrip | src/utils/exportUtils.js:13-36 | The header line reads back as the six column names. |
| Export.CsvRoundTrip | src/utils/exportUtils.js:13-38 | Splitting the file into lines gives the header and then every expense's row, in order, and each reads back field by field. |
| Export.OrDash | src/utils/exportUtils.js:116-117 | A category, or `-` when it is empty. |
| Export.EscapeHtml | src/utils/exportUtils.js:114-117 | Corrected escaping: the result holds no `<` or `>`. |
| Export.EscapeHtmlRoundTrip | src/utils/exportUtils.js:114-117 | Escaped text displays as the original text. |
| Export.EscapeAngles | src/utils/exportUtils.js:114 | As written: the angle brackets are replaced, so none remain. |
| Export.RowOf | src/utils/exportUtils.js:108-119 | A report row shows the expense's date, and its amount with missing read as 0. |
| Export.ReportOf | src/utils/exportUtils.js:61-120 | One row per expense, in order, and the count of expenses. The caption is `All Time` without a range. |
| Export.FormatForPrintAsWritten | src/utils/exportUtils.js:61-131 | As written: only the description is escaped, and only its angle brackets. The categories go in raw, or as `-`. The count and the total with missing amounts read as 0 are those of the list. |
| Export.FormatForPrint | src/utils/exportUtils.js:61-131 | The corrected report has the count and the total of amounts, with missing read as 0, and one row per expense with every text cell escaped. |
| Export.PrintShowsTexts | src/utils/exportUtils.js:114-117 | Every text cell of the corrected report displays exactly the expense's text (a dash for an empty category) and holds no markup. |
| Export.AsWrittenInjectsMarkup | src/utils/exportUtils.js:116 | As written, a category `<b>` reaches the page with its `<`. |
| Export.AsWrittenAltersAmpersandText | src/utils/exportUtils.js:114 | As written, a description `&lt;` is displayed as `<`. |
| Export.PrintExpenses | src/utils/exportUtils.js:138-144 | As written: nothing for a missing or empty list. Otherwise the page the program writes, with each description only angle-escaped and the categories raw, and the list's count and total. |
| Export.PrintExpensesEscaped | src/utils/exportUtils.js:138-144 | The same over the corrected formatter: every text cell displays as the expense's own text. |
| Export.PlainEscapesToItself | src/utils/exportUtils.js:114 | Text without `&`, `<` or `>` is its own HTML escape. |
| Export.PlainRowAgrees | src/utils/exportUtils.js:111-119 | A row whose texts hold no `&`, `<` or `>` is the same row either way it is escaped. |
| Export.PrintVersionsAgreeOnPlainText | src/utils/exportUtils.js:108-144 | The printed page as written equals the corrected one whenever no text holds `&`, `<` or `>`. |
| Export.PrintTotalIsListTotal | src/utils/exportUtils.js:62 | The report's total equals the list's total when every amount is present. If one is missing, the list's total is NaN while the report's is still defined. |
| DateUtils.EndOfDay | src/utils/dateUtils.js:10 | 23:59:59.999 is one millisecond before the next day's midnight. |
| DateUtils.DayBounds | src/utils/dateUtils.js:38-41 | A time lies between the start of one day and the end of another exactly when its day does. |
| DateUtils.CurrentWeek | src/utils/dateUtils.js:1-13 | Both ends are valid dates, and the end is 7 days less 1 ms after the start. |
| DateUtils.WeekBySetDate | src/utils/dateUtils.js:3-9 | The first `setDate` goes back `getDay()` days to the Sunday on or before today. The second lands six days after that Sunday. |
| DateUtils.WeekRangeIsWeek | src/utils/dateUtils.js:1-13 | The range starts on a Sunday and holds exactly the times whose Sunday-started week is that of `now`. |
| DateUtils.SundayWeek | src/utils/dateUtils.js:3-9 | The six days after a Sunday are exactly the days whose previous Sunday it is. |
| DateUtils.MonthsRange | src/utils/dateUtils.js:17-32 | The range from the first of month `a` to the end of day 0 of month `b` holds exactly the times in months `a` to `b - 1` of that year. |
| DateUtils.MonthRangeIsMonth | src/utils/dateUtils.js:15-24 | The month range holds exactly the times in the year and month of `now`. |
| DateUtils.MonthRangeEnds | src/utils/dateUtils.js:15-24 | The range's ends fall on day 1 and on the month's last day, which is 28 to 31 days on, leap years included. |
| DateUtils.QuarterStart | src/utils/dateUtils.js:28-29 | The quarter's first month is `3 * floor(m / 3)`, one of 0, 3, 6 or 9, and `m` lies in its three months. |
| DateUtils.QuarterRangeIsQuarter | src/utils/dateUtils.js:26-36 | The quarter range holds exactly the times in the year and quarter of `now`. |
| DateUtils.QuarterMonths | src/utils/dateUtils.js:26-36 | The quarter range holds exactly the times in the year of `now` and in the three months from its quarter's first month. |
| DateUtils.MonthInsideQuarter | src/utils/dateUtils.js:15-36 | Every time in the month range is in the quarter range. |
| DateUtils.PresetsHoldNow | src/utils/dateUtils.js:1-36 | Each of the three presets holds `now`. |
| Calendar.DayFromYearClosedForm | src/utils/dateUtils.js:17 | Counting the years one by one agrees with ECMAScript's closed form for `DayFromYear`. |
| Calendar.CivilFromDays | src/services/api.js:65-67 | The year, month and day of a day number form a valid date, and rebuilding it gives the same day number. |
| Calendar.CivilRoundTrip | src/utils/dateUtils.js:17 | A valid date survives the trip to its day number and back. |
| Calendar.NextMonth | src/utils/dateUtils.js:20 | The first of the next month is `DaysInMonth` days after the first of this month, also across a year end. |
| Calendar.SetDate | src/utils/dateUtils.js:5 | `setDate(d)` moves to day `d` of the same month, carrying over into neighbouring months. |
| Calendar.WeekDay | src/utils/dateUtils.js:3 | `getDay()` is in `0..6`. |
| DateText.IsoYear | src/components/ExpenseForm.jsx:19 | For years 0 to 9999 the year field is four digits denoting the year. |
| DateText.ParseDateOnly | src/services/api.js:458 | A text that reads as a date has the `YYYY-MM-DD` shape and denotes a valid date. |
| DateText.DateOnlyTime | src/services/api.js:458 | `new Date(text)` is valid exactly when the text reads as a date. |
| DateText.ApiDateIsIso | src/services/api.js:64-69 | For four-digit years `formatDateForAPI` writes the full date of section 5.6 of RFC 3339, the same text as `toISOString().split('T')[0]`. |
| DateText.IsoDateRoundTrip | src/components/ExpenseForm.jsx:19 | Reading back the ISO date of a valid date in years 0 to 9999 gives that date. |
| DateText.ParsedIsIso | src/services/api.js:458 | A text that reads as a date is the ISO text of that date. |
| DateText.FormDateRoundTrip | src/components/ExpenseForm.jsx:19 | The date shown for time `t` reads back as midnight of `t`'s day. |
| DateText.ApiDateOfInput | src/services/api.js:458 | Formatting the date read from a date input gives back the input's text, for four-digit years. |
| DateFilter.CustomRange | src/components/DateFilter.jsx:24-32 | Each end is valid exactly when its input reads as a date. |
| DateFilter.ChooseKind | src/components/DateFilter.jsx:10-39 | The chosen type always becomes active. Week, month and quarter each hand on their preset. Custom hands on a range exactly when both inputs are non-empty. An unknown type hands on nothing. |
| DateFilter.Handle | src/components/DateFilter.jsx:10-97 | The Custom button only switches the type. Each input changes only its own date. Apply is a no-op while either input is empty, and otherwise hands on the custom range. |
| DateFilter.EmitsOnlyOnRequest | src/components/DateFilter.jsx:10-97 | A range is handed on exactly by a preset, a custom choice with both dates, or an enabled Apply. Only an input's own event changes that input. |
| DateFilter.PresetHoldsNow | src/components/DateFilter.jsx:14-23 | Every preset handed on holds `now`. |
| DateFilter.CustomRangeSendsTypedDates | src/components/DateFilter.jsx:41-45 | Applying two typed dates hands on a range whose ends are midnight of those days. |
| Api.Member | src/services/api.js:110-126 | `v?.key` is defined exactly for an object with that member. |
| Api.SetAuthToken | src/services/api.js:46-52 | A truthy token is stored, and anything else removes the entry. |
| Api.GetAuthToken | src/services/api.js:41-43 | The stored token if truthy, else the configured fallback, which is undefined. |
| Api.Authorization | src/services/api.js:13-24 | The header is `Bearer <token>` exactly when a truthy token is stored. |
| Api.TokenStoreLaws | src/services/api.js:41-52 | A stored truthy token is read back and sent as the header. A falsy one leaves no token and no header. |
| Api.AfterReply | src/services/api.js:27-38 | A 401 answer clears the token, and every other reply keeps it. |
| Api.StartParam | src/services/api.js:93 | The start date's text, or `1970-01-01` when omitted. |
| Api.EndParam | src/services/api.js:94 | The end date's text, or today's when omitted. |
| Api.ExpenseParams | src/services/api.js:82-104 | Both dates are always sent, and `offset` defaults to 0. `limit` is sent exactly when positive, and each category exactly when non-empty. |
| Api.SummaryParams | src/services/api.js:158-171 | The summary query holds the two dates with the same defaults. |
| Api.RangeParams | src/services/api.js:93-104 | A filter range is sent as the texts of its two ends. |
| Api.UnwrapExpenses | src/services/api.js:108-129 | A `null` body fails with the TypeError message. A present `data.payload.expenses` is returned first, and an array body is returned itself. Any result is truthy. |
| Api.UnwrapSummary | src/services/api.js:177-187 | The result is always an array: `data.data` if it is one, else an array body, else `[]`. |
| Api.EnvelopesUnwrap | src/services/api.js:110-129 | Each documented response shape unwraps to the list it carries. |
| Api.FetchError | src/services/api.js:131-147 | 401 and 404 give fixed messages, and any other status its code and text. No response gives the network message. A thrown error keeps its own message. |
| Api.FetchErrorDeterminesStatus | src/services/api.js:140 | Two equal messages for other statuses had the same status and text. |
| Api.CallError | src/services/api.js:430-439 | The body's truthy `message`, else the call's fallback text. No response gives the short network message. |
| Api.Fetch | src/services/api.js:82-147 | A fetch gives the unwrapped list or the mapped error, and the token store after the reply. |
| Api.Plain | src/services/api.js:269-288 | Sign-up and send-code give the body or the mapped error. |
| Api.SignIn | src/services/api.js:297-322 | A truthy `payload.access_token` is stored, and the body is returned. A failure gives the mapped error. |
| Api.SignOut | src/services/api.js:385-402 | The token is cleared whatever the reply. The call succeeds exactly when the reply did. |
| Api.SignInAuthorizes | src/services/api.js:297-322 | After a sign-in whose reply carries a token, requests carry that token. |
| Api.AddRequest | src/services/api.js:413-426 | The add body has the description and amount, with `date` and `category` only when truthy. |
| Api.AddExpense | src/services/api.js:413-440 | A missing argument rejects before any request is sent. Otherwise the call sends the body and succeeds exactly when the reply does. |
| Api.UpdateRequest | src/services/api.js:453-467 | The update body re-reads `created` as a date and formats it, with each category only when non-empty. |
| Api.UpdateSendsFormDate | src/services/api.js:458 | An update sends back the form's date for four-digit years, and `NaN-NaN-NaN` for an unreadable one. |
| Api.UpdateExpense | src/services/api.js:453-481 | Sends the update body and succeeds exactly when the reply does. |
| Api.DeleteExpense | src/services/api.js:518-532 | Succeeds exactly when the reply does, and a failure gives the mapped error. |
| Phone.FormatPhoneNumber | src/components/Login.jsx:38-54 | Text starting with `+` or without digits is unchanged. Ten digits become `+91` plus the digits. Any other digits become `+` plus the digits. |
| Phone.AcceptsIffE164 | src/components/Login.jsx:82-85 | A character automaton reading `+`, a digit 1-9 and 1 to 14 more digits accepts exactly the texts the pattern accepts. |
| Phone.FormatIdempotent | src/components/Login.jsx:38-54 | Formatting twice is formatting once. |
| Phone.FormattedAccepted | src/components/ForgotPassword.jsx:35-44 | A value without a leading `+` passes the check after formatting exactly when its digits fit the check. |
| Phone.SanitizeOtp | src/components/Login.jsx:260-262 | The code field keeps only digits: the first six typed, or all of them when fewer. |
| Phone.SanitizeIdempotent | src/components/Login.jsx:260-262 | Sanitising twice is sanitising once. |
| Phone.SanitizedFull | src/components/Login.jsx:260-262 | A sanitised code has six characters exactly when the text held at least six digits. |
| Phone.Countdown | src/components/Login.jsx:270-283 | The countdown's minutes and two-digit seconds (below 60) recompose the remaining seconds. |
| LoginForm.SwitchTo | src/components/Login.jsx:137-151 | Switching method clears the code step, the code, the timer and the error, and keeps what was typed. |
| LoginForm.ChangeNumber | src/components/Login.jsx:244-249 | Change Number goes back to the phone form with the code and timer cleared. |
| LoginForm.EmailLogin | src/components/Login.jsx:56-68 | Always signs in with the typed email and password, and shows the failure, if any. |
| LoginForm.SendOtp | src/components/Login.jsx:70-98 | An empty number or one failing the check is refused with its message, and nothing is sent. A valid number is sent formatted. A successful send opens the code step with a 300-second timer. |
| LoginForm.OtpLogin | src/components/Login.jsx:100-119 | Only a six-character code is verified, against the formatted number. |
| LoginForm.ResendOtp | src/components/Login.jsx:121-135 | Nothing happens while the timer runs. Afterwards the formatted number is sent again and the timer restarts on success. |
| LoginForm.Tick | src/components/Login.jsx:26-36 | One second takes the timer down by one, stopping at zero, and changes nothing else. |
| LoginForm.Step | src/components/Login.jsx:56-151 | A code is sent only by a send or a resend, a sign-in only by the email form, and a verification only by the code form. |
| LoginForm.ResendFooter | src/components/Login.jsx:270-283 | The countdown shows exactly while the timer runs. It shows minutes and two-digit seconds recomposing the timer. |
| LoginForm.InitialValid | src/components/Login.jsx:13-24 | The first state is valid: a code of at most six digits and a timer of at most 300. |
| LoginForm.StepKeepsValid | src/components/Login.jsx:56-262 | Every event keeps the state valid. |
| LoginForm.SentNumbersAccepted | src/components/Login.jsx:80-92 | Every number a code is sent to is accepted by the check's automaton. |
| LoginForm.CodeStepNeedsSend | src/components/Login.jsx:88-92 | The code step opens only through a successful send of a valid formatted number. |
| LoginForm.TypedCodeVerified | src/components/Login.jsx:104-107 | A typed code is verified exactly when the text held at least six digits, and then its first six digits are verified. |
| LoginForm.TicksCountDown | src/components/Login.jsx:26-36 | `n` seconds take the timer down by `n`, stopping at zero, and change nothing else. |
| LoginForm.ResendAfterDelay | src/components/Login.jsx:121-135 | After a successful send, a resend is refused for the next 299 seconds and allowed from 300 on. |
| ForgotPassword.IdentifierOf | src/components/ForgotPassword.jsx:72-75 | The email for the email channel, or the formatted number for the phone channel. The other is undefined. |
| ForgotPassword.RequestCheck | src/components/ForgotPassword.jsx:51-70 | A request is accepted exactly with a non-empty email, or a non-empty number whose formatted text passes the check. The empty-field messages name the channel. |
| ForgotPassword.RequestOtp | src/components/ForgotPassword.jsx:46-89 | A refused request shows why and calls nothing. A successful one moves to the verify step with a 600-second timer and the channel's message. |
| ForgotPassword.ResetCheck | src/components/ForgotPassword.jsx:96-109 | In order: a six-character code, a password of at least six characters, a matching confirmation. Only the first failure is reported. |
| ForgotPassword.ResetPassword | src/components/ForgotPassword.jsx:91-131 | The reset is called, with the identifier, code and new password, exactly when every check passes. |
| ForgotPassword.ResendOtp | src/components/ForgotPassword.jsx:133-153 | Nothing happens while the timer runs. Afterwards the code is requested again without the first request's checks. |
| ForgotPassword.SwitchTo | src/components/ForgotPassword.jsx:155-169 | Switching channel clears both identifiers and both messages. |
| ForgotPassword.ChangeIdentifier | src/components/ForgotPassword.jsx:258-263 | Change goes back to the request step with the code, both passwords and the timer cleared. |
| ForgotPassword.Step | src/components/ForgotPassword.jsx:46-278 | A reset is called only by the reset form, and a code requested only by a request or a resend. |
| ForgotPassword.InitialValid | src/components/ForgotPassword.jsx:13-23 | The first state is valid. |
| ForgotPassword.StepKeepsValid | src/components/ForgotPassword.jsx:46-330 | Every event the current step offers, and the browser lets through, keeps the state valid. Validity means a code of at most six digits, a timer of at most 600, and an accepted identifier on the verify step. |
| ForgotPassword.VerifyNeedsRequest | src/components/ForgotPassword.jsx:77-83 | The verify step is reached only by a successful, accepted request, which starts the timer at 600. |
| ForgotPassword.ResendIdentifierValid | src/components/ForgotPassword.jsx:133-153 | On a reachable verify step, a resend asks for a non-empty email or a number that passes the check. |
| ForgotPassword.ResetCallIffChecksPass | src/components/ForgotPassword.jsx:96-120 | A reset is attempted if and only if the three checks pass. |
| ForgotPassword.RequiredHidesEmptyMessages | src/components/ForgotPassword.jsx:208-230 | A request the browser lets through never meets the empty-email or empty-number message, because those fields are `required`. |
| ForgotPassword.AsWrittenNeverVerifies | src/components/ForgotPassword.jsx:2 | The bundler-independent consequence of the missing exports: even where the module loads and each call rejects, no call succeeds, so from the request step with no success message, no run of events reaches the verify step or shows a success message. |
| ForgotPassword.RequestReachesVerify | src/components/ForgotPassword.jsx:72-83 | With working calls, an accepted and successful request opens the verify step with the 600-second timer and calls `forgotPassword` with the identifier. |
| AuthContext.Mount | src/contexts/AuthContext.jsx:19-27 | Signed in exactly when a truthy token is stored, and no longer loading. |
| AuthContext.Unauthorized | src/contexts/AuthContext.jsx:30-33 | Signed out with a null user. |
| AuthContext.Authenticate | src/contexts/AuthContext.jsx:41-71 | Success exactly for a resolved call with a non-null body, which signs in with the reply's payload. A failed call changes no state. |
| AuthContext.Login | src/contexts/AuthContext.jsx:41-50 | `login` over `signIn`, with `Sign in failed` as its fallback message. |
| AuthContext.LoginWithOtp | src/contexts/AuthContext.jsx:62-71 | `loginWithOTP` over `verifyOTP`, with `Failed to verify OTP` as its fallback message. |
| AuthContext.Register | src/contexts/AuthContext.jsx:52-60 | A failed sign-up is returned without signing in. After a successful one the result is that of `login`. |
| AuthContext.Logout | src/contexts/AuthContext.jsx:73-82 | Always signed out with a null user and no token, even when the sign-out call fails. |
| AuthContext.LoginAuthorizes | src/contexts/AuthContext.jsx:41-50 | A login whose reply carries a token succeeds, signs in, and makes later requests carry that token. |
| AuthContext.FailedLoginKeepsState | src/contexts/AuthContext.jsx:41-50 | A failed login, other than a 401, changes neither the state nor the token. |
| AuthContext.LogoutEndsSession | src/contexts/AuthContext.jsx:73-82 | Signing in and then out, in any outcome of either call, ends signed out. A later mount does not restore the session. |
| AuthContext.RegisterNeedsBoth | src/contexts/AuthContext.jsx:52-60 | Registration succeeds exactly when both calls resolve and the sign-in body is not null. |
| ExpenseForm.Blank | src/components/ExpenseForm.jsx:23-31 | The empty form has today's date and nothing else. |
| ExpenseForm.Populate | src/components/ExpenseForm.jsx:13-33 | Editing copies the description and categories. The amount is shown when truthy, else empty. The date is the day of `created`, or today for 0. Adding gives the empty form. |
| ExpenseForm.HandleChange | src/components/ExpenseForm.jsx:35-41 | Only the named field changes. |
| ExpenseForm.FieldsDetermineForm | src/components/ExpenseForm.jsx:5-11 | A form is determined by its five fields. |
| ExpenseForm.ChangeBackRestores | src/components/ExpenseForm.jsx:35-41 | Typing a field's old value back restores the form. |
| ExpenseForm.UpdateOf | src/components/ExpenseForm.jsx:48-54 | The update carries the five fields, with the date as `created`. |
| ExpenseForm.AddOf | src/components/ExpenseForm.jsx:57-62 | The add carries the description, amount and date. Its category is the primary if non-empty, else the secondary if non-empty, else none. |
| ExpenseForm.Submit | src/components/ExpenseForm.jsx:43-64 | Once `handleSubmit` runs: an update of the edited expense's id exactly when editing, else an add. |
| ExpenseForm.Press | src/components/ExpenseForm.jsx:75-115 | The submit button submits exactly when description, amount and date are filled and the amount is not below 0, and then as `Submit` says. |
| ExpenseForm.PressSendsFilledForm | src/components/ExpenseForm.jsx:43-115 | What is submitted has a description, an amount and a date that reads as a date; for four-digit years the update sends back the date shown. |
| ExpenseForm.Title | src/components/ExpenseForm.jsx:66-72 | Nothing renders when closed. The title names the edit or the add. |
| ExpenseForm.AddSendsFirstCategory | src/components/ExpenseForm.jsx:57-62 | The add body has a category exactly when one was filled in, and then the first filled one. |
| ExpenseForm.UntouchedEditSendsExpense | src/components/ExpenseForm.jsx:13-54 | Opening an expense and saving it untouched sends back its own description, categories and day. |
| App.StartLoads | src/App.jsx:33-35 | Both spinners on and both errors cleared. Nothing else changes. |
| App.ExpensesLoaded | src/App.jsx:33-52 | A success stores the records newest first, as a permutation. A failure stores no records and the message. The spinner stops either way, and the summary is untouched. |
| App.SummaryLoaded | src/App.jsx:54-70 | A success stores the summary. A failure stores `[]` and its own error. The list's fields are untouched. |
| App.Mount | src/App.jsx:25-31 | The current week is kept and both lists are loaded for it. |
| App.FilterChange | src/App.jsx:72-76 | The range is kept and both lists are reloaded for it. |
| App.Settle | src/App.jsx:78-118 | A failed mutation alerts its message and changes nothing. A successful one closes as the handler does and reloads both lists exactly when a range is kept. |
| App.AddExpense | src/App.jsx:78-90 | An add without data alerts the destructuring error and sends nothing. Otherwise the body is sent. A success closes the dialog and reloads the kept range. A failure alerts the call's message and keeps the state. |
| App.UpdateExpense | src/App.jsx:92-105 | A success closes the dialog, forgets the edited expense and reloads. A failure alerts and keeps the state. |
| App.DeleteExpense | src/App.jsx:107-118 | A success reloads and leaves the dialog alone. A failure alerts and keeps the state. |
| App.Edit | src/App.jsx:120-123 | The expense is remembered and the dialog opens. |
| App.OpenAdd | src/App.jsx:147 | The dialog opens. |
| App.Cancel | src/App.jsx:125-128 | The dialog closes and the edited expense is forgotten. |
| App.SaveAsWritten | src/App.jsx:130-136 | As written: an edit updates the edited expense, and an add passes the missing second argument. |
| App.Save | src/App.jsx:130-136 | Corrected: an add passes the dialog's data. |
| App.ReloadShowsRecords | src/App.jsx:33-52 | A successful reload after a range change shows the fetched records newest first with no error. |
| App.LoadsIndependent | src/App.jsx:33-70 | A failed summary load leaves the list's records, error and spinner as they were, and a failed list load leaves the summary's. |
| App.MountedMutationsReload | src/App.jsx:25-118 | Once mounted, every successful mutation reloads the kept range. |
| App.AsWrittenAddAlwaysFails | src/App.jsx:130-136 | As written, adding from the dialog never sends a request. Whatever the server would answer, the user sees the destructuring error. |
| App.SaveAddsForm | src/App.jsx:130-136 | With the dialog's data, an add sends what the dialog showed. When the server accepts, the dialog closes and the range reloads. |
| App.SaveRoutesEdits | src/App.jsx:130-136 | Both versions route an edit to an update of the edited expense. |

## Left out

- **HTTP client and platform:**
  - Left out are the axios instance, the interceptor wiring, `localStorage` as storage, `window` events, and `encodeURIComponent` of the secondary-summary path.
  - The interceptors' effects are modelled: the header from the stored token, and a 401 clearing it.
  - The token store is a value threaded through.
- **External categorisation call:** `categorizePendingExpenses` posts to another service and shapes no data.
- **Unmodelled collaborators:**
  - `forgotPassword` and `resetPassword` are imported by the reset screen but are not defined in `src/services/api.js`. As written, the named imports do not link in an ES-module build, so the screen never renders; only under a bundler whose CommonJS interop binds a missing export to `undefined` does it render, and then every such call throws. The screen is modelled with their settled outcome as a parameter, which describes the screen once the two calls exist. `ForgotPassword.AsWrittenNeverVerifies` states the consequence that holds whichever way the code is bundled: the verify step is never reached (see Findings).
  - The sign-up screen is not part of this model.
- **Records and JSON:**
  - The App receives already-converted records (`seq<Expense>`). Converting a JSON list into records, and `data.sort` on a body that is not an array, are not modelled.
  - Summary rows are `SummaryItem`s.
- **Numbers and text formatting:**
  - `parseFloat`, `toFixed`, `toLocaleString`, `Intl.NumberFormat`, `toLocaleDateString` and `formatDate`/`formatCurrency` are left out. Floating point is replaced by integers and exact rationals. The export's date text is a function parameter.
  - `localeCompare` is approximated by lexicographic order on lower-cased text.
  - `toLowerCase` and `trim` cover ASCII and the common white space only.
- **Drawing:** SVG paths, trigonometry and colour hues of the pie chart.
- **Time zones:**
  - The local time zone is UTC. The program reads a date-only text such as `2024-03-15` as UTC midnight (`new Date(text)` in `src/services/api.js:458` and `src/components/DateFilter.jsx:27-28`), then formats it with local getters (`formatDateForAPI`, `src/services/api.js:64-69`). West of UTC, for example at UTC−5, that gives the previous day, so an edited expense dated 2024-03-15 is sent as 2024-03-14, and a typed custom range is sent a day early. The dialog's "today" also comes from `toISOString`, which is the UTC date. The following members hold only at the UTC zone and do not model that one-day shift:
    - DateText.FormDateRoundTrip
    - DateText.ApiDateOfInput
    - Api.UpdateSendsFormDate
    - DateFilter.CustomRangeSendsTypedDates
    - ExpenseForm.UntouchedEditSendsExpense
  - Dates beyond the ECMAScript time range, where `toISOString` throws, are left out. Date texts are read only in the `YYYY-MM-DD` form.
  - The date round trips are stated for four-digit years, the only ones a date input produces.
- **Timers and navigation:**
  - `setInterval` is replaced by a `Tick` event.
  - The two-second redirect after a reset, `window.open`, the print `setTimeout` and Blob downloads are left out.
  - `window.confirm` is a boolean parameter.
- **Transient flags:** the `loading`, `sendingOTP`, `requestLoading` and `resetLoading` button flags only disable buttons during a call.
- **Concurrency:** overlapping loads can settle out of order. Each handler is modelled as one atomic transition given its outcome.
- **Error texts:** an engine's `TypeError` texts are fixed strings, namely the V8 wording for reading a member of `null` and for destructuring `undefined`.
- **Browser form validation:**
  - ExpenseForm.Press models the `required` inputs and `min="0"`. It leaves out `step="0.01"` (an amount with more than two decimals is refused by the browser), and takes the amount to be what a number input holds.
  - LoginForm.EmailLogin, LoginForm.SendOtp and LoginForm.OtpLogin are modelled for every field value. That includes the empty ones that the `required` inputs of `src/components/Login.jsx:184-264` keep the browser from submitting, so their empty-field branches are reachable only in the model.
  - ForgotPassword.Offered covers the `required` inputs of the reset screen. It leaves out the `type="email"` format check and `minLength="6"` on the two password inputs.
- CategoryFilter.SortedDistinct: the option lists are ordered by code point, whereas `Array.prototype.sort` without a comparator compares UTF-16 code units. The two orders differ only when a category holds a character outside the Basic Multilingual Plane, such as an emoji, and another holds one in U+E000–U+FFFF at the same place: the emoji sorts first in the browser and last here.
- SummaryItems: truthiness of amounts is that of numbers. A summary field sent as the string `"0"` is truthy in JavaScript, so `item.value || item.total || 0` stops at it, while the model reads it as 0 and falls through to `total`. The other fallbacks agree, because `parseFloat` of the chosen text gives the same number.
- ForgotPassword.ResetCheck: lengths are counted in code points, whereas `length` counts UTF-16 code units. A password of three characters outside the Basic Multilingual Plane, such as three emoji, has length 6 and passes the source's check, but the model refuses it. The same holds for the six-character code check, whose input keeps only digits, so there it makes no difference.
- **Phone.FormatPhoneNumber:** the copy in `src/components/ForgotPassword.jsx` is the same function and is modelled once.
- **LoginForm.StepKeepsValid:** the timer bound relies on the 300-second delay of this screen. `ForgotPassword.StepKeepsValid` additionally requires that the event is one the current step renders, because the verify step's invariant cannot be kept by a request form that is not shown.
- **ExpenseSummary.LargestFirst:** when a row has no `value` the comparator returns NaN and the engine's order is unspecified. The model keeps the input order then, and states the ordering only when every row has a value.
- **Pure rendering:** `HamburgerMenu`, `ThemeToggle`, `SearchAndSort` and `src/config.js` have no logic beyond what is modelled.
- **Behaviour described for the system but absent from its code:**
  - Page slicing of the list.
  - Clearing the selection when the search or category changes.
  - Resetting to page 1.
  - A general multi-alias normaliser of summary rows.
  - Aggregated bulk-delete failure notices.
  - Only the code's own fallback chains are modelled.
- **Follows the code, not the system's description:**
  - "All selected" compares counts, not membership. Both are modelled; see Findings.
  - The category selects never report to the parent, because their reports read undeclared names. Both the code and the intended handlers are modelled; see Findings.
  - The print page escapes only the description's angle brackets. `Export.PrintExpenses` is the program's page, and `Export.PrintExpensesEscaped` the corrected one.
  - A login whose reply body is `null` sets `authenticated` before reading `payload` throws, so it reports failure with the flag set (`AuthContext.Authenticate`).

## Findings

| source | as written | input that shows it | evidently intended | confidence | as-written member | corrected member |
|---|---|---|---|---|---|---|
| src/App.jsx:130-136 | `handleSaveExpense` passes its second argument to the add handler, but the dialog calls `onSave(data)` with one argument when adding, so `addExpense(undefined)` throws while destructuring | any add from the dialog, e.g. description `Tea`, amount `5`, no expense being edited | add the dialog's data, the first argument | not executed | App.AsWrittenAddAlwaysFails | App.SaveAddsForm |
| src/components/BulkActions.jsx:6 | `allSelected` compares the number of selected ids with the number of visible rows | a page of rows `a`, `b` with the selection `{x, y}` from another page: the header box is ticked while no row is | every visible row is selected | not executed | BulkActions.CountIsNotMembership | BulkActions.FlagsAgree |
| src/utils/exportUtils.js:114-117 | only the description's `<` and `>` are escaped; `&` is not, and the categories are inserted raw | primary category `<b>` becomes markup; description `&lt;` prints as `<` | every text cell escaped as HTML text | not executed | Export.AsWrittenInjectsMarkup | Export.PrintShowsTexts |
| src/components/CategoryFilter.jsx:37-43 | the select handlers report `{ primarycategory: value, secondarycategory }` and `{ primarycategory, secondarycategory: value }`, but the component declares only `primaryCategory` and `secondaryCategory`, so each handler throws a `ReferenceError` after storing the value | choose `Food` as the primary category: the select shows `Food`, the list is not filtered | report the new pair to `onFilterChange` | not executed | CategoryFilter.AsWrittenSelectReportsNothing | CategoryFilter.SyncRoundTrip |
| src/components/ForgotPassword.jsx:2 | `forgotPassword` and `resetPassword` are imported from `src/services/api.js`, which exports neither. In this ES-module build the import fails to link in the browser, and a production build stops with "`forgotPassword` is not exported", so the screen never renders. Under a CommonJS-interop bundler the screen renders but every request, resend and reset calls `undefined` and fails | load the reset screen: the module fails to link. Where it renders, request a code for any email, e.g. `a@b.c`: the call throws and the verify step never opens | call the backend's reset endpoints | not executed | ForgotPassword.AsWrittenNeverVerifies | ForgotPassword.RequestReachesVerify |

=== FILE: api.dfy ===
/** The data shaping of `src/services/api.js`: the stored sign-in token and
    the 401 interceptor, the query parameters and request bodies, the
    unwrapping of response bodies and the error messages each call raises.

    The HTTP client itself is left out: every call takes the server's
    `Reply` as a parameter and returns the value it resolves to or the
    message it rejects with, together with the token store afterwards. */
module Api {
  import opened Options
  import opened Text
  import opened Calendar
  import opened DateUtils
  import opened DateText

  // ---------------------------------------------------------------- JSON bodies

  /** A parsed JSON body. */
  datatype Json =
    | Null
    | Bool(b: bool)
    | Num(n: int)
    | Str(s: string)
    | Arr(items: seq<Json>)
    | Obj(fields: map<string, Json>)

  /** JavaScript truthiness; arrays and objects are truthy even when empty. */
  predicate Truthy(v: Json) {
    match v
    case Null => false
    case Bool(b) => b
    case Num(n) => n != 0
    case Str(s) => s != ""
    case Arr(_) => true
    case Obj(_) => true
  }

  /** Truthiness of a value that may be `undefined` (`None`). */
  predicate Present(v: Option<Json>) {
    v.Some? && Truthy(v.value)
  }

  /** `v?.key`: `undefined` unless `v` is an object with that member. */
  function Member(v: Option<Json>, key: string): (r: Option<Json>)
    ensures r.Some? <==> v.Some? && v.value.Obj? && key in v.value.fields
    ensures r.Some? ==> r.value == v.value.fields[key]
  {
    if v.Some? && v.value.Obj? && key in v.value.fields then Some(v.value.fields[key]) else None
  }

  /** `v?.k1?.k2?...`: the members along `keys`. */
  function Path(v: Option<Json>, keys: seq<string>): Option<Json>
    decreases |keys|
  {
    if keys == [] then v else Path(Member(v, keys[0]), keys[1..])
  }

  /** `String(v)`, as an `Error` message is made from a value. */
  function JsText(v: Json): string
    decreases v
  {
    match v
    case Null => "null"
    case Bool(b) => if b then "true" else "false"
    case Num(n) => IntText(n)
    case Str(s) => s
    case Obj(_) => "[object Object]"
    case Arr(items) => Join(seq(|items|, i requires 0 <= i < |items| => if items[i].Null? then "" else JsText(items[i])), ",")
  }

  // ---------------------------------------------------------------- token store

  /** The `authToken` entry of local storage. The configuration defines no
      fallback token, so `API_CONFIG.token` is `undefined`. */
  type TokenStore = Option<string>

  /** `setAuthToken(token)`: a truthy token is stored, anything else removes
      the entry. */
  function SetAuthToken(token: Option<string>): (r: TokenStore)
    ensures r.Some? <==> TruthyText(token)
    ensures r.Some? ==> r == token
  {
    if TruthyText(token) then token else None
  }

  /** `getAuthToken()` and `getToken()`: the stored token if truthy, else
      the configured one, which is `undefined`. */
  function GetAuthToken(store: TokenStore): (r: Option<string>)
    ensures r.Some? <==> TruthyText(store)
    ensures r.Some? ==> r == store
  {
    if TruthyText(store) then store else None
  }

  /** The `Authorization` header the request interceptor adds. */
  function Authorization(store: TokenStore): (r: Option<string>)
    ensures r.Some? <==> TruthyText(store)
    ensures r.Some? ==> r.value == "Bearer " + store.value
  {
    match GetAuthToken(store)
    case Some(t) => Some("Bearer " + t)
    case None => None
  }

  /** Reading back a stored token gives it; storing a falsy one leaves no
      token and no header. */
  lemma TokenStoreLaws(token: Option<string>)
    ensures TruthyText(token) ==> GetAuthToken(SetAuthToken(token)) == token
    ensures TruthyText(token) ==> Authorization(SetAuthToken(token)) == Some("Bearer " + token.value)
    ensures !TruthyText(token) ==> GetAuthToken(SetAuthToken(token)).None? && Authorization(SetAuthToken(token)).None?
  {
  }

  // ---------------------------------------------------------------- replies

  /** How a request fails: the server answered with a status outside 2xx
      (`error.response`), no answer came (`error.request` only), or another
      error was thrown while setting up the request. */
  datatype Failure =
    | Response(status: int, statusText: string, body: Json)
    | NoResponse
    | Thrown(message: string)

  /** What the HTTP client hands back: the response body, or the failure. */
  datatype Reply = Ok(data: Json) | Err(failure: Failure)

  /** The response interceptor: a 401 answer clears the stored token. */
  function AfterReply(store: TokenStore, reply: Reply): (r: TokenStore)
    ensures r.None? <==> store.None? || (reply.Err? && reply.failure.Response? && reply.failure.status == 401)
    ensures r.Some? ==> r == store
  {
    if reply.Err? && reply.failure.Response? && reply.failure.status == 401 then None else store
  }

  // ---------------------------------------------------------------- dates and parameters

  /** A `Date` argument: `None` when omitted, else the date's time value
      (itself `None` for an invalid date, which is still truthy). */
  type DateArg = Option<Option<int>>

  /** The start date sent: its API text, or the epoch's when omitted. */
  function StartParam(start: DateArg): (r: string)
    ensures start.None? ==> r == "1970-01-01"
    ensures start.Some? ==> r == ApiDate(start.value)
  {
    if start.Some? then ApiDate(start.value) else "1970-01-01"
  }

  /** The end date sent: its API text, or today's when omitted. */
  function EndParam(end: DateArg, now: int): (r: string)
    ensures end.None? ==> r == ApiDate(Some(now))
    ensures end.Some? ==> r == ApiDate(end.value)
  {
    ApiDate(if end.Some? then end.value else Some(now))
  }

  /** The query of `fetchExpenses`. */
  datatype ExpenseQuery = ExpenseQuery(
    startDate: string,
    endDate: string,
    offset: int,
    limit: Option<int>,
    primarycategory: Option<string>,
    secondarycategory: Option<string>)

  /** The query of both summary calls. */
  datatype DateQuery = DateQuery(startDate: string, endDate: string)

  /** `fetchExpenses`' parameters: both dates always, `offset` defaulting to
      0, `limit` only when above 0, each category only when non-empty (an
      omitted category is `""`). */
  function ExpenseParams(start: DateArg, end: DateArg, offset: Option<int>, limit: Option<int>,
                         primary: string, secondary: string, now: int): (r: ExpenseQuery)
    ensures r.startDate == StartParam(start) && r.endDate == EndParam(end, now)
    ensures r.offset == if offset.Some? then offset.value else 0
    ensures r.limit.Some? <==> limit.Some? && limit.value > 0
    ensures r.limit.Some? ==> r.limit == limit
    ensures r.primarycategory.Some? <==> primary != ""
    ensures r.secondarycategory.Some? <==> secondary != ""
    ensures r.primarycategory.Some? ==> r.primarycategory.value == primary
    ensures r.secondarycategory.Some? ==> r.secondarycategory.value == secondary
  {
    ExpenseQuery(
      StartParam(start), EndParam(end, now), offset.GetOr(0),
      if limit.Some? && limit.value > 0 then limit else None,
      if primary != "" then Some(primary) else None,
      if secondary != "" then Some(secondary) else None)
  }

  function SummaryParams(start: DateArg, end: DateArg, now: int): (r: DateQuery)
    ensures r.startDate == StartParam(start) && r.endDate == EndParam(end, now)
  {
    DateQuery(StartParam(start), EndParam(end, now))
  }

  /** A range handed on by the date filter is sent as the texts of its two
      days. */
  lemma RangeParams(r: Range, now: int)
    ensures var q := SummaryParams(Some(r.start), Some(r.end), now);
      q.startDate == ApiDate(r.start) && q.endDate == ApiDate(r.end)
    ensures ExpenseParams(Some(r.start), Some(r.end), None, None, "", "", now)
      == ExpenseQuery(ApiDate(r.start), ApiDate(r.end), 0, None, None, None)
  {
  }

  // ---------------------------------------------------------------- unwrapping

  /** The message of the `TypeError` raised by reading a member of `null`. */
  const NullBodyMessage: string := "Cannot read properties of null (reading 'expenses')"

  /** The list inside an expenses response: `data.data.payload.expenses`,
      else the body if it is an array, else `data.expenses`, else
      `data.data.expenses`, each taken when truthy, else `[]`. A `null`
      body makes the third test throw. */
  function UnwrapExpenses(data: Json): (r: Outcome<Json>)
    ensures r.Failed? <==> data.Null?
    ensures r.Failed? ==> r.message == NullBodyMessage
    ensures r.Succeeded? ==> Truthy(r.result)
    ensures Present(Path(Some(data), ["data", "payload", "expenses"])) ==>
      r == Succeeded(Path(Some(data), ["data", "payload", "expenses"]).value)
    ensures data.Arr? ==> r == Succeeded(data)
  {
    var nested := Path(Some(data), ["data", "payload", "expenses"]);
    var top := Member(Some(data), "expenses");
    var inner := Path(Some(data), ["data", "expenses"]);
    if Present(nested) then Succeeded(nested.value)
    else if data.Arr? then Succeeded(data)
    else if data.Null? then Failed(NullBodyMessage)
    else if Present(top) then Succeeded(top.value)
    else if Present(inner) then Succeeded(inner.value)
    else Succeeded(Arr([]))
  }

  /** The list inside a summary response: `data.data` if it is an array,
      else the body if it is an array, else `[]`. */
  function UnwrapSummary(data: Json): (r: Json)
    ensures r.Arr?
    ensures data.Arr? ==> r == data
    ensures !data.Arr? && (Member(Some(data), "data").None? || !Member(Some(data), "data").value.Arr?) ==> r == Arr([])
  {
    var inner := Member(Some(data), "data");
    if inner.Some? && inner.value.Arr? then inner.value
    else if data.Arr? then data
    else Arr([])
  }

  /** Each documented response shape unwraps to the list it carries. */
  lemma EnvelopesUnwrap(items: seq<Json>)
    ensures UnwrapExpenses(Obj(map["data" := Obj(map["payload" := Obj(map["expenses" := Arr(items)])])])) == Succeeded(Arr(items))
    ensures UnwrapExpenses(Arr(items)) == Succeeded(Arr(items))
    ensures UnwrapExpenses(Obj(map["expenses" := Arr(items)])) == Succeeded(Arr(items))
    ensures UnwrapExpenses(Obj(map["data" := Obj(map["expenses" := Arr(items)])])) == Succeeded(Arr(items))
    ensures UnwrapSummary(Obj(map["data" := Arr(items)])) == Arr(items)
    ensures UnwrapSummary(Arr(items)) == Arr(items)
  {
    var top := Obj(map["expenses" := Arr(items)]);
    assert Member(Some(top), "data").None?;
    var inner := Obj(map["data" := Obj(map["expenses" := Arr(items)])]);
    assert Member(Some(inner), "expenses").None?;
    assert Path(Some(inner), ["data", "payload", "expenses"]).None? by {
      assert Member(Member(Some(inner), "data"), "payload").None?;
    }
  }

  // ---------------------------------------------------------------- error messages

  datatype Endpoint = Expenses | Summary | SecondarySummary

  const Unauthorized: string := "Unauthorized: Please check your Bearer token"
  const NetworkDown: string := "Network error: Could not connect to the server. Please check if the API is running."
  const NetworkShort: string := "Network error: Could not connect to the server."

  function NotFound(e: Endpoint): string {
    match e
    case Expenses => "API endpoint not found"
    case Summary => "Summary API endpoint not found"
    case SecondarySummary => "Secondary summary not found"
  }

  function FailedPrefix(e: Endpoint): string {
    match e
    case Expenses => "Failed to fetch expenses: "
    case Summary => "Failed to fetch summary: "
    case SecondarySummary => "Failed to fetch secondary summary: "
  }

  /** The message a fetch call rejects with. */
  function FetchError(e: Endpoint, f: Failure): (r: string)
    ensures f.Response? && f.status == 401 ==> r == Unauthorized
    ensures f.Response? && f.status == 404 ==> r == NotFound(e)
    ensures f.Response? && f.status != 401 && f.status != 404 ==>
      r == FailedPrefix(e) + IntText(f.status) + " " + f.statusText
    ensures f.NoResponse? ==> r == NetworkDown
    ensures f.Thrown? ==> r == f.message
  {
    match f
    case Response(status, text, _) =>
      if status == 401 then Unauthorized
      else if status == 404 then NotFound(e)
      else FailedPrefix(e) + IntText(status) + " " + text
    case NoResponse => NetworkDown
    case Thrown(m) => m
  }

  /** The message of a fetch error for any other status determines the
      status and its text. */
  lemma FetchErrorDeterminesStatus(e: Endpoint, s1: nat, t1: string, b1: Json, s2: nat, t2: string, b2: Json)
    requires s1 != 401 && s1 != 404 && s2 != 401 && s2 != 404
    requires FetchError(e, Response(s1, t1, b1)) == FetchError(e, Response(s2, t2, b2))
    ensures s1 == s2 && t1 == t2
  {
    var p := FailedPrefix(e);
    var m1, m2 := Decimal(s1) + " " + t1, Decimal(s2) + " " + t2;
    assert p + m1 == FetchError(e, Response(s1, t1, b1));
    assert p + m2 == FetchError(e, Response(s2, t2, b2));
    assert (p + m1)[|p|..] == m1 && (p + m2)[|p|..] == m2;
    DigitsBeforeSpace(Decimal(s1), t1, Decimal(s2), t2);
    DecimalRoundTrip(s1);
    DecimalRoundTrip(s2);
  }

  /** A run of digits followed by a space is fixed by the text it starts. */
  lemma DigitsBeforeSpace(d1: string, t1: string, d2: string, t2: string)
    requires AllDigits(d1) && AllDigits(d2)
    requires d1 + " " + t1 == d2 + " " + t2
    ensures d1 == d2 && t1 == t2
  {
    var m1, m2 := d1 + " " + t1, d2 + " " + t2;
    FirstSpace(d1, t1);
    FirstSpace(d2, t2);
    assert |d1| == |d2|;
    assert m1[..|d1|] == d1 && m2[..|d2|] == d2;
    assert m1[|d1| + 1..] == t1 && m2[|d2| + 1..] == t2;
  }

  /** The first space after a run of digits is the one that ends it. */
  lemma FirstSpace(d: string, t: string)
    requires AllDigits(d)
    ensures (d + " " + t)[|d|] == ' '
    ensures forall k :: 0 <= k < |d| ==> (d + " " + t)[k] != ' '
  {
    assert forall k :: 0 <= k < |d| ==> (d + " " + t)[k] == d[k];
  }

  /** The message of a failed sign-up, sign-in, OTP or mutation call:
      the body's `message` when truthy, else the call's own text. */
  function CallError(fallback: string, f: Failure): (r: string)
    ensures f.Response? && Present(Member(Some(f.body), "message")) ==>
      r == JsText(Member(Some(f.body), "message").value)
    ensures f.Response? && !Present(Member(Some(f.body), "message")) ==> r == fallback
    ensures f.NoResponse? ==> r == NetworkShort
    ensures f.Thrown? ==> r == f.message
  {
    match f
    case Response(_, _, body) =>
      var m := Member(Some(body), "message");
      if Present(m) then JsText(m.value) else fallback
    case NoResponse => NetworkShort
    case Thrown(m) => m
  }

  // ---------------------------------------------------------------- calls

  /** `fetchExpenses`, `fetchSummary` and `fetchSecondarySummary` given the
      server's reply: the unwrapped list or the mapped error. */
  function Fetch(e: Endpoint, store: TokenStore, reply: Reply): (r: (TokenStore, Outcome<Json>))
    ensures r.0 == AfterReply(store, reply)
    ensures reply.Err? ==> r.1 == Failed(FetchError(e, reply.failure))
    ensures reply.Ok? && e == Expenses ==> r.1 == UnwrapExpenses(reply.data)
    ensures reply.Ok? && e != Expenses ==> r.1 == Succeeded(UnwrapSummary(reply.data))
  {
    var out :=
      match reply
      case Err(f) => Failed(FetchError(e, f))
      case Ok(data) => if e == Expenses then UnwrapExpenses(data) else Succeeded(UnwrapSummary(data));
    (AfterReply(store, reply), out)
  }

  /** `signUp` and `sendOTP`: the body, or the mapped error. */
  function Plain(fallback: string, store: TokenStore, reply: Reply): (r: (TokenStore, Outcome<Json>))
    ensures r.0 == AfterReply(store, reply)
    ensures reply.Ok? ==> r.1 == Succeeded(reply.data)
    ensures reply.Err? ==> r.1 == Failed(CallError(fallback, reply.failure))
  {
    (AfterReply(store, reply), match reply case Ok(data) => Succeeded(data) case Err(f) => Failed(CallError(fallback, f)))
  }

  /** `signIn` and `verifyOTP`: a truthy `payload.access_token` in the
      reply is stored; the body is returned either way. */
  function SignIn(fallback: string, store: TokenStore, reply: Reply): (r: (TokenStore, Outcome<Json>))
    ensures reply.Ok? && Present(Path(Some(reply.data), ["payload", "access_token"])) ==>
      r.0 == SetAuthToken(Some(JsText(Path(Some(reply.data), ["payload", "access_token"]).value)))
    ensures reply.Ok? && !Present(Path(Some(reply.data), ["payload", "access_token"])) ==> r.0 == store
    ensures reply.Ok? ==> r.1 == Succeeded(reply.data)
    ensures reply.Err? ==> r == (AfterReply(store, reply), Failed(CallError(fallback, reply.failure)))
  {
    match reply
    case Ok(data) =>
      var token := Path(Some(data), ["payload", "access_token"]);
      (if Present(token) then SetAuthToken(Some(JsText(token.value))) else store, Succeeded(data))
    case Err(f) => (AfterReply(store, reply), Failed(CallError(fallback, f)))
  }

  /** `signOut`: the token is cleared whatever the reply. */
  function SignOut(store: TokenStore, reply: Reply): (r: (TokenStore, Outcome<Json>))
    ensures r.0.None?
    ensures reply.Ok? <==> r.1.Succeeded?
    ensures reply.Err? ==> r.1 == Failed(CallError("Sign out failed", reply.failure))
  {
    (SetAuthToken(None), match reply case Ok(data) => Succeeded(data) case Err(f) => Failed(CallError("Sign out failed", f)))
  }

  /** A sign-in whose reply carries a string token leaves the requests
      after it carrying that token. */
  lemma SignInAuthorizes(store: TokenStore, data: Json, token: string)
    requires token != ""
    requires Path(Some(data), ["payload", "access_token"]) == Some(Str(token))
    ensures Authorization(SignIn("Sign in failed", store, Ok(data)).0) == Some("Bearer " + token)
  {
  }

  // ---------------------------------------------------------------- request bodies

  /** The argument of `addExpense`; `amount` is the text `parseFloat` reads. */
  datatype AddInput = AddInput(expense: string, amount: string, date: Option<string>, category: Option<string>)

  datatype AddBody = AddBody(expense: string, amount: string, date: Option<string>, category: Option<string>)

  /** The request body: `date` and `category` only when truthy. */
  function AddRequest(input: AddInput): (r: AddBody)
    ensures r.expense == input.expense && r.amount == input.amount
    ensures r.date.Some? <==> TruthyText(input.date)
    ensures r.category.Some? <==> TruthyText(input.category)
    ensures r.date.Some? ==> r.date == input.date
    ensures r.category.Some? ==> r.category == input.category
  {
    AddBody(input.expense, input.amount,
            if TruthyText(input.date) then input.date else None,
            if TruthyText(input.category) then input.category else None)
  }

  /** The message of the `TypeError` from destructuring a missing argument. */
  const NoArgumentMessage: string := "Cannot destructure property 'expense' of 'undefined' as it is undefined."

  /** `addExpense(arg)`: a missing argument rejects before any request is
      made; otherwise the body sent and the outcome of the reply. */
  function AddExpense(store: TokenStore, arg: Option<AddInput>, reply: Reply): (r: (TokenStore, Option<AddBody>, Outcome<Json>))
    ensures arg.None? ==> r == (store, None, Failed(NoArgumentMessage))
    ensures arg.Some? ==> r.0 == AfterReply(store, reply) && r.1 == Some(AddRequest(arg.value))
    ensures arg.Some? ==> (r.2.Succeeded? <==> reply.Ok?)
    ensures arg.Some? && reply.Err? ==> r.2 == Failed(CallError("Failed to add expense", reply.failure))
  {
    match arg
    case None => (store, None, Failed(NoArgumentMessage))
    case Some(input) =>
      var (s, out) := Plain("Failed to add expense", store, reply);
      (s, Some(AddRequest(input)), out)
  }

  /** The second argument of `updateExpense`; `created` is the form's date
      text. */
  datatype UpdateInput = UpdateInput(expense: string, amount: string, created: string, primarycategory: string, secondarycategory: string)

  datatype UpdateBody = UpdateBody(expense: string, amount: string, created: string, primarycategory: Option<string>, secondarycategory: Option<string>)

  /** The request body: `created` re-read as a date and formatted, each
      category only when non-empty. */
  function UpdateRequest(input: UpdateInput): (r: UpdateBody)
    ensures r.expense == input.expense && r.amount == input.amount
    ensures r.created == ApiDate(DateOnlyTime(input.created))
    ensures r.primarycategory.Some? <==> input.primarycategory != ""
    ensures r.secondarycategory.Some? <==> input.secondarycategory != ""
    ensures r.primarycategory.Some? ==> r.primarycategory.value == input.primarycategory
    ensures r.secondarycategory.Some? ==> r.secondarycategory.value == input.secondarycategory
  {
    UpdateBody(input.expense, input.amount, ApiDate(DateOnlyTime(input.created)),
               if input.primarycategory != "" then Some(input.primarycategory) else None,
               if input.secondarycategory != "" then Some(input.secondarycategory) else None)
  }

  /** An update sends back the date the form showed (four-digit years),
      and a date that cannot be read as `NaN-NaN-NaN`. */
  lemma UpdateSendsFormDate(input: UpdateInput)
    ensures var c := ParseDateOnly(input.created);
      c.Some? && 1000 <= c.value.year ==> UpdateRequest(input).created == input.created
    ensures ParseDateOnly(input.created).None? ==> UpdateRequest(input).created == "NaN-NaN-NaN"
  {
    var c := ParseDateOnly(input.created);
    if c.Some? && 1000 <= c.value.year {
      ApiDateOfInput(c.value);
      IsoDateRoundTrip(c.value);
      ParsedIsIso(input.created);
    }
  }

  /** `updateExpense(id, input)`. */
  function UpdateExpense(store: TokenStore, input: UpdateInput, reply: Reply): (r: (TokenStore, UpdateBody, Outcome<Json>))
    ensures r.0 == AfterReply(store, reply) && r.1 == UpdateRequest(input)
    ensures r.2.Succeeded? <==> reply.Ok?
    ensures reply.Err? ==> r.2 == Failed(CallError("Failed to update expense", reply.failure))
  {
    var (s, out) := Plain("Failed to update expense", store, reply);
    (s, UpdateRequest(input), out)
  }

  /** `deleteExpense(id)`. */
  function DeleteExpense(store: TokenStore, reply: Reply): (r: (TokenStore, Outcome<Json>))
    ensures r.0 == AfterReply(store, reply)
    ensures r.1.Succeeded? <==> reply.Ok?
    ensures reply.Err? ==> r.1 == Failed(CallError("Failed to delete expense", reply.failure))
  {
    Plain("Failed to delete expense", store, reply)
  }
}

=== FILE: app.dfy ===
/** The expense tracker screen of `src/App.jsx`: the loaded list and
    summary with their own loading and error flags, the selected date
    range, and the add/edit dialog. Each handler is one transition; a call
    it awaits is given by its settled outcome, and a reload it starts is
    reported as the range both lists are fetched for. */
module App {
  import opened Options
  import opened Records
  import opened DateUtils
  import opened FilterAndSort
  import Api
  import ExpenseForm

  datatype AppState = AppState(
    expenses: seq<Expense>,
    summary: Api.Json,
    range: Option<Range>,
    loading: bool,
    summaryLoading: bool,
    error: Option<string>,
    summaryError: Option<string>,
    showForm: bool,
    editing: Option<Expense>)

  const Initial: AppState := AppState([], Api.Arr([]), None, true, true, None, None, false, None)

  /** A request a handler sent. */
  datatype Sent =
    | AddSent(body: Api.AddBody)
    | UpdateSent(id: Id, changes: Api.UpdateBody)
    | DeleteSent(id: Id)

  /** What a handler asks of the world beside its new state: the request it
      sent, the `alert` it shows, and the range it reloads both lists for. */
  datatype Effects = Effects(sent: Option<Sent>, alert: Option<string>, reload: Option<Range>)

  // ---------------------------------------------------------------- loading

  /** The synchronous start of `loadExpenses` and `loadSummary`: both
      spinners on, both errors cleared. */
  function StartLoads(st: AppState): (r: AppState)
    ensures r.loading && r.summaryLoading && r.error.None? && r.summaryError.None?
    ensures r.expenses == st.expenses && r.summary == st.summary && r.range == st.range
    ensures r.showForm == st.showForm && r.editing == st.editing
  {
    st.(loading := true, summaryLoading := true, error := None, summaryError := None)
  }

  /** The end of `loadExpenses`: the records newest first, or no records
      and the message; the spinner off either way. */
  function ExpensesLoaded(st: AppState, out: Outcome<seq<Expense>>): (r: AppState)
    ensures !r.loading
    ensures out.Succeeded? ==> multiset(r.expenses) == multiset(out.result) && r.error == st.error
    ensures out.Succeeded? ==> forall i :: 0 < i < |r.expenses| ==> r.expenses[i - 1].created >= r.expenses[i].created
    ensures out.Failed? ==> r.expenses == [] && r.error == Some(out.message)
    ensures r.summary == st.summary && r.summaryLoading == st.summaryLoading && r.summaryError == st.summaryError
    ensures r.range == st.range && r.showForm == st.showForm && r.editing == st.editing
  {
    match out
    case Succeeded(xs) => st.(expenses := SortExpenses(xs, DateDesc), loading := false)
    case Failed(m) => st.(expenses := [], error := Some(m), loading := false)
  }

  /** The end of `loadSummary`, which touches only the summary's own
      fields. */
  function SummaryLoaded(st: AppState, out: Outcome<Api.Json>): (r: AppState)
    ensures !r.summaryLoading
    ensures out.Succeeded? ==> r.summary == out.result && r.summaryError == st.summaryError
    ensures out.Failed? ==> r.summary == Api.Arr([]) && r.summaryError == Some(out.message)
    ensures r.expenses == st.expenses && r.loading == st.loading && r.error == st.error
    ensures r.range == st.range && r.showForm == st.showForm && r.editing == st.editing
  {
    match out
    case Succeeded(data) => st.(summary := data, summaryLoading := false)
    case Failed(m) => st.(summary := Api.Arr([]), summaryError := Some(m), summaryLoading := false)
  }

  /** The mount effect: the current week, loaded. */
  function Mount(st: AppState, now: int): (r: (AppState, Effects))
    ensures r.0 == StartLoads(st).(range := Some(CurrentWeek(now)))
    ensures r.1 == Effects(None, None, Some(CurrentWeek(now)))
  {
    (StartLoads(st.(range := Some(CurrentWeek(now)))), Effects(None, None, Some(CurrentWeek(now))))
  }

  /** `handleFilterChange(range)`: the range is kept and both lists are
      reloaded for it. */
  function FilterChange(st: AppState, range: Range): (r: (AppState, Effects))
    ensures r.0.range == Some(range) && r.1.reload == Some(range)
    ensures r.0.loading && r.0.summaryLoading && r.0.error.None? && r.0.summaryError.None?
    ensures r.0.expenses == st.expenses && r.0.editing == st.editing && r.0.showForm == st.showForm
  {
    (StartLoads(st.(range := Some(range))), Effects(None, None, Some(range)))
  }

  // ---------------------------------------------------------------- mutations

  /** After an awaited mutation: on success the dialog update `close` and
      a reload of the kept range, if there is one; on failure an alert with
      the message after `prefix`, and nothing else. */
  function Settle(st: AppState, sent: Option<Sent>, out: Outcome<Api.Json>, close: AppState -> AppState, prefix: string): (r: (AppState, Effects))
    ensures r.1.sent == sent
    ensures out.Failed? ==> r == (st, Effects(sent, Some(prefix + out.message), None))
    ensures out.Succeeded? ==> r.1.alert.None? && r.1.reload == st.range
    ensures out.Succeeded? && st.range.Some? ==> r.0 == StartLoads(close(st))
    ensures out.Succeeded? && st.range.None? ==> r.0 == close(st)
  {
    match out
    case Failed(m) => (st, Effects(sent, Some(prefix + m), None))
    case Succeeded(_) =>
      var next := close(st);
      (if st.range.Some? then StartLoads(next) else next, Effects(sent, None, st.range))
  }

  function CloseForm(st: AppState): AppState {
    st.(showForm := false)
  }

  function CloseAndForget(st: AppState): AppState {
    st.(showForm := false, editing := None)
  }

  function KeepForm(st: AppState): AppState {
    st
  }

  /** `handleAddExpense(expenseData)` over `addExpense`. */
  function AddExpense(st: AppState, store: Api.TokenStore, arg: Option<Api.AddInput>, reply: Api.Reply): (r: (AppState, Api.TokenStore, Effects))
    ensures arg.None? ==> r == (st, store, Effects(None, Some("Failed to add expense: " + Api.NoArgumentMessage), None))
    ensures arg.Some? ==> r.2.sent == Some(AddSent(Api.AddRequest(arg.value)))
    ensures arg.Some? && reply.Ok? ==> !r.0.showForm && r.0.editing == st.editing && r.2.alert.None? && r.2.reload == st.range
    ensures arg.Some? && reply.Err? ==> r.0 == st && r.2.reload.None?
    ensures arg.Some? && reply.Err? ==> r.2.alert == Some("Failed to add expense: " + Api.CallError("Failed to add expense", reply.failure))
  {
    var (s, body, out) := Api.AddExpense(store, arg, reply);
    var sent := if body.Some? then Some(AddSent(body.value)) else None;
    var (next, fx) := Settle(st, sent, out, CloseForm, "Failed to add expense: ");
    (next, s, fx)
  }

  /** `handleUpdateExpense(id, expenseData)` over `updateExpense`: success
      also forgets the expense being edited. */
  function UpdateExpense(st: AppState, store: Api.TokenStore, id: Id, input: Api.UpdateInput, reply: Api.Reply): (r: (AppState, Api.TokenStore, Effects))
    ensures r.2.sent == Some(UpdateSent(id, Api.UpdateRequest(input)))
    ensures reply.Ok? ==> !r.0.showForm && r.0.editing.None? && r.2.alert.None? && r.2.reload == st.range
    ensures reply.Err? ==> r.0 == st && r.2.reload.None?
    ensures reply.Err? ==> r.2.alert == Some("Failed to update expense: " + Api.CallError("Failed to update expense", reply.failure))
  {
    var (s, body, out) := Api.UpdateExpense(store, input, reply);
    var (next, fx) := Settle(st, Some(UpdateSent(id, body)), out, CloseAndForget, "Failed to update expense: ");
    (next, s, fx)
  }

  /** `handleDeleteExpense(id)` over `deleteExpense` (after the list's
      confirmation). */
  function DeleteExpense(st: AppState, store: Api.TokenStore, id: Id, reply: Api.Reply): (r: (AppState, Api.TokenStore, Effects))
    ensures r.2.sent == Some(DeleteSent(id))
    ensures reply.Ok? ==> r.0.showForm == st.showForm && r.0.editing == st.editing && r.2.alert.None? && r.2.reload == st.range
    ensures reply.Err? ==> r.0 == st && r.2.reload.None?
    ensures reply.Err? ==> r.2.alert == Some("Failed to delete expense: " + Api.CallError("Failed to delete expense", reply.failure))
  {
    var (s, out) := Api.DeleteExpense(store, reply);
    var (next, fx) := Settle(st, Some(DeleteSent(id)), out, KeepForm, "Failed to delete expense: ");
    (next, s, fx)
  }

  /** `handleEditExpense` and the Add Expense button. */
  function Edit(st: AppState, e: Expense): (r: AppState)
    ensures r == st.(editing := Some(e), showForm := true)
  {
    st.(editing := Some(e), showForm := true)
  }

  function OpenAdd(st: AppState): (r: AppState)
    ensures r.showForm && r.editing == st.editing
  {
    st.(showForm := true)
  }

  /** `handleCancelForm`. */
  function Cancel(st: AppState): (r: AppState)
    ensures !r.showForm && r.editing.None?
    ensures r.expenses == st.expenses && r.range == st.range
  {
    st.(showForm := false, editing := None)
  }

  // ---------------------------------------------------------------- save

  /** `handleSaveExpense(idOrData, expenseData)` as written: when adding,
      the dialog passes its data as the first argument, but the second,
      `undefined`, is what reaches `addExpense`. */
  function SaveAsWritten(st: AppState, store: Api.TokenStore, form: ExpenseForm.FormData, reply: Api.Reply): (r: (AppState, Api.TokenStore, Effects))
    ensures st.editing.Some? ==> r == UpdateExpense(st, store, st.editing.value.id, ExpenseForm.UpdateOf(form), reply)
    ensures st.editing.None? ==> r == AddExpense(st, store, None, reply)
  {
    match ExpenseForm.Submit(st.editing, form)
    case Update(id, changes) => UpdateExpense(st, store, id, changes, reply)
    case Add(_) => AddExpense(st, store, None, reply)
  }

  /** `handleSaveExpense` as evidently intended: the dialog's own data is
      added. */
  function Save(st: AppState, store: Api.TokenStore, form: ExpenseForm.FormData, reply: Api.Reply): (r: (AppState, Api.TokenStore, Effects))
    ensures st.editing.Some? ==> r == UpdateExpense(st, store, st.editing.value.id, ExpenseForm.UpdateOf(form), reply)
    ensures st.editing.None? ==> r == AddExpense(st, store, Some(ExpenseForm.AddOf(form)), reply)
  {
    match ExpenseForm.Submit(st.editing, form)
    case Update(id, changes) => UpdateExpense(st, store, id, changes, reply)
    case Add(input) => AddExpense(st, store, Some(input), reply)
  }

  // ---------------------------------------------------------------- properties

  /** A reload that succeeds shows the fetched records newest first with no
      error. */
  lemma ReloadShowsRecords(st: AppState, range: Range, xs: seq<Expense>)
    ensures var r := ExpensesLoaded(FilterChange(st, range).0, Succeeded(xs));
      && r.error.None? && !r.loading && r.range == Some(range)
      && multiset(r.expenses) == multiset(xs)
  {
  }

  /** A failed summary load leaves the list, its error and its spinner as
      they were, and a failed list load the summary's. */
  lemma LoadsIndependent(st: AppState, m: string, n: string)
    ensures var a := SummaryLoaded(st, Failed(m));
      a.expenses == st.expenses && a.error == st.error && a.loading == st.loading
    ensures var b := ExpensesLoaded(st, Failed(n));
      b.summary == st.summary && b.summaryError == st.summaryError && b.summaryLoading == st.summaryLoading
  {
  }

  /** Once mounted, every successful mutation reloads the kept range. */
  lemma MountedMutationsReload(st: AppState, now: int, store: Api.TokenStore, id: Id, input: Api.UpdateInput, reply: Api.Reply)
    requires reply.Ok?
    ensures var m := Mount(st, now).0;
      && UpdateExpense(m, store, id, input, reply).2.reload == Some(CurrentWeek(now))
      && DeleteExpense(m, store, id, reply).2.reload == Some(CurrentWeek(now))
  {
  }

  /** As written, adding from the dialog never sends a request: whatever
      the server would answer, the user sees the destructuring error. */
  lemma AsWrittenAddAlwaysFails(st: AppState, store: Api.TokenStore, form: ExpenseForm.FormData, reply: Api.Reply)
    requires st.editing.None?
    ensures var (next, s, fx) := SaveAsWritten(st, store, form, reply);
      && next == st && s == store && fx.sent.None? && fx.reload.None?
      && fx.alert == Some("Failed to add expense: " + Api.NoArgumentMessage)
  {
  }

  /** With the dialog's data, an add sends what the dialog showed and, when
      the server accepts, closes the dialog and reloads. */
  lemma SaveAddsForm(st: AppState, store: Api.TokenStore, form: ExpenseForm.FormData, reply: Api.Reply)
    requires st.editing.None?
    ensures var (next, _, fx) := Save(st, store, form, reply);
      && fx.sent.Some? && fx.sent.value.AddSent?
      && fx.sent.value.body.expense == form.expense && fx.sent.value.body.amount == form.amount
      && (form.date != "" ==> fx.sent.value.body.date == Some(form.date))
      && (reply.Ok? ==> !next.showForm && fx.alert.None? && fx.reload == st.range)
  {
  }

  /** Both versions route an edit the same way, to an update of the edited
      expense; they differ only in the add. */
  lemma SaveRoutesEdits(st: AppState, store: Api.TokenStore, form: ExpenseForm.FormData, reply: Api.Reply)
    requires st.editing.Some?
    ensures Save(st, store, form, reply) == SaveAsWritten(st, store, form, reply)
    ensures Save(st, store, form, reply).2.sent == Some(UpdateSent(st.editing.value.id, Api.UpdateRequest(ExpenseForm.UpdateOf(form))))
  {
  }
}

=== FILE: auth_context.dfy ===
/** The authentication state of `src/contexts/AuthContext.jsx`: whether the
    user is signed in and the payload of the sign-in reply. Each handler is
    one transition given the settled outcome of the call it awaits; the
    token store of `src/services/api.js` is threaded through. */
module AuthContext {
  import opened Options
  import opened Api

  /** `user` is `None` for `undefined` (a reply without `payload`) and
      `Some(Null)` for `null`. */
  datatype Auth = Auth(authenticated: bool, user: Option<Json>, loading: bool)

  /** What `login`, `register` and `loginWithOTP` resolve to. */
  datatype LoginResult = Success | Failure(error: string)

  /** The state before the mount effect has run. */
  const Initial: Auth := Auth(false, Some(Null), true)

  /** The mount effect: signed in exactly when a token is stored, and no
      longer loading. */
  function Mount(st: Auth, store: TokenStore): (r: Auth)
    ensures !r.loading && r.user == st.user
    ensures r.authenticated <==> st.authenticated || TruthyText(GetAuthToken(store))
  {
    Auth(st.authenticated || TruthyText(GetAuthToken(store)), st.user, false)
  }

  /** The `auth:unauthorized` listener. */
  function Unauthorized(st: Auth): (r: Auth)
    ensures !r.authenticated && r.user == Some(Null) && r.loading == st.loading
  {
    Auth(false, Some(Null), st.loading)
  }

  /** The message of the `TypeError` from reading `payload` of a `null`
      reply body. */
  const NullPayloadMessage: string := "Cannot read properties of null (reading 'payload')"

  /** `login` over `signIn`, or `loginWithOTP` over `verifyOTP` (each with
      its own fallback message): a resolved call signs the user in with the
      reply's payload. A `null` body is signed in before reading `payload`
      throws, so the result is a failure although the flag is set. */
  function Authenticate(fallback: string, st: Auth, store: TokenStore, reply: Reply): (r: (Auth, TokenStore, LoginResult))
    ensures r.1 == SignIn(fallback, store, reply).0
    ensures r.2.Success? <==> reply.Ok? && reply.data != Null
    ensures r.2.Success? ==> r.0 == Auth(true, Member(Some(reply.data), "payload"), st.loading)
    ensures reply.Err? ==> r.0 == st && r.2 == Failure(CallError(fallback, reply.failure))
    ensures reply == Ok(Null) ==> r.0 == st.(authenticated := true) && r.2 == Failure(NullPayloadMessage)
  {
    var (s, out) := SignIn(fallback, store, reply);
    match out
    case Failed(m) => (st, s, Failure(m))
    case Succeeded(data) =>
      if data == Null then (st.(authenticated := true), s, Failure(NullPayloadMessage))
      else (Auth(true, Member(Some(data), "payload"), st.loading), s, Success)
  }

  function Login(st: Auth, store: TokenStore, reply: Reply): (r: (Auth, TokenStore, LoginResult))
    ensures r.2.Success? <==> reply.Ok? && reply.data != Null
    ensures r.2.Success? ==> r.0.authenticated && r.0.user == Member(Some(reply.data), "payload")
    ensures reply.Err? ==> r.0 == st && r.2 == Failure(CallError("Sign in failed", reply.failure))
  {
    Authenticate("Sign in failed", st, store, reply)
  }

  function LoginWithOtp(st: Auth, store: TokenStore, reply: Reply): (r: (Auth, TokenStore, LoginResult))
    ensures r.2.Success? <==> reply.Ok? && reply.data != Null
    ensures r.2.Success? ==> r.0.authenticated && r.0.user == Member(Some(reply.data), "payload")
    ensures reply.Err? ==> r.0 == st && r.2 == Failure(CallError("Failed to verify OTP", reply.failure))
  {
    Authenticate("Failed to verify OTP", st, store, reply)
  }

  /** `register`: a failed sign-up is returned without signing in;
      otherwise the result is that of `login`. */
  function Register(st: Auth, store: TokenStore, signUp: Reply, signIn: Reply): (r: (Auth, TokenStore, LoginResult))
    ensures signUp.Err? ==> r == (st, AfterReply(store, signUp), Failure(CallError("Sign up failed", signUp.failure)))
    ensures signUp.Ok? ==> r == Login(st, store, signIn)
  {
    var (s, out) := Plain("Sign up failed", store, signUp);
    match out
    case Failed(m) => (st, s, Failure(m))
    case Succeeded(_) => Login(st, s, signIn)
  }

  /** `logout`: signed out, whatever the reply of `signOut`. */
  function Logout(st: Auth, store: TokenStore, reply: Reply): (r: (Auth, TokenStore))
    ensures !r.0.authenticated && r.0.user == Some(Null) && r.0.loading == st.loading
    ensures Authorization(r.1).None?
  {
    (Auth(false, Some(Null), st.loading), SignOut(store, reply).0)
  }

  // ---------------------------------------------------------------- properties

  /** A login that succeeds on a reply carrying a token leaves the user signed
      in and the requests after it carrying that token. */
  lemma LoginAuthorizes(st: Auth, store: TokenStore, data: Json, token: string)
    requires token != ""
    requires Path(Some(data), ["payload", "access_token"]) == Some(Str(token))
    ensures var (a, s, res) := Login(st, store, Ok(data));
      res.Success? && a.authenticated && Authorization(s) == Some("Bearer " + token)
  {
    SignInAuthorizes(store, data, token);
    assert data != Null;
  }

  /** A failed login changes neither the authentication state nor the
      stored token unless the reply was a 401. */
  lemma FailedLoginKeepsState(st: Auth, store: TokenStore, f: Failure)
    requires !(f.Response? && f.status == 401)
    ensures Login(st, store, Err(f)) == (st, store, Failure(CallError("Sign in failed", f)))
  {
  }

  /** Signing in and then out, in either outcome of either call, ends
      signed out with no token; a sign-out leaves nothing a later mount can
      read as a session. */
  lemma LogoutEndsSession(st: Auth, store: TokenStore, signIn: Reply, signOut: Reply)
    ensures var (a, s, _) := Login(st, store, signIn);
      var (b, t) := Logout(a, s, signOut);
      !b.authenticated && !Mount(b, t).authenticated
  {
  }

  /** A registration that succeeds took two resolved calls. */
  lemma RegisterNeedsBoth(st: Auth, store: TokenStore, signUp: Reply, signIn: Reply)
    ensures Register(st, store, signUp, signIn).2.Success? <==> signUp.Ok? && signIn.Ok? && signIn.data != Null
  {
  }
}

=== FILE: bulk_actions.dfy ===
/** The bulk-selection bar of `src/components/BulkActions.jsx`.

    `selectedIds` is a JavaScript `Set`, which iterates in insertion order and
    holds no duplicates: it is a duplicate-free sequence here. The parent's
    `onSelectAll(id, checked)` handler is not part of this model; each call is
    taken to add `id` to the set (when `checked`) or delete it. */
module BulkActions {
  import opened Options
  import opened Seqs
  import opened Records

  predicate NoDuplicates<T(==)>(s: seq<T>) {
    forall i, j :: 0 <= i < j < |s| ==> s[i] != s[j]
  }

  function Ids(xs: seq<Expense>): (r: seq<Id>)
    ensures |r| == |xs|
    ensures forall i :: 0 <= i < |xs| ==> r[i] == xs[i].id
  {
    seq(|xs|, i requires 0 <= i < |xs| => xs[i].id)
  }

  // ---------------------------------------------------------------- flags

  /** `selectedIds?.size || 0`. */
  function SelectedCount(selected: Option<seq<Id>>): nat {
    if selected.Some? then |selected.value| else 0
  }

  datatype Flags = Flags(all: bool, some: bool)

  /** `allSelected` and `someSelected`: both compare the NUMBER of selected
      ids with the number of visible rows, not which ids are selected. */
  function SelectionFlags(visible: seq<Expense>, selected: Option<seq<Id>>): (r: Flags)
    ensures !(r.all && r.some)
    ensures SelectedCount(selected) == 0 ==> !r.all && !r.some
    ensures |visible| > 0 ==> (r.all || r.some <==> SelectedCount(selected) > 0) || SelectedCount(selected) > |visible|
    ensures r.all <==> |visible| > 0 && SelectedCount(selected) == |visible|
    ensures r.some <==> 0 < SelectedCount(selected) < |visible|
  {
    var count := SelectedCount(selected);
    Flags(|visible| > 0 && count == |visible|, count > 0 && count < |visible|)
  }

  /** What the header checkbox evidently means: every visible row is selected. */
  predicate AllVisibleSelected(visible: seq<Expense>, selected: seq<Id>) {
    |visible| > 0 && forall i :: 0 <= i < |visible| ==> visible[i].id in selected
  }

  /** Two selected ids from another page make the header checkbox read "all
      selected" on a page where neither visible row is selected. */
  lemma CountIsNotMembership()
    ensures var visible := [Expense("a", "", None, 0, "", ""), Expense("b", "", None, 0, "", "")];
      var selected := ["c", "d"];
      SelectionFlags(visible, Some(selected)).all && !AllVisibleSelected(visible, selected)
  {
    var visible := [Expense("a", "", None, 0, "", ""), Expense("b", "", None, 0, "", "")];
    assert visible[0].id !in ["c", "d"];
  }

  /** Some visible row is selected. */
  predicate AnyVisibleSelected(visible: seq<Expense>, selected: seq<Id>) {
    exists i :: 0 <= i < |visible| && visible[i].id in selected
  }

  /** The header flags decided by membership: `all` when every visible row
      is selected, `some` when some but not all are. */
  function MembershipFlags(visible: seq<Expense>, selected: Option<seq<Id>>): (r: Flags)
    ensures !(r.all && r.some)
    ensures r.all <==> selected.Some? && AllVisibleSelected(visible, selected.value)
    ensures r.some <==> selected.Some? && AnyVisibleSelected(visible, selected.value)
                        && !AllVisibleSelected(visible, selected.value)
    ensures SelectedCount(selected) == 0 ==> !r.all && !r.some
  {
    if selected.None? then Flags(false, false)
    else
      var all := AllVisibleSelected(visible, selected.value);
      var any := AnyVisibleSelected(visible, selected.value);
      assert |selected.value| == 0 && |visible| > 0 ==> visible[0].id !in selected.value;
      Flags(all, any && !all)
  }

  /** When the selection holds only visible ids and the visible ids are
      distinct, counting agrees with membership. */
  lemma {:induction false} CountMatchesMembership(visible: seq<Expense>, selected: seq<Id>)
    requires NoDuplicates(Ids(visible)) && NoDuplicates(selected)
    requires forall id :: id in selected ==> id in Ids(visible)
    ensures SelectionFlags(visible, Some(selected)).all <==> AllVisibleSelected(visible, selected)
  {
    var vis := set i | 0 <= i < |visible| :: visible[i].id;
    var sel := set id | id in selected;
    DistinctCardinality(Ids(visible));
    DistinctCardinality(selected);
    assert vis == set id | id in Ids(visible);
    assert |vis| == |visible|;
    assert |sel| == |selected|;
    assert sel <= vis;
    if |visible| > 0 && |selected| == |visible| {
      SubsetSameSize(sel, vis);
      forall i | 0 <= i < |visible| ensures visible[i].id in selected {
        assert visible[i].id in vis;
      }
    }
    if AllVisibleSelected(visible, selected) {
      assert vis <= sel;
      assert sel == vis;
    }
  }

  /** Under the same conditions the count-based flags are the
      membership-based ones. */
  lemma FlagsAgree(visible: seq<Expense>, selected: seq<Id>)
    requires NoDuplicates(Ids(visible)) && NoDuplicates(selected)
    requires forall id :: id in selected ==> id in Ids(visible)
    ensures SelectionFlags(visible, Some(selected)) == MembershipFlags(visible, Some(selected))
  {
    CountMatchesMembership(visible, selected);
    var sel := set id | id in selected;
    var vis := set i | 0 <= i < |visible| :: visible[i].id;
    DistinctCardinality(Ids(visible));
    DistinctCardinality(selected);
    assert vis == set id | id in Ids(visible);
    assert sel <= vis;
    SubsetSize(sel, vis);
    if |selected| > 0 {
      assert selected[0] in Ids(visible);
      var k :| 0 <= k < |Ids(visible)| && Ids(visible)[k] == selected[0];
      assert visible[k].id in selected;
    }
  }

  lemma {:induction false} DistinctCardinality<T>(s: seq<T>)
    requires NoDuplicates(s)
    ensures |set x | x in s| == |s|
    decreases |s|
  {
    if s != [] {
      DistinctCardinality(s[1..]);
      assert (set x | x in s) == (set x | x in s[1..]) + {s[0]};
      assert s[0] !in s[1..];
    }
  }

  lemma SubsetSameSize<T>(a: set<T>, b: set<T>)
    requires a <= b && |a| == |b|
    ensures a == b
  {
    if a != b {
      assert !(b <= a);
      var x :| x in b && x !in a;
      assert a <= b - {x};
      SubsetSize(a, b - {x});
      assert false;
    }
  }

  lemma {:induction false} SubsetSize<T>(a: set<T>, b: set<T>)
    requires a <= b
    ensures |a| <= |b|
    decreases |b|
  {
    if a != {} {
      var x :| x in a;
      SubsetSize(a - {x}, b - {x});
    }
  }

  // ---------------------------------------------------------------- select all

  /** One `onSelectAll(id, checked)` call. */
  datatype Toggle = Toggle(id: Id, add: bool)

  /** The adds issued when the header box is checked: the visible ids not
      already selected, in row order. */
  function AddEvents(visible: seq<Expense>, selected: seq<Id>): (r: seq<Toggle>)
    ensures forall i :: 0 <= i < |r| ==> r[i].add && r[i].id !in selected
    ensures forall i :: 0 <= i < |visible| && visible[i].id !in selected ==> Toggle(visible[i].id, true) in r
    ensures forall t :: t in r ==> t.id in Ids(visible)
  {
    if visible == [] then []
    else
      var rest := AddEvents(visible[1..], selected);
      assert forall t :: t in rest ==> t.id in Ids(visible) by {
        forall t | t in rest ensures t.id in Ids(visible) {
          var k :| 0 <= k < |visible[1..]| && Ids(visible[1..])[k] == t.id;
          assert Ids(visible)[k + 1] == t.id;
        }
      }
      assert Ids(visible)[0] == visible[0].id;
      (if visible[0].id in selected then [] else [Toggle(visible[0].id, true)]) + rest
  }

  /** The removes issued when the header box is unchecked: every selected id,
      visible or not. */
  function RemoveEvents(selected: seq<Id>): (r: seq<Toggle>)
    ensures |r| == |selected|
    ensures forall i :: 0 <= i < |r| ==> r[i] == Toggle(selected[i], false)
  {
    seq(|selected|, i requires 0 <= i < |selected| => Toggle(selected[i], false))
  }

  /** `handleSelectAll`; with no selection set the handler throws before
      issuing any call. */
  function SelectAllEvents(visible: seq<Expense>, selected: Option<seq<Id>>, checked: bool): seq<Toggle> {
    if selected.None? then []
    else if checked then AddEvents(visible, selected.value)
    else RemoveEvents(selected.value)
  }

  /** The parent's handler applied to one call: `Set.add` or `Set.delete`. */
  function Apply(selected: seq<Id>, t: Toggle): (r: seq<Id>)
    requires NoDuplicates(selected)
    ensures NoDuplicates(r)
    ensures t.add ==> (set x | x in r) == (set x | x in selected) + {t.id}
    ensures !t.add ==> (set x | x in r) == (set x | x in selected) - {t.id}
  {
    if t.add then
      if t.id in selected then selected else selected + [t.id]
    else
      var r := Filter(selected, x => x != t.id);
      FilterKeepsDistinct(selected, x => x != t.id);
      r
  }

  lemma {:induction false} FilterKeepsDistinct<T>(s: seq<T>, p: T -> bool)
    requires NoDuplicates(s)
    ensures NoDuplicates(Filter(s, p))
    decreases |s|
  {
    if s != [] {
      FilterKeepsDistinct(s[1..], p);
      assert s[0] !in s[1..];
      assert s[0] !in Filter(s[1..], p);
    }
  }

  function ApplyAll(selected: seq<Id>, events: seq<Toggle>): (r: seq<Id>)
    requires NoDuplicates(selected)
    ensures NoDuplicates(r)
    decreases |events|
  {
    if events == [] then selected else ApplyAll(Apply(selected, events[0]), events[1..])
  }

  /** Checking the header box leaves exactly the old selection plus every
      visible id selected. */
  lemma SelectAllChecked(visible: seq<Expense>, selected: seq<Id>)
    requires NoDuplicates(selected)
    ensures var r := ApplyAll(selected, SelectAllEvents(visible, Some(selected), true));
      (set x | x in r) == (set x | x in selected) + (set i | 0 <= i < |visible| :: visible[i].id)
  {
    var events := AddEvents(visible, selected);
    AddsUnion(selected, events);
    var added := set t | t in events :: t.id;
    var vis := set i | 0 <= i < |visible| :: visible[i].id;
    forall id | id in vis ensures id in added || id in selected {
      var i :| 0 <= i < |visible| && visible[i].id == id;
      if id !in selected {
        assert Toggle(id, true) in events;
      }
    }
    forall id | id in added ensures id in vis {
      var t :| t in events && t.id == id;
      var k :| 0 <= k < |visible| && Ids(visible)[k] == id;
    }
  }

  lemma {:induction false} AddsUnion(selected: seq<Id>, events: seq<Toggle>)
    requires NoDuplicates(selected)
    requires forall t :: t in events ==> t.add
    ensures (set x | x in ApplyAll(selected, events)) == (set x | x in selected) + (set t | t in events :: t.id)
    decreases |events|
  {
    if events != [] {
      var next := Apply(selected, events[0]);
      AddsUnion(next, events[1..]);
      ToggledIdsCons(events);
    }
  }

  lemma ToggledIdsCons(events: seq<Toggle>)
    requires events != []
    ensures (set t | t in events :: t.id) == {events[0].id} + (set t | t in events[1..] :: t.id)
  {
    var all := set t | t in events :: t.id;
    var rest := set t | t in events[1..] :: t.id;
    forall id | id in all ensures id == events[0].id || id in rest {
      var t :| t in events && t.id == id;
      var k :| 0 <= k < |events| && events[k] == t;
      if k > 0 {
        assert events[1..][k - 1] == t;
      }
    }
    forall id | id in rest ensures id in all {
      var t :| t in events[1..] && t.id == id;
      var k :| 0 <= k < |events[1..]| && events[1..][k] == t;
      assert events[k + 1] == t;
    }
    assert events[0] in events;
  }

  /** Unchecking the header box deselects everything, including ids of rows
      not on this page. */
  lemma SelectAllUnchecked(visible: seq<Expense>, selected: seq<Id>)
    requires NoDuplicates(selected)
    ensures ApplyAll(selected, SelectAllEvents(visible, Some(selected), false)) == []
  {
    RemovesClear(selected);
  }

  lemma {:induction false} RemovesClear(selected: seq<Id>)
    requires NoDuplicates(selected)
    ensures ApplyAll(selected, RemoveEvents(selected)) == []
    decreases |selected|
  {
    if selected != [] {
      var x := selected[0];
      var after := Apply(selected, Toggle(x, false));
      DropFirstDistinct(selected);
      assert after == selected[1..];
      RemovesClear(selected[1..]);
      assert RemoveEvents(selected)[1..] == RemoveEvents(selected[1..]);
    }
  }

  lemma DropFirstDistinct(s: seq<Id>)
    requires NoDuplicates(s) && s != []
    ensures Filter(s, x => x != s[0]) == s[1..]
  {
    assert s[0] !in s[1..];
    FilterAll(s[1..], x => x != s[0]);
  }

  // ---------------------------------------------------------------- bulk actions

  /** `handleBulkDelete`: with nothing selected nothing happens; otherwise
      a confirmed delete passes every selected id, in selection order. */
  function BulkDelete(selected: Option<seq<Id>>, confirmed: bool): (r: Option<seq<Id>>)
    ensures r.Some? <==> SelectedCount(selected) > 0 && confirmed
    ensures r.Some? ==> r.value == selected.value
  {
    if SelectedCount(selected) == 0 then None
    else if confirmed then Some(selected.value)
    else None
  }

  /** `handleBulkEdit`: every selected id, or nothing on an empty selection. */
  function BulkEdit(selected: Option<seq<Id>>): (r: Option<seq<Id>>)
    ensures r.Some? <==> SelectedCount(selected) > 0
    ensures r.Some? ==> r.value == selected.value
  {
    if SelectedCount(selected) == 0 then None else Some(selected.value)
  }

  /** What the bar shows: nothing for an empty page; otherwise the header
      checkbox state, the `Select All (n)` label's row count and, when
      something is selected, the `n selected` text with the action buttons. */
  datatype Bar = Bar(checked: bool, indeterminate: bool, rowCount: nat, showActions: bool, selectedText: nat)

  function Render(visible: seq<Expense>, selected: Option<seq<Id>>): (r: Option<Bar>)
    ensures r.None? <==> |visible| == 0
    ensures r.Some? ==> !(r.value.checked && r.value.indeterminate)
    ensures r.Some? ==> (r.value.showActions <==> SelectedCount(selected) > 0)
    ensures r.Some? ==>
      r.value.checked == SelectionFlags(visible, selected).all &&
      r.value.indeterminate == SelectionFlags(visible, selected).some &&
      r.value.rowCount == |visible|
    ensures r.Some? ==> (r.value.checked <==> SelectedCount(selected) == |visible|)
    ensures r.Some? && r.value.showActions ==> r.value.selectedText == SelectedCount(selected)
  {
    if |visible| == 0 then None
    else
      var flags := SelectionFlags(visible, selected);
      var count := SelectedCount(selected);
      Some(Bar(flags.all, flags.some, |visible|, count > 0, count))
  }
}

=== FILE: calendar.dfy ===
/** The proleptic Gregorian calendar of ECMAScript's `Date` (section 21.4.1 of
    ECMA-262): time values in milliseconds since 1970-01-01T00:00:00Z, day
    numbers, years, months and week days.

    The local time zone is taken to be UTC, so a `Date`'s local getters and
    setters act on the time value itself; daylight saving and the
    +-8.64e15 ms limit of time values are not modelled. Months are 0-based,
    as `getMonth()` returns them. */
module Calendar {

  const MsPerDay: int := 86400000

  /** `Day(t)`: the day number of a time value (floor division). */
  function Day(t: int): int {
    t / MsPerDay
  }

  predicate IsLeap(y: int) {
    y % 4 == 0 && (y % 100 != 0 || y % 400 == 0)
  }

  function DaysInYear(y: int): int {
    if IsLeap(y) then 366 else 365
  }

  /** `DayFromYear(y)`: the day number of January 1 of year `y`, counted
      year by year from 1970. */
  function DayFromYear(y: int): int
    decreases if y >= 1970 then y - 1970 else 1970 - y
  {
    if y == 1970 then 0
    else if y > 1970 then DayFromYear(y - 1) + DaysInYear(y - 1)
    else DayFromYear(y + 1) - DaysInYear(y)
  }

  /** A year is as long as the gap to the next January 1. */
  lemma YearStep(y: int)
    ensures DayFromYear(y + 1) == DayFromYear(y) + DaysInYear(y)
  {
  }

  /** ECMAScript's closed form,
      `365 * (y - 1970) + floor((y - 1969) / 4) - floor((y - 1901) / 100) + floor((y - 1601) / 400)`. */
  function ClosedForm(y: int): int {
    365 * (y - 1970) + (y - 1969) / 4 - (y - 1901) / 100 + (y - 1601) / 400
  }

  lemma ClosedFormStep(y: int)
    ensures ClosedForm(y + 1) == ClosedForm(y) + DaysInYear(y)
  {
    LeapSteps(y);
    LeapDivisors(y);
  }

  /** Each floor term of the closed form grows by one from `y` to `y + 1`
      exactly when `y` is a multiple of its divisor. */
  lemma LeapSteps(y: int)
    ensures (y - 1968) / 4 - (y - 1969) / 4 == if y % 4 == 0 then 1 else 0
    ensures (y - 1900) / 100 - (y - 1901) / 100 == if y % 100 == 0 then 1 else 0
    ensures (y - 1600) / 400 - (y - 1601) / 400 == if y % 400 == 0 then 1 else 0
  {
    FloorStep4(y - 1969);
    FloorStep100(y - 1901);
    FloorStep400(y - 1601);
    LeapRemainders(y);
  }

  /** A multiple of 400 is one of 100, and a multiple of 100 one of 4. */
  lemma LeapDivisors(y: int)
    ensures y % 400 == 0 ==> y % 100 == 0
    ensures y % 100 == 0 ==> y % 4 == 0
  {
    var q4, q100, q400 := y / 4, y / 100, y / 400;
    assert y == 4 * q4 + y % 4;
    assert y == 100 * q100 + y % 100;
    assert y == 400 * q400 + y % 400;
  }

  /** The remainders the closed form's terms test are those of the year. */
  lemma LeapRemainders(y: int)
    ensures (y - 1968) % 4 == y % 4
    ensures (y - 1900) % 100 == y % 100
    ensures (y - 1600) % 400 == y % 400
  {
    assert y - 1968 == 4 * (y / 4 - 492) + y % 4;
    assert y - 1900 == 100 * (y / 100 - 19) + y % 100;
    assert y - 1600 == 400 * (y / 400 - 4) + y % 400;
  }

  /** `floor((a + 1) / 4)` exceeds `floor(a / 4)` by one exactly when
      `a + 1` is a multiple of 4, and equals it otherwise. */
  lemma FloorStep4(a: int)
    ensures (a + 1) / 4 - a / 4 == if (a + 1) % 4 == 0 then 1 else 0
  {
  }

  lemma FloorStep100(a: int)
    ensures (a + 1) / 100 - a / 100 == if (a + 1) % 100 == 0 then 1 else 0
  {
  }

  lemma FloorStep400(a: int)
    ensures (a + 1) / 400 - a / 400 == if (a + 1) % 400 == 0 then 1 else 0
  {
  }

  /** The year-by-year count agrees with the closed form for every year. */
  lemma {:induction false} DayFromYearClosedForm(y: int)
    ensures DayFromYear(y) == ClosedForm(y)
    decreases if y >= 1970 then y - 1970 else 1970 - y
  {
    if y > 1970 {
      DayFromYearClosedForm(y - 1);
      ClosedFormStep(y - 1);
    } else if y < 1970 {
      DayFromYearClosedForm(y + 1);
      ClosedFormStep(y);
    }
  }

  /** January 1 of a later year comes at least 365 days per year later. */
  lemma {:induction false} YearsIncrease(a: int, b: int)
    requires a <= b
    ensures DayFromYear(a) + 365 * (b - a) <= DayFromYear(b)
    decreases b - a
  {
    if a < b {
      YearsIncrease(a, b - 1);
      YearStep(b - 1);
    }
  }

  function DaysInMonth(y: int, m: int): (r: int)
    requires 0 <= m < 12
    ensures 28 <= r <= 31
  {
    if m == 1 then (if IsLeap(y) then 29 else 28)
    else if m == 3 || m == 5 || m == 8 || m == 10 then 30
    else 31
  }

  /** Days of year `y` before the first of month `m`; `m == 12` gives the
      length of the year. */
  function DaysBeforeMonth(y: int, m: int): (r: int)
    requires 0 <= m <= 12
    ensures m == 0 ==> r == 0
    ensures m == 12 ==> r == DaysInYear(y)
  {
    [0, 31, 59, 90, 120, 151, 181, 212, 243, 273, 304, 334, 365][m]
      + (if IsLeap(y) && m >= 2 then 1 else 0)
  }

  lemma MonthStep(y: int, m: int)
    requires 0 <= m < 12
    ensures DaysBeforeMonth(y, m + 1) == DaysBeforeMonth(y, m) + DaysInMonth(y, m)
  {
  }

  lemma {:induction false} MonthsIncrease(y: int, a: int, b: int)
    requires 0 <= a <= b <= 12
    ensures DaysBeforeMonth(y, a) + 28 * (b - a) <= DaysBeforeMonth(y, b)
    decreases b - a
  {
    if a < b {
      MonthsIncrease(y, a, b - 1);
      MonthStep(y, b - 1);
    }
  }

  /** `MakeDay(year, month, date)`: the day number of a (possibly
      out-of-range) year, month and day of month. A month past 11 or below
      0 carries into the year; a day past the month's end or below 1 carries
      into the neighbouring months. */
  function MakeDay(y: int, m: int, d: int): int {
    var ym := y + m / 12;
    var mn := m % 12;
    DayFromYear(ym) + DaysBeforeMonth(ym, mn) + d - 1
  }

  /** Moving the day of month moves the day number by the same amount. */
  lemma MakeDayShift(y: int, m: int, d: int, k: int)
    ensures MakeDay(y, m, d + k) == MakeDay(y, m, d) + k
  {
  }

  /** The first of the month after month `m` (0..11) is `DaysInMonth` days
      after the first of month `m`, also across the turn of the year. */
  lemma NextMonth(y: int, m: int)
    requires 0 <= m < 12
    ensures MakeDay(y, m + 1, 1) == MakeDay(y, m, 1) + DaysInMonth(y, m)
  {
    MakeDayInYear(y, m, 1);
    MonthStep(y, m);
    if m == 11 {
      YearStep(y);
      assert (m + 1) / 12 == 1 && (m + 1) % 12 == 0;
      MakeDayInYear(y + 1, 0, 1);
    } else {
      MakeDayInYear(y, m + 1, 1);
    }
  }

  // ---------------------------------------------------------------- day number -> date

  /** The year holding day number `days`, searching down from `y`. */
  function YearDown(y: int, days: int): (r: int)
    requires days < DayFromYear(y + 1)
    ensures DayFromYear(r) <= days < DayFromYear(r + 1)
    decreases DayFromYear(y + 1) - days
  {
    YearStep(y);
    if DayFromYear(y) <= days then y else YearDown(y - 1, days)
  }

  /** The year holding day number `days`, searching up from `y`. */
  function YearUp(y: int, days: int): (r: int)
    requires DayFromYear(y) <= days
    ensures DayFromYear(r) <= days < DayFromYear(r + 1)
    decreases days - DayFromYear(y)
  {
    YearStep(y);
    if days < DayFromYear(y + 1) then y else YearUp(y + 1, days)
  }

  /** `YearFromTime`: the year holding day number `days`. */
  function YearOf(days: int): (r: int)
    ensures DayFromYear(r) <= days < DayFromYear(r + 1)
  {
    if days >= 0 then YearUp(1970, days) else YearDown(1969, days)
  }

  /** The month holding day `dayInYear` of year `y`, searching up from `m`. */
  function MonthOf(y: int, dayInYear: int, m: int): (r: int)
    requires 0 <= m < 12
    requires DaysBeforeMonth(y, m) <= dayInYear < DaysInYear(y)
    ensures m <= r < 12
    ensures DaysBeforeMonth(y, r) <= dayInYear < DaysBeforeMonth(y, r + 1)
    decreases 12 - m
  {
    if dayInYear < DaysBeforeMonth(y, m + 1) then m else MonthOf(y, dayInYear, m + 1)
  }

  /** A calendar date as `getFullYear()`, `getMonth()` and `getDate()` give it. */
  datatype Civil = Civil(year: int, month: int, day: int)

  predicate Valid(c: Civil) {
    0 <= c.month < 12 && 1 <= c.day <= DaysInMonth(c.year, c.month)
  }

  /** The date of a day number. */
  function CivilFromDays(days: int): (c: Civil)
    ensures Valid(c)
    ensures MakeDay(c.year, c.month, c.day) == days
  {
    var y := YearOf(days);
    YearStep(y);
    var dayInYear := days - DayFromYear(y);
    var m := MonthOf(y, dayInYear, 0);
    var d := dayInYear - DaysBeforeMonth(y, m) + 1;
    MonthStep(y, m);
    MakeDayInYear(y, m, d);
    Civil(y, m, d)
  }

  lemma YearOfUnique(days: int, y: int)
    requires DayFromYear(y) <= days < DayFromYear(y + 1)
    ensures YearOf(days) == y
  {
    var r := YearOf(days);
    if r < y {
      YearsIncrease(r + 1, y);
      assert false;
    } else if r > y {
      YearsIncrease(y + 1, r);
      assert false;
    }
  }

  lemma MonthOfUnique(y: int, dayInYear: int, m: int)
    requires 0 <= m < 12
    requires DaysBeforeMonth(y, m) <= dayInYear < DaysBeforeMonth(y, m + 1)
    ensures MonthOf(y, dayInYear, 0) == m
  {
    var r := MonthOf(y, dayInYear, 0);
    if r < m {
      MonthsIncrease(y, r + 1, m);
      assert false;
    } else if r > m {
      MonthsIncrease(y, m + 1, r);
      assert false;
    }
  }

  /** Inside the year, `MakeDay` is January 1 plus the days before the
      month plus the day of month. */
  lemma MakeDayInYear(y: int, m: int, d: int)
    requires 0 <= m < 12
    ensures MakeDay(y, m, d) == DayFromYear(y) + DaysBeforeMonth(y, m) + d - 1
  {
    assert m / 12 == 0 && m % 12 == m;
  }

  /** A valid date's day of the year lies inside its month, and so inside
      its year. */
  lemma DayInMonth(c: Civil)
    requires Valid(c)
    ensures DaysBeforeMonth(c.year, c.month) <= DaysBeforeMonth(c.year, c.month) + c.day - 1 < DaysBeforeMonth(c.year, c.month + 1)
    ensures DaysBeforeMonth(c.year, c.month + 1) <= DaysInYear(c.year)
  {
    MonthStep(c.year, c.month);
    MonthsIncrease(c.year, c.month + 1, 12);
  }

  /** A valid date survives the trip to its day number and back. */
  lemma CivilRoundTrip(c: Civil)
    requires Valid(c)
    ensures CivilFromDays(MakeDay(c.year, c.month, c.day)) == c
  {
    var days := MakeDay(c.year, c.month, c.day);
    var dayInYear := DaysBeforeMonth(c.year, c.month) + c.day - 1;
    MakeDayInYear(c.year, c.month, c.day);
    DayInMonth(c);
    YearStep(c.year);
    YearOfUnique(days, c.year);
    MonthOfUnique(c.year, dayInYear, c.month);
    var r := CivilFromDays(days);
    MakeDayInYear(r.year, r.month, r.day);
  }

  /** `setDate(d)` on a date of day number `days`: the same year and month,
      day of month `d` (which may carry into the neighbouring months). */
  function SetDate(days: int, d: int): (r: int)
    ensures r == days - CivilFromDays(days).day + d
  {
    var c := CivilFromDays(days);
    MakeDayShift(c.year, c.month, c.day, d - c.day);
    MakeDay(c.year, c.month, d)
  }

  /** `WeekDay(t)`: 0 for Sunday; 1970-01-01 was a Thursday. */
  function WeekDay(days: int): (r: int)
    ensures 0 <= r < 7
  {
    (days + 4) % 7
  }
}

=== FILE: category_filter.dfy ===
/** The category filter panel of `src/components/CategoryFilter.jsx`: the
    option lists built from the loaded expenses, the two selections, and what
    the panel reports to its parent. */
module CategoryFilter {
  import opened Options
  import opened Records
  import opened Sorting

  // ---------------------------------------------------------------- option lists

  /** Every element strictly precedes every later one: sorted, no repeats. */
  predicate StrictlySorted(s: seq<string>) {
    forall i, j :: 0 <= i < j < |s| ==> LexLt(s[i], s[j])
  }

  lemma LexLtTransitive(a: string, b: string, c: string)
    requires LexLt(a, b) && LexLt(b, c)
    ensures LexLt(a, c)
  {
    LexLeTransitive(a, b, c);
    if a == c {
      LexLeAntisymmetric(b, c);
    }
  }

  /** Adds `x` to a strictly sorted list unless it is already there. */
  function InsertUnique(x: string, s: seq<string>): (r: seq<string>)
    requires StrictlySorted(s)
    ensures StrictlySorted(r)
    ensures forall y :: y in r <==> y in s || y == x
  {
    if s == [] then [x]
    else if x == s[0] then s
    else if LexLe(x, s[0]) then
      assert forall j :: 0 < j < |s| ==> LexLt(x, s[j]) by {
        forall j | 0 < j < |s| ensures LexLt(x, s[j]) {
          LexLtTransitive(x, s[0], s[j]);
        }
      }
      [x] + s
    else
      LexLeTotal(x, s[0]);
      var rest := InsertUnique(x, s[1..]);
      assert s == [s[0]] + s[1..];
      assert forall j :: 0 <= j < |rest| ==> LexLt(s[0], rest[j]) by {
        forall j | 0 <= j < |rest| ensures LexLt(s[0], rest[j]) {
          assert rest[j] in rest;
        }
      }
      [s[0]] + rest
  }

  /** `Array.from(new Set(values.filter(Boolean))).sort()`: the non-empty
      values, each once, in ascending order. */
  function SortedDistinct(values: seq<string>): (r: seq<string>)
    ensures StrictlySorted(r)
    ensures forall y :: y in r <==> y in values && y != ""
  {
    if values == [] then []
    else
      var rest := SortedDistinct(values[1..]);
      assert values == [values[0]] + values[1..];
      if values[0] == "" then rest else InsertUnique(values[0], rest)
  }

  /** Two strictly sorted lists with the same elements are the same list. */
  lemma {:induction false} StrictlySortedUnique(a: seq<string>, b: seq<string>)
    requires StrictlySorted(a) && StrictlySorted(b)
    requires forall y :: y in a <==> y in b
    ensures a == b
    decreases |a|
  {
    assert a != [] ==> a[0] in b;
    assert b != [] ==> b[0] in a;
    if a != [] && b != [] {
      HeadLeast(a);
      HeadLeast(b);
      LexLeAntisymmetric(a[0], b[0]);
      forall y ensures y in a[1..] <==> y in b[1..] {
        if y in a[1..] {
          assert y != a[0];
          assert y in b;
        }
        if y in b[1..] {
          assert y != b[0];
          assert y in a;
        }
      }
      StrictlySortedUnique(a[1..], b[1..]);
      assert a == [a[0]] + a[1..] && b == [b[0]] + b[1..];
    }
  }

  /** The head of a strictly sorted list precedes all of it. */
  lemma HeadLeast(a: seq<string>)
    requires StrictlySorted(a) && a != []
    ensures forall y :: y in a ==> LexLe(a[0], y)
  {
    LexLeReflexive(a[0]);
  }

  function Primaries(xs: seq<Expense>): (r: seq<string>)
    ensures |r| == |xs|
    ensures forall i :: 0 <= i < |xs| ==> r[i] == xs[i].primary
  {
    seq(|xs|, i requires 0 <= i < |xs| => xs[i].primary)
  }

  function Secondaries(xs: seq<Expense>): (r: seq<string>)
    ensures |r| == |xs|
    ensures forall i :: 0 <= i < |xs| ==> r[i] == xs[i].secondary
  {
    seq(|xs|, i requires 0 <= i < |xs| => xs[i].secondary)
  }

  /** The option lists depend only on which categories occur, not on the
      order of the expenses or on how often each occurs. */
  lemma OptionsOrderIndependent(xs: seq<Expense>, ys: seq<Expense>)
    requires forall e :: e in xs <==> e in ys
    ensures SortedDistinct(Primaries(xs)) == SortedDistinct(Primaries(ys))
    ensures SortedDistinct(Secondaries(xs)) == SortedDistinct(Secondaries(ys))
  {
    forall y ensures y in Primaries(xs) <==> y in Primaries(ys) {
      if y in Primaries(xs) {
        var i :| 0 <= i < |xs| && Primaries(xs)[i] == y;
        assert xs[i] in ys;
        var j :| 0 <= j < |ys| && ys[j] == xs[i];
        assert Primaries(ys)[j] == y;
      }
      if y in Primaries(ys) {
        var j :| 0 <= j < |ys| && Primaries(ys)[j] == y;
        assert ys[j] in xs;
        var i :| 0 <= i < |xs| && xs[i] == ys[j];
        assert Primaries(xs)[i] == y;
      }
    }
    forall y ensures y in Secondaries(xs) <==> y in Secondaries(ys) {
      if y in Secondaries(xs) {
        var i :| 0 <= i < |xs| && Secondaries(xs)[i] == y;
        assert xs[i] in ys;
        var j :| 0 <= j < |ys| && ys[j] == xs[i];
        assert Secondaries(ys)[j] == y;
      }
      if y in Secondaries(ys) {
        var j :| 0 <= j < |ys| && Secondaries(ys)[j] == y;
        assert ys[j] in xs;
        var i :| 0 <= i < |xs| && xs[i] == ys[j];
        assert Secondaries(xs)[i] == y;
      }
    }
    StrictlySortedUnique(SortedDistinct(Primaries(xs)), SortedDistinct(Primaries(ys)));
    StrictlySortedUnique(SortedDistinct(Secondaries(xs)), SortedDistinct(Secondaries(ys)));
  }

  // ---------------------------------------------------------------- panel state

  /** The filter pair the panel hands to `onFilterChange`; `""` is "all". */
  datatype Filters = Filters(primary: string, secondary: string)

  datatype Panel = Panel(
    primary: string,
    secondary: string,
    primaryOptions: seq<string>,
    secondaryOptions: seq<string>)

  /** `activeFilters?.x || ''` for both fields of an optional filter pair. */
  function FromActive(active: Option<Filters>): Filters {
    if active.Some? then active.value else Filters("", "")
  }

  /** The panel as first rendered for a list of expenses. */
  function Init(expenses: seq<Expense>, active: Option<Filters>): (r: Panel)
    ensures r.primary == FromActive(active).primary && r.secondary == FromActive(active).secondary
    ensures forall c :: c in r.primaryOptions <==> exists i :: 0 <= i < |expenses| && expenses[i].primary == c && c != ""
    ensures forall c :: c in r.secondaryOptions <==> exists i :: 0 <= i < |expenses| && expenses[i].secondary == c && c != ""
  {
    var f := FromActive(active);
    var r := Panel(f.primary, f.secondary, SortedDistinct(Primaries(expenses)), SortedDistinct(Secondaries(expenses)));
    assert forall c :: c in Primaries(expenses) <==> exists i :: 0 <= i < |expenses| && expenses[i].primary == c by {
      forall c | c in Primaries(expenses) ensures exists i :: 0 <= i < |expenses| && expenses[i].primary == c {
        var i :| 0 <= i < |expenses| && Primaries(expenses)[i] == c;
        assert expenses[i].primary == c;
      }
    }
    assert forall c :: c in Secondaries(expenses) <==> exists i :: 0 <= i < |expenses| && expenses[i].secondary == c by {
      forall c | c in Secondaries(expenses) ensures exists i :: 0 <= i < |expenses| && expenses[i].secondary == c {
        var i :| 0 <= i < |expenses| && Secondaries(expenses)[i] == c;
        assert expenses[i].secondary == c;
      }
    }
    r
  }

  /** Something the panel reacts to. */
  datatype Event =
    | SelectPrimary(value: string)       // the primary select, or its chip's `×` with `''`
    | SelectSecondary(value: string)     // the secondary select, or its chip's `×` with `''`
    | Clear                              // "Clear Filters"
    | ParentFilters(active: Option<Filters>)   // the sync effect on `activeFilters`
    | ExpensesLoaded(expenses: seq<Expense>)   // the effect on `expenses`

  /** The panel after an event, and the pair reported to the parent, if any. */
  datatype Step = Step(panel: Panel, reported: Option<Filters>)

  /** The panel's own state after an event: each select handler stores its
      value before it reports anything. */
  function NextPanel(p: Panel, ev: Event): (r: Panel)
    ensures ev.SelectPrimary? ==> r.primary == ev.value && r.secondary == p.secondary
    ensures ev.SelectSecondary? ==> r.secondary == ev.value && r.primary == p.primary
    ensures ev.Clear? ==> r.primary == "" && r.secondary == ""
    ensures ev.ParentFilters? ==> r.primary == FromActive(ev.active).primary && r.secondary == FromActive(ev.active).secondary
    ensures !ev.ExpensesLoaded? ==>
      r.primaryOptions == p.primaryOptions && r.secondaryOptions == p.secondaryOptions
    ensures ev.ExpensesLoaded? ==> r.primary == p.primary && r.secondary == p.secondary
    ensures ev.ExpensesLoaded? ==>
      forall c :: c in r.primaryOptions <==> exists i :: 0 <= i < |ev.expenses| && ev.expenses[i].primary == c && c != ""
    ensures ev.ExpensesLoaded? ==>
      forall c :: c in r.secondaryOptions <==> exists i :: 0 <= i < |ev.expenses| && ev.expenses[i].secondary == c && c != ""
  {
    match ev
    case SelectPrimary(v) => p.(primary := v)
    case SelectSecondary(v) => p.(secondary := v)
    case Clear => p.(primary := "", secondary := "")
    case ParentFilters(active) =>
      var f := FromActive(active);
      p.(primary := f.primary, secondary := f.secondary)
    case ExpensesLoaded(xs) =>
      Init(xs, None).(primary := p.primary, secondary := p.secondary)
  }

  /** The handlers as written. Only "Clear Filters" reaches `onFilterChange`:
      the two select handlers build their report from `secondarycategory`
      and `primarycategory`, names declared nowhere in the component (the
      state is `secondaryCategory` and `primaryCategory`), so after storing
      the value each throws a `ReferenceError` and the parent hears nothing.
      The chips' `×` buttons call the same handlers. */
  function Handle(p: Panel, ev: Event): (r: Step)
    ensures r.panel == NextPanel(p, ev)
    ensures r.reported.Some? <==> ev.Clear?
    ensures ev.Clear? ==> r.reported == Some(Filters("", ""))
  {
    Step(NextPanel(p, ev), if ev.Clear? then Some(Filters("", "")) else None)
  }

  /** The handlers as evidently intended: each select change, and a clear,
      reports the panel's new pair. */
  function HandleIntended(p: Panel, ev: Event): (r: Step)
    ensures r.panel == NextPanel(p, ev)
    ensures ev.SelectPrimary? || ev.SelectSecondary? || ev.Clear? ==>
      r.reported == Some(Filters(r.panel.primary, r.panel.secondary))
    ensures ev.ParentFilters? || ev.ExpensesLoaded? ==> r.reported.None?
  {
    var next := NextPanel(p, ev);
    Step(next, match ev
               case SelectPrimary(v) => Some(Filters(v, p.secondary))
               case SelectSecondary(v) => Some(Filters(p.primary, v))
               case Clear => Some(Filters("", ""))
               case _ => None)
  }

  /** As written, choosing a category changes the panel but reports
      nothing, where the intended handler reports the new pair. */
  lemma AsWrittenSelectReportsNothing(p: Panel, ev: Event)
    requires ev.SelectPrimary? || ev.SelectSecondary?
    ensures Handle(p, ev).panel == HandleIntended(p, ev).panel
    ensures Handle(p, ev).reported.None?
    ensures HandleIntended(p, ev).reported == Some(Filters(NextPanel(p, ev).primary, NextPanel(p, ev).secondary))
  {
  }

  /** Apart from the two select reports, the handlers as written and as
      intended agree. */
  lemma HandlersAgreeElsewhere(p: Panel, ev: Event)
    ensures Handle(p, ev).panel == HandleIntended(p, ev).panel
    ensures !(ev.SelectPrimary? || ev.SelectSecondary?) ==> Handle(p, ev) == HandleIntended(p, ev)
  {
  }

  /** `hasActiveFilters`: the clear button and the chip row are shown. */
  predicate HasActiveFilters(p: Panel) {
    p.primary != "" || p.secondary != ""
  }

  /** After "Clear Filters" nothing is active and the parent hears the empty
      pair; clearing twice is the same as clearing once. */
  lemma ClearDeactivates(p: Panel)
    ensures !HasActiveFilters(Handle(p, Clear).panel)
    ensures Handle(p, Clear).reported == Some(Filters("", ""))
    ensures Handle(Handle(p, Clear).panel, Clear) == Handle(p, Clear)
  {
  }

  /** Removing both chips one at a time ends where "Clear Filters" does. */
  lemma ChipsThenClearAgree(p: Panel)
    ensures var afterChips := Handle(Handle(p, SelectPrimary("")).panel, SelectSecondary("")).panel;
      afterChips == Handle(p, Clear).panel
  {
  }

  /** With the intended handlers, taking the parent's filters and reporting
      them back is a round trip: a select event that repeats the current
      value reports exactly the parent's pair. */
  lemma SyncRoundTrip(p: Panel, active: Filters)
    ensures var synced := HandleIntended(p, ParentFilters(Some(active))).panel;
      HandleIntended(synced, SelectPrimary(active.primary)).reported == Some(active)
      && HandleIntended(synced, SelectSecondary(active.secondary)).reported == Some(active)
  {
  }
}

=== FILE: csv.dfy ===
/** Comma-separated records as section 2 of RFC 4180 describes them: a
    field is either bare (no comma, no double quote) or enclosed in double
    quotes with every inner double quote doubled (rule 7). The reader
    `ParseRecord` is the partner of the writer `Record`. */
module Csv {
  import opened Options
  import opened Text

  /** `"${s.replace(/"/g, '""')}"`. */
  function Quote(s: string): (r: string)
    ensures |r| >= 2 && r[0] == '"' && r[|r| - 1] == '"'
  {
    "\"" + ReplaceAll(s, '"', "\"\"") + "\""
  }

  datatype Field = Quoted(text: string) | Bare(text: string)

  /** A bare field must not hold a separator or a quote. */
  predicate BareOk(f: Field) {
    f.Bare? ==> ',' !in f.text && '"' !in f.text
  }

  function Render(f: Field): string {
    match f
    case Quoted(t) => Quote(t)
    case Bare(t) => t
  }

  /** One record: the rendered fields joined with commas. */
  function Record(fields: seq<Field>): string {
    Join(seq(|fields|, i requires 0 <= i < |fields| => Render(fields[i])), ",")
  }

  function Texts(fields: seq<Field>): (r: seq<string>)
    ensures |r| == |fields|
    ensures forall i :: 0 <= i < |fields| ==> r[i] == fields[i].text
  {
    seq(|fields|, i requires 0 <= i < |fields| => fields[i].text)
  }

  // ---------------------------------------------------------------- reading

  /** Reads the inside of a quoted field (the text after its opening quote):
      the field's text and what follows the closing quote. */
  function ReadQuoted(s: string): (r: Option<(string, string)>)
    ensures r.Some? ==> |r.value.1| < |s|
    decreases |s|
  {
    if s == [] then None
    else if s[0] == '"' then
      if |s| > 1 && s[1] == '"' then
        match ReadQuoted(s[2..])
        case None => None
        case Some((t, rest)) => Some((['"'] + t, rest))
      else Some(("", s[1..]))
    else
      match ReadQuoted(s[1..])
      case None => None
      case Some((t, rest)) => Some(([s[0]] + t, rest))
  }

  /** Reads a bare field: everything up to the first comma. */
  function ReadBare(s: string): (r: (string, string))
    ensures r.0 + r.1 == s
    ensures ',' !in r.0
    ensures r.1 == [] || r.1[0] == ','
    decreases |s|
  {
    if s == [] || s[0] == ',' then ("", s)
    else
      var r := ReadBare(s[1..]);
      assert [s[0]] + (r.0 + r.1) == s;
      assert forall i :: 0 <= i < |r.0| ==> ([s[0]] + r.0)[i + 1] == r.0[i];
      ([s[0]] + r.0, r.1)
  }

  /** The fields of one record, or `None` for a malformed one (text after a
      closing quote, or an unterminated quote). */
  function ParseRecord(s: string): (r: Option<seq<string>>)
    ensures r.Some? ==> |r.value| >= 1
    decreases |s|
  {
    if s != [] && s[0] == '"' then
      match ReadQuoted(s[1..])
      case None => None
      case Some((f, rest)) =>
        if rest == [] then Some([f])
        else if rest[0] == ',' then
          match ParseRecord(rest[1..])
          case None => None
          case Some(fs) => Some([f] + fs)
        else None
    else
      var (f, rest) := ReadBare(s);
      if rest == [] then Some([f])
      else
        match ParseRecord(rest[1..])
        case None => None
        case Some(fs) => Some([f] + fs)
  }

  // ---------------------------------------------------------------- round trip

  /** Un-doubling the quotes of a quoted field recovers its text, and the
      reader stops right after the closing quote. */
  lemma {:induction false} ReadQuotedDoubled(x: string, rest: string)
    requires rest == [] || rest[0] != '"'
    ensures ReadQuoted(ReplaceAll(x, '"', "\"\"") + "\"" + rest) == Some((x, rest))
    decreases |x|
  {
    var s := ReplaceAll(x, '"', "\"\"") + "\"" + rest;
    if x == [] {
      assert s == "\"" + rest;
      assert s[1..] == rest;
    } else {
      ReadQuotedDoubled(x[1..], rest);
      var tail := ReplaceAll(x[1..], '"', "\"\"") + "\"" + rest;
      if x[0] == '"' {
        assert s == "\"\"" + tail;
        assert s[2..] == tail;
      } else {
        assert s == [x[0]] + tail;
        assert s[1..] == tail;
      }
      assert [x[0]] + x[1..] == x;
    }
  }

  lemma {:induction false} ReadBareStops(x: string, rest: string)
    requires ',' !in x
    requires rest == [] || rest[0] == ','
    ensures ReadBare(x + rest) == (x, rest)
    decreases |x|
  {
    if x != [] {
      ReadBareStops(x[1..], rest);
      assert x[0] in x;
      assert (x + rest)[0] == x[0] != ',';
      assert (x + rest)[1..] == x[1..] + rest;
      assert [x[0]] + x[1..] == x;
    } else {
      assert x + rest == rest;
    }
  }

  /** A character other than the comma that no rendered field holds is not
      in the record. */
  lemma RecordAvoids(fields: seq<Field>, c: char)
    requires c != ','
    requires forall i :: 0 <= i < |fields| ==> c !in Render(fields[i])
    ensures c !in Record(fields)
  {
    JoinAvoids(seq(|fields|, i requires 0 <= i < |fields| => Render(fields[i])), ",", c);
  }

  /** A record is its first field, then a comma and the record of the
      others when there are any. */
  lemma RecordCons(fields: seq<Field>)
    requires |fields| >= 1
    ensures Record(fields) == Render(fields[0]) + (if |fields| == 1 then "" else "," + Record(fields[1..]))
  {
    var parts := seq(|fields|, i requires 0 <= i < |fields| => Render(fields[i]));
    if |fields| > 1 {
      assert parts[1..] == seq(|fields[1..]|, i requires 0 <= i < |fields[1..]| => Render(fields[1..][i]));
    }
  }

  /** What reading a record does after its first field. */
  function Prepend(t: string, rest: string): Option<seq<string>>
    decreases |rest|, 0
  {
    if rest == [] then Some([t])
    else if rest[0] != ',' then None
    else
      match ParseRecord(rest[1..])
      case None => None
      case Some(fs) => Some([t] + fs)
  }

  /** A quoted first field is read back whole, up to what follows it. */
  lemma ParseQuotedFirst(t: string, rest: string)
    requires rest == [] || rest[0] == ','
    ensures ParseRecord(Quote(t) + rest) == Prepend(t, rest)
  {
    var s := Quote(t) + rest;
    assert s == "\"" + (ReplaceAll(t, '"', "\"\"") + "\"" + rest);
    assert s[1..] == ReplaceAll(t, '"', "\"\"") + "\"" + rest;
    ReadQuotedDoubled(t, rest);
  }

  /** A bare first field without separators or quotes is read back whole. */
  lemma ParseBareFirst(t: string, rest: string)
    requires ',' !in t && '"' !in t
    requires rest == [] || rest[0] == ','
    ensures ParseRecord(t + rest) == Prepend(t, rest)
  {
    ReadBareStops(t, rest);
    if t != [] {
      assert t[0] in t;
      assert (t + rest)[0] == t[0];
    }
  }

  /** Reading a written record gives back the texts of its fields. */
  lemma {:induction false} RecordRoundTrip(fields: seq<Field>)
    requires |fields| >= 1
    requires forall i :: 0 <= i < |fields| ==> BareOk(fields[i])
    ensures ParseRecord(Record(fields)) == Some(Texts(fields))
    decreases |fields|
  {
    assert BareOk(fields[0]);
    if |fields| == 1 {
      SingleRoundTrip(fields[0]);
      assert fields == [fields[0]];
    } else {
      assert forall i :: 0 <= i < |fields[1..]| ==> BareOk(fields[1..][i]);
      RecordRoundTrip(fields[1..]);
      ConsRoundTrip(fields);
    }
  }

  lemma SingleRoundTrip(f: Field)
    requires BareOk(f)
    ensures ParseRecord(Record([f])) == Some(Texts([f]))
  {
    RecordCons([f]);
    FirstField(f, "");
    assert Render(f) + "" == Render(f);
    assert Texts([f]) == [f.text];
  }

  /** A well-formed field in front of a record that reads back makes a
      record that reads back. */
  lemma ConsRoundTrip(fields: seq<Field>)
    requires |fields| > 1 && BareOk(fields[0])
    requires ParseRecord(Record(fields[1..])) == Some(Texts(fields[1..]))
    ensures ParseRecord(Record(fields)) == Some(Texts(fields))
  {
    var f := fields[0];
    RecordCons(fields);
    FirstField(f, "," + Record(fields[1..]));
    PrependRecord(f.text, Record(fields[1..]), Texts(fields[1..]));
    assert Texts(fields) == [f.text] + Texts(fields[1..]);
  }

  /** A well-formed first field is read back whole, up to what follows it. */
  lemma FirstField(f: Field, rest: string)
    requires BareOk(f)
    requires rest == [] || rest[0] == ','
    ensures ParseRecord(Render(f) + rest) == Prepend(f.text, rest)
  {
    match f {
      case Quoted(t) => ParseQuotedFirst(t, rest);
      case Bare(t) => ParseBareFirst(t, rest);
    }
  }

  /** A comma and a readable record after a first field add its texts. */
  lemma PrependRecord(t: string, r: string, ts: seq<string>)
    requires ParseRecord(r) == Some(ts)
    ensures Prepend(t, "," + r) == Some([t] + ts)
  {
    assert ("," + r)[1..] == r;
  }
}

=== FILE: date_filter.dfy ===
/** The date filter bar of `src/components/DateFilter.jsx`: the active
    filter type, the two custom date inputs, and the range each user action
    hands to `onFilterChange`. The current time is a parameter. */
module DateFilter {
  import opened Options
  import opened Calendar
  import opened DateUtils
  import opened DateText

  /** The filter types; `Unknown` is any other string passed to
      `handleFilterChange`. */
  datatype Kind = Week | Month | Quarter | Custom | Unknown(name: string)

  /** `filterType`, `customStartDate` and `customEndDate`. */
  datatype Filter = Filter(kind: Kind, customStart: string, customEnd: string)

  const Initial: Filter := Filter(Week, "", "")

  datatype Event =
    | Choose(kind: Kind)          // `handleFilterChange(kind)`: the week, month and quarter buttons
    | CustomButton                // the Custom Dates button
    | StartInput(text: string)    // the start date input
    | EndInput(text: string)      // the end date input
    | Apply                       // `handleCustomDateApply`

  /** The custom range: each input read as `new Date(text)`. */
  function CustomRange(f: Filter): (r: Range)
    ensures r.start.Some? <==> ParseDateOnly(f.customStart).Some?
    ensures r.end.Some? <==> ParseDateOnly(f.customEnd).Some?
  {
    Range(DateOnlyTime(f.customStart), DateOnlyTime(f.customEnd))
  }

  /** `handleFilterChange(kind)`: the new state and the range passed to
      `onFilterChange`, if any. */
  function ChooseKind(f: Filter, kind: Kind, now: int): (r: (Filter, Option<Range>))
    ensures r.0 == f.(kind := kind)
    ensures kind == Week ==> r.1 == Some(CurrentWeek(now))
    ensures kind == Month ==> r.1 == Some(CurrentMonth(now))
    ensures kind == Quarter ==> r.1 == Some(CurrentQuarter(now))
    ensures kind == Custom ==> (r.1.Some? <==> f.customStart != "" && f.customEnd != "")
    ensures kind == Custom && r.1.Some? ==> r.1.value == CustomRange(f)
    ensures kind.Unknown? ==> r.1.None?
  {
    var g := f.(kind := kind);
    match kind
    case Week => (g, Some(CurrentWeek(now)))
    case Month => (g, Some(CurrentMonth(now)))
    case Quarter => (g, Some(CurrentQuarter(now)))
    case Custom => (g, if f.customStart != "" && f.customEnd != "" then Some(CustomRange(f)) else None)
    case Unknown(_) => (g, None)
  }

  /** The Apply button is disabled while either input is empty. */
  predicate ApplyDisabled(f: Filter) {
    f.customStart == "" || f.customEnd == ""
  }

  function Handle(f: Filter, ev: Event, now: int): (r: (Filter, Option<Range>))
    ensures ev.Choose? ==> r == ChooseKind(f, ev.kind, now)
    ensures ev.CustomButton? ==> r == (f.(kind := Custom), None)
    ensures ev.StartInput? ==> r == (f.(customStart := ev.text), None)
    ensures ev.EndInput? ==> r == (f.(customEnd := ev.text), None)
    ensures ev.Apply? && ApplyDisabled(f) ==> r == (f, None)
    ensures ev.Apply? && !ApplyDisabled(f) ==> r == (f.(kind := Custom), Some(CustomRange(f)))
  {
    match ev
    case Choose(kind) => ChooseKind(f, kind, now)
    case CustomButton => (f.(kind := Custom), None)
    case StartInput(text) => (f.(customStart := text), None)
    case EndInput(text) => (f.(customEnd := text), None)
    case Apply => if f.customStart != "" && f.customEnd != "" then ChooseKind(f, Custom, now) else (f, None)
  }

  /** Whatever happens, a range is handed on only by a preset button or by
      an enabled Apply, and only the custom inputs' own events change them. */
  lemma EmitsOnlyOnRequest(f: Filter, ev: Event, now: int)
    ensures Handle(f, ev, now).1.Some? <==>
      (ev.Choose? && (ev.kind in {Week, Month, Quarter} || (ev.kind == Custom && !ApplyDisabled(f))))
      || (ev.Apply? && !ApplyDisabled(f))
    ensures !ev.StartInput? ==> Handle(f, ev, now).0.customStart == f.customStart
    ensures !ev.EndInput? ==> Handle(f, ev, now).0.customEnd == f.customEnd
  {
  }

  /** Every preset handed on holds `now`. */
  lemma PresetHoldsNow(f: Filter, kind: Kind, now: int)
    requires kind in {Week, Month, Quarter}
    ensures var r := ChooseKind(f, kind, now).1;
      r.Some? && IsDateInRange(Some(now), r.value)
  {
    PresetsHoldNow(now);
  }

  /** Entering two dates and applying hands on the range of those two days,
      and the request built from it sends back the typed dates (for
      four-digit years). */
  lemma CustomRangeSendsTypedDates(start: Civil, end: Civil, now: int)
    requires Valid(start) && 1000 <= start.year <= 9999
    requires Valid(end) && 1000 <= end.year <= 9999
    ensures var f := Filter(Custom, IsoDate(start), IsoDate(end));
      var r := Handle(f, Apply, now);
      && r.1.Some?
      && ApiDate(r.1.value.start) == IsoDate(start)
      && ApiDate(r.1.value.end) == IsoDate(end)
  {
    ApiDateOfInput(start);
    ApiDateOfInput(end);
    AppliedRange(Filter(Custom, IsoDate(start), IsoDate(end)), now);
  }

  /** An enabled Apply hands on the custom range. */
  lemma AppliedRange(f: Filter, now: int)
    requires !ApplyDisabled(f)
    ensures Handle(f, Apply, now).1 == Some(CustomRange(f))
  {
  }
}

=== FILE: date_text.dfy ===
/** Dates as text: the `YYYY-MM-DD` value of a date input and of
    `toISOString().split('T')[0]`, how `new Date(text)` reads such a value,
    and `formatDateForAPI` of `src/services/api.js`.

    Only the full-date form `YYYY-MM-DD` of ECMA-262's date time string
    format (section 21.4.1.32) is read; it denotes midnight UTC, which is
    local midnight here because the local zone is UTC. */
module DateText {
  import opened Options
  import opened Text
  import opened Calendar
  import opened DateUtils

  /** The year field of `toISOString()`: four digits for years 0..9999,
      otherwise a sign and six digits. */
  function IsoYear(y: int): (r: string)
    ensures 0 <= y <= 9999 ==> |r| == 4 && AllDigits(r) && DigitsValue(r) == y
  {
    if 0 <= y <= 9999 then
      PadDecimal(y, 4);
      PadStart(Decimal(y), 4, '0')
    else if y < 0 then "-" + PadStart(Decimal(-y), 6, '0')
    else "+" + PadStart(Decimal(y), 6, '0')
  }

  /** The date part of `toISOString()`. */
  function IsoDate(c: Civil): string
    requires 0 <= c.month && 0 <= c.day
  {
    JoinDate(IsoYear(c.year), Pad2(c.month + 1), Pad2(c.day))
  }

  /** Year, month and day fields joined by dashes. */
  function JoinDate(y: string, m: string, d: string): string {
    y + "-" + m + "-" + d
  }

  /** `new Date(t).toISOString().split('T')[0]`. */
  function ToIsoDate(t: int): string {
    IsoDate(CivilFromDays(Day(t)))
  }

  /** Reads `YYYY-MM-DD`; `None` is an invalid date (a malformed text or an
      out-of-range month or day). */
  function ParseDateOnly(s: string): (r: Option<Civil>)
    ensures r.Some? ==> Valid(r.value) && 0 <= r.value.year <= 9999
    ensures r.Some? ==> |s| == 10 && s[4] == '-' && s[7] == '-'
  {
    if |s| == 10 && s[4] == '-' && s[7] == '-' then ParseFields(s[..4], s[5..7], s[8..]) else None
  }

  /** The date named by a four-digit year field and the month and day
      fields, if they are digits and in range. */
  function ParseFields(y: string, m: string, d: string): (r: Option<Civil>)
    requires |y| == 4
    ensures r.Some? ==> Valid(r.value) && 0 <= r.value.year <= 9999
  {
    if AllDigits(y) && AllDigits(m) && AllDigits(d) then
      var year, month, day := DigitsValue(y), DigitsValue(m), DigitsValue(d);
      assert year < 10000 by { DigitsBelow(y); }
      if 1 <= month <= 12 && 1 <= day <= DaysInMonth(year, month - 1) then Some(Civil(year, month - 1, day)) else None
    else None
  }

  /** A text joined from a four-character year and two-character month and
      day has the separators at 4 and 7 and splits back into its fields. */
  lemma JoinedFields(y: string, m: string, d: string)
    requires |y| == 4 && |m| == 2 && |d| == 2
    ensures var s := JoinDate(y, m, d);
      |s| == 10 && s[4] == '-' && s[7] == '-' && s[..4] == y && s[5..7] == m && s[8..] == d
  {
    var s := y + "-" + m + "-" + d;
    assert s == y + ("-" + m + "-" + d);
    assert s[4..] == "-" + m + "-" + d;
    assert s[5..] == m + "-" + d;
    assert s[5..][2..] == "-" + d;
  }

  /** A string of `n` digits denotes a number below `10^n`. */
  lemma {:induction false} DigitsBelow(s: string)
    requires AllDigits(s)
    ensures DigitsValue(s) < Pow10(|s|)
    decreases |s|
  {
    if s != [] {
      DigitsBelow(s[..|s| - 1]);
    }
  }

  /** `new Date(text)` for a date-only text: midnight of that day. */
  function DateOnlyTime(s: string): (r: Option<int>)
    ensures r.Some? <==> ParseDateOnly(s).Some?
  {
    match ParseDateOnly(s)
    case Some(c) => Some(StartOfDay(MakeDay(c.year, c.month, c.day)))
    case None => None
  }

  /** `formatDateForAPI(date)`: `String(year)`, then the 1-based month and
      the day padded to two digits; an invalid date gives `NaN-NaN-NaN`. */
  function ApiDate(date: Option<int>): string {
    match date
    case None => "NaN-NaN-NaN"
    case Some(t) =>
      var c := CivilFromDays(Day(t));
      JoinDate(IntText(c.year), Pad2(c.month + 1), Pad2(c.day))
  }

  /** For four-digit years `formatDateForAPI` writes the ISO full date (the
      `full-date` of section 5.6 of RFC 3339). */
  lemma ApiDateIsIso(t: int)
    requires 1000 <= CivilFromDays(Day(t)).year <= 9999
    ensures ApiDate(Some(t)) == ToIsoDate(t)
  {
    var c := CivilFromDays(Day(t));
    YearTexts(c.year);
    ApiDateFields(t);
    IsoDateFields(c);
  }

  /** `String(y)` and the ISO year field agree on four-digit years. */
  lemma YearTexts(y: int)
    requires 1000 <= y <= 9999
    ensures IntText(y) == IsoYear(y)
  {
    DecimalWidth(y);
  }

  /** `formatDateForAPI` of a time whose date is `c` joins its fields. */
  lemma ApiDateFields(t: int)
    ensures var c := CivilFromDays(Day(t));
      ApiDate(Some(t)) == JoinDate(IntText(c.year), Pad2(c.month + 1), Pad2(c.day))
  {
  }

  /** Reading back the ISO date of a valid date in years 0..9999 gives the
      date. */
  lemma IsoDateRoundTrip(c: Civil)
    requires Valid(c) && 0 <= c.year <= 9999
    ensures ParseDateOnly(IsoDate(c)) == Some(c)
  {
    var s := IsoDate(c);
    IsoDateFields(c);
    JoinedFieldsRead(c, s);
  }

  lemma IsoDateFields(c: Civil)
    requires 0 <= c.month && 0 <= c.day
    ensures IsoDate(c) == JoinDate(IsoYear(c.year), Pad2(c.month + 1), Pad2(c.day))
  {
  }

  lemma JoinedFieldsRead(c: Civil, s: string)
    requires Valid(c) && 0 <= c.year <= 9999
    requires s == JoinDate(IsoYear(c.year), Pad2(c.month + 1), Pad2(c.day))
    ensures ParseDateOnly(s) == Some(c)
  {
    ParseJoined(IsoYear(c.year), Pad2(c.month + 1), Pad2(c.day));
    FieldsOfDate(c);
  }

  /** A ten-character text with dashes at 4 and 7 is its three fields
      joined. */
  lemma JoinSplit(s: string)
    requires |s| == 10 && s[4] == '-' && s[7] == '-'
    ensures s == JoinDate(s[..4], s[5..7], s[8..])
  {
    JoinedFields(s[..4], s[5..7], s[8..]);
  }

  /** Reading a joined text reads its fields. */
  lemma ParseJoined(y: string, m: string, d: string)
    requires |y| == 4 && |m| == 2 && |d| == 2
    ensures ParseDateOnly(JoinDate(y, m, d)) == ParseFields(y, m, d)
  {
    JoinedFields(y, m, d);
  }

  /** The ISO fields of a date read back as that date. */
  lemma FieldsOfDate(c: Civil)
    requires Valid(c) && 0 <= c.year <= 9999
    ensures ParseFields(IsoYear(c.year), Pad2(c.month + 1), Pad2(c.day)) == Some(c)
  {
  }

  /** A text that reads as a date is the ISO text of that date, so reading
      is one-to-one. */
  lemma ParsedIsIso(s: string)
    requires ParseDateOnly(s).Some?
    ensures IsoDate(ParseDateOnly(s).value) == s
  {
    var y, m, d := s[..4], s[5..7], s[8..];
    JoinSplit(s);
    ParsedFieldsIso(y, m, d);
  }

  /** Fields that read as a date join to that date's ISO text. */
  lemma ParsedFieldsIso(y: string, m: string, d: string)
    requires |y| == 4 && |m| == 2 && |d| == 2
    requires ParseFields(y, m, d).Some?
    ensures IsoDate(ParseFields(y, m, d).value) == JoinDate(y, m, d)
  {
    FieldsReadBack(y, m, d);
    IsoDateFields(ParseFields(y, m, d).value);
  }

  /** Fields that read as a date are that date's ISO fields. */
  lemma FieldsReadBack(y: string, m: string, d: string)
    requires |y| == 4 && |m| == 2 && |d| == 2
    requires ParseFields(y, m, d).Some?
    ensures var c := ParseFields(y, m, d).value;
      IsoYear(c.year) == y && Pad2(c.month + 1) == m && Pad2(c.day) == d
  {
    var c := ParseFields(y, m, d).value;
    ParsedValues(y, m, d);
    DigitFields(y, m, d, c.year, c.month + 1, c.day);
  }

  /** What a successful read of the fields holds: digits only, and the
      date their values name. */
  lemma ParsedValues(y: string, m: string, d: string)
    requires |y| == 4 && ParseFields(y, m, d).Some?
    ensures AllDigits(y) && AllDigits(m) && AllDigits(d)
    ensures ParseFields(y, m, d).value == Civil(DigitsValue(y), DigitsValue(m) - 1, DigitsValue(d))
  {
  }

  /** Fields of the right widths are the padded texts of their values. */
  lemma DigitFields(y: string, m: string, d: string, year: int, month: int, day: int)
    requires |y| == 4 && |m| == 2 && |d| == 2
    requires AllDigits(y) && AllDigits(m) && AllDigits(d)
    requires DigitsValue(y) == year && DigitsValue(m) == month && DigitsValue(d) == day
    requires 0 <= year <= 9999 && 0 <= month < 100 && 0 <= day < 100
    ensures IsoYear(year) == y && Pad2(month) == m && Pad2(day) == d
  {
    DigitsInjective(IsoYear(year), y);
    DigitsInjective(Pad2(month), m);
    DigitsInjective(Pad2(day), d);
  }

  /** The date an expense form shows for time `t` reads back as midnight of
      the day of `t`. */
  lemma FormDateRoundTrip(t: int)
    requires 0 <= CivilFromDays(Day(t)).year <= 9999
    ensures DateOnlyTime(ToIsoDate(t)) == Some(StartOfDay(Day(t)))
  {
    IsoDateRoundTrip(CivilFromDays(Day(t)));
  }

  /** `formatDateForAPI(new Date(text))` gives back a date input's text
      for four-digit years, so an update sends the date the form showed. */
  lemma ApiDateOfInput(c: Civil)
    requires Valid(c) && 1000 <= c.year <= 9999
    ensures ApiDate(DateOnlyTime(IsoDate(c))) == IsoDate(c)
    ensures IsoDate(c) != ""
  {
    IsoDateRoundTrip(c);
    var t := StartOfDay(MakeDay(c.year, c.month, c.day));
    assert Day(t) == MakeDay(c.year, c.month, c.day);
    CivilRoundTrip(c);
    ApiDateIsIso(t);
  }
}

=== FILE: date_utils.dfy ===
/** The preset date ranges of `src/utils/dateUtils.js` and its inclusive
    range test. A range runs from 00:00:00.000 on its first day to
    23:59:59.999 on its last; `now` is a parameter instead of the clock. */
module DateUtils {
  import opened Options
  import opened Calendar

  /** `{ start, end }`: two `Date`s, `None` standing for an invalid date
      (one whose time value is NaN). */
  datatype Range = Range(start: Option<int>, end: Option<int>)

  /** `setHours(0, 0, 0, 0)` on a date of day `day`. */
  function StartOfDay(day: int): int {
    day * MsPerDay
  }

  /** `setHours(23, 59, 59, 999)` on a date of day `day`. */
  function EndOfDay(day: int): (r: int)
    ensures r == StartOfDay(day + 1) - 1
  {
    day * MsPerDay + 23 * 3600000 + 59 * 60000 + 59 * 1000 + 999
  }

  /** `isDateInRange`: the date is a valid time value between the ends,
      both included; any comparison with an invalid date is false. */
  predicate IsDateInRange(date: Option<int>, r: Range) {
    date.Some? && r.start.Some? && r.end.Some? && r.start.value <= date.value <= r.end.value
  }

  /** Midnight of a day lies in that day. */
  lemma DayOfStart(day: int)
    ensures Day(StartOfDay(day)) == day
  {
  }

  /** The last millisecond of a day lies in that day. */
  lemma DayOfEnd(day: int)
    ensures Day(EndOfDay(day)) == day
  {
    DayBounds(EndOfDay(day), day, day);
  }

  /** A time value lies in a range of whole days exactly when its day does. */
  lemma DayBounds(t: int, first: int, last: int)
    ensures StartOfDay(first) <= t <= EndOfDay(last) <==> first <= Day(t) <= last
  {
    var d := Day(t);
    assert d * MsPerDay <= t < d * MsPerDay + MsPerDay;
    if d < first {
      assert d * MsPerDay + MsPerDay <= first * MsPerDay;
    }
    if d > last {
      assert last * MsPerDay + MsPerDay <= d * MsPerDay;
    }
    if first <= d {
      assert first * MsPerDay <= d * MsPerDay;
    }
    if d <= last {
      assert d * MsPerDay <= last * MsPerDay;
    }
  }

  // ---------------------------------------------------------------- week

  /** `getCurrentWeek()`: Sunday to Saturday of the week holding `now`.
      `setDate(getDate() - getDay())` moves back `getDay()` days and
      `setDate(getDate() + 6)` forward six (`WeekBySetDate`). */
  function CurrentWeek(now: int): (r: Range)
    ensures r.start.Some? && r.end.Some?
    ensures r.end.value - r.start.value == 7 * MsPerDay - 1
  {
    var sunday := Day(now) - WeekDay(Day(now));
    WeekLength(sunday);
    Range(Some(StartOfDay(sunday)), Some(EndOfDay(sunday + 6)))
  }

  /** The code's two `setDate` calls on the day `today` of `now` give the
      days `CurrentWeek` uses: back to the Sunday, then six days on. */
  lemma WeekBySetDate(today: int)
    ensures var startDay := SetDate(today, CivilFromDays(today).day - WeekDay(today));
      var endDay := SetDate(startDay, CivilFromDays(startDay).day + 6);
      startDay == today - WeekDay(today) && endDay == startDay + 6
  {
    var startDay := SetDate(today, CivilFromDays(today).day - WeekDay(today));
    SetDateBack(today, WeekDay(today));
    SetDateMoves(startDay, 6);
  }

  /** `setDate(getDate() - k)` moves a date back by `k` days. */
  lemma SetDateBack(days: int, k: int)
    ensures SetDate(days, CivilFromDays(days).day - k) == days - k
  {
  }

  /** `setDate(getDate() + k)` moves a date by `k` days. */
  lemma SetDateMoves(days: int, k: int)
    ensures SetDate(days, CivilFromDays(days).day + k) == days + k
  {
  }

  /** Seven whole days, less the last millisecond. */
  lemma WeekLength(day: int)
    ensures EndOfDay(day + 6) - StartOfDay(day) == 7 * MsPerDay - 1
  {
    assert StartOfDay(day + 7) == StartOfDay(day) + 7 * MsPerDay;
  }

  /** The week range holds exactly the times whose Sunday-started week is
      the week of `now`; in particular it holds `now` and starts on a Sunday. */
  lemma WeekRangeIsWeek(now: int, t: int)
    ensures WeekDay(Day(CurrentWeek(now).start.value)) == 0
    ensures IsDateInRange(Some(t), CurrentWeek(now))
        <==> Day(t) - WeekDay(Day(t)) == Day(now) - WeekDay(Day(now))
  {
    var sunday := Day(now) - WeekDay(Day(now));
    DayOfStart(sunday);
    PreviousSunday(Day(now));
    DayBounds(t, sunday, sunday + 6);
    SundayWeek(sunday, Day(t));
  }

  lemma PreviousSunday(d: int)
    ensures WeekDay(d - WeekDay(d)) == 0
  {
  }

  /** The days `sunday .. sunday + 6` of a week starting on a Sunday are
      those whose previous Sunday is `sunday`. */
  lemma SundayWeek(sunday: int, d: int)
    requires WeekDay(sunday) == 0
    ensures sunday <= d <= sunday + 6 <==> d - WeekDay(d) == sunday
  {
    if sunday <= d <= sunday + 6 {
      assert (d + 4) % 7 == d - sunday;
    }
  }

  // ---------------------------------------------------------------- month and quarter

  /** The first of month `m` (0..12) of year `y`, with 12 standing for
      January of the next year. */
  lemma MonthStartInYear(y: int, m: int)
    requires 0 <= m <= 12
    ensures MakeDay(y, m, 1) == DayFromYear(y) + DaysBeforeMonth(y, m)
  {
    if m == 12 {
      YearStep(y);
      assert m / 12 == 1 && m % 12 == 0;
    } else {
      assert m / 12 == 0 && m % 12 == m;
    }
  }

  /** The days from the first of month `a` up to, not including, the first
      of month `b` of year `y` are exactly those whose date is in year `y`
      and in one of the months `a..b-1`. */
  lemma MonthsSpan(y: int, a: int, b: int, day: int)
    requires 0 <= a < b <= 12
    ensures var c := CivilFromDays(day);
      MakeDay(y, a, 1) <= day < MakeDay(y, b, 1) <==> c.year == y && a <= c.month < b
  {
    var c := CivilFromDays(day);
    MonthStartInYear(y, a);
    MonthStartInYear(y, b);
    MonthStartInYear(c.year, c.month);
    MonthStartInYear(c.year, c.month + 1);
    NextMonth(c.year, c.month);
    MakeDayShift(c.year, c.month, 1, c.day - 1);
    SpanInYear(y, a, b, c.year, c.month, day);
  }

  /** `MonthsSpan` on day counts: a day of month `cm` of year `cy` lies
      between the starts of months `a` and `b` of year `y` exactly when it is
      the same year and `cm` is one of `a..b-1`. */
  lemma SpanInYear(y: int, a: int, b: int, cy: int, cm: int, day: int)
    requires 0 <= a < b <= 12 && 0 <= cm < 12
    requires DayFromYear(cy) + DaysBeforeMonth(cy, cm) <= day < DayFromYear(cy) + DaysBeforeMonth(cy, cm + 1)
    ensures DayFromYear(y) + DaysBeforeMonth(y, a) <= day < DayFromYear(y) + DaysBeforeMonth(y, b)
        <==> cy == y && a <= cm < b
  {
    if cy < y {
      EarlierYearBefore(y, a, cy, cm);
    } else if cy > y {
      LaterYearAfter(y, b, cy, cm);
    } else if cm < a {
      MonthsIncrease(y, cm + 1, a);
    } else if cm >= b {
      MonthsIncrease(y, b, cm);
    } else {
      MonthsIncrease(y, a, cm);
      MonthsIncrease(y, cm + 1, b);
    }
  }

  /** Every month of an earlier year ends before any month of a later one
      starts. */
  lemma EarlierYearBefore(y: int, a: int, cy: int, cm: int)
    requires 0 <= a <= 12 && 0 <= cm < 12 && cy < y
    ensures DayFromYear(cy) + DaysBeforeMonth(cy, cm + 1) <= DayFromYear(y) + DaysBeforeMonth(y, a)
  {
    MonthsIncrease(cy, cm + 1, 12);
    MonthsIncrease(y, 0, a);
    YearStep(cy);
    YearsIncrease(cy + 1, y);
  }

  /** Every month of a later year starts after any month of an earlier one
      ends. */
  lemma LaterYearAfter(y: int, b: int, cy: int, cm: int)
    requires 0 <= b <= 12 && 0 <= cm < 12 && cy > y
    ensures DayFromYear(y) + DaysBeforeMonth(y, b) <= DayFromYear(cy) + DaysBeforeMonth(cy, cm)
  {
    EarlierYearBefore(cy, cm, y, if b == 0 then 0 else b - 1);
    if b == 0 {
      MonthsIncrease(y, 0, 1);
    }
  }

  /** The range from the first of month `a` to the last day before month
      `b` of year `y` holds exactly the times in that year and those months. */
  lemma MonthsRange(y: int, a: int, b: int, t: int)
    requires 0 <= a < b <= 12
    ensures var ct := CivilFromDays(Day(t));
      (IsDateInRange(Some(t), MonthsBetween(y, a, b)) <==> ct.year == y && a <= ct.month < b)
  {
    MonthsBetweenDays(y, a, b);
    DayBounds(t, MakeDay(y, a, 1), MakeDay(y, b, 1) - 1);
    MonthsSpan(y, a, b, Day(t));
  }

  /** Day 0 of month `b` is the day before its first. */
  lemma MonthsBetweenDays(y: int, a: int, b: int)
    ensures MonthsBetween(y, a, b) == Range(Some(StartOfDay(MakeDay(y, a, 1))), Some(EndOfDay(MakeDay(y, b, 1) - 1)))
  {
    MakeDayShift(y, b, 0, 1);
  }

  /** `new Date(y, a, 1)` to the end of `new Date(y, b, 0)`: the first of
      month `a` to the last day before month `b`. */
  function MonthsBetween(y: int, a: int, b: int): Range {
    Range(Some(StartOfDay(MakeDay(y, a, 1))), Some(EndOfDay(MakeDay(y, b, 0))))
  }

  /** `getCurrentMonth()`: the first to the last day of the month of `now`. */
  function CurrentMonth(now: int): Range {
    var c := CivilFromDays(Day(now));
    MonthsBetween(c.year, c.month, c.month + 1)
  }

  /** The month range holds exactly the times in the year and month of `now`. */
  lemma MonthRangeIsMonth(now: int, t: int)
    ensures var c := CivilFromDays(Day(now));
      var ct := CivilFromDays(Day(t));
      IsDateInRange(Some(t), CurrentMonth(now)) <==> ct.year == c.year && ct.month == c.month
  {
    var c := CivilFromDays(Day(now));
    assert CurrentMonth(now) == MonthsBetween(c.year, c.month, c.month + 1);
    MonthSpan(c.year, c.month, t);
  }

  lemma MonthSpan(y: int, m: int, t: int)
    requires 0 <= m < 12
    ensures var ct := CivilFromDays(Day(t));
      (IsDateInRange(Some(t), MonthsBetween(y, m, m + 1)) <==> ct.year == y && ct.month == m)
  {
    MonthsRange(y, m, m + 1, t);
  }

  /** The month range runs from the first to the last day of the month. */
  lemma MonthRangeEnds(now: int)
    ensures var c := CivilFromDays(Day(now));
      var r := CurrentMonth(now);
      && CivilFromDays(Day(r.start.value)) == Civil(c.year, c.month, 1)
      && CivilFromDays(Day(r.end.value)) == Civil(c.year, c.month, DaysInMonth(c.year, c.month))
  {
    var c := CivilFromDays(Day(now));
    assert CurrentMonth(now) == MonthsBetween(c.year, c.month, c.month + 1);
    MonthEnds(c.year, c.month);
  }

  lemma MonthEnds(y: int, m: int)
    requires 0 <= m < 12
    ensures var r := MonthsBetween(y, m, m + 1);
      && CivilFromDays(Day(r.start.value)) == Civil(y, m, 1)
      && CivilFromDays(Day(r.end.value)) == Civil(y, m, DaysInMonth(y, m))
  {
    var r := MonthsBetween(y, m, m + 1);
    var last := DaysInMonth(y, m);
    MakeDayShift(y, m + 1, 0, 1);
    NextMonth(y, m);
    MakeDayShift(y, m, 1, last - 1);
    assert Day(r.start.value) == MakeDay(y, m, 1);
    assert Day(r.end.value) == MakeDay(y, m, last);
    CivilRoundTrip(Civil(y, m, 1));
    CivilRoundTrip(Civil(y, m, last));
  }

  /** The first month of the quarter of month `m`. */
  function QuarterStart(m: int): (r: int)
    requires 0 <= m < 12
    ensures r <= m < r + 3 && 0 <= r <= 9
    ensures r == m / 3 * 3
  {
    if m < 3 then 0 else if m < 6 then 3 else if m < 9 then 6 else 9
  }

  /** `getCurrentQuarter()`: the first day of the quarter of `now` to the
      last day of its third month. */
  function CurrentQuarter(now: int): Range {
    var c := CivilFromDays(Day(now));
    var first := QuarterStart(c.month);
    MonthsBetween(c.year, first, first + 3)
  }

  /** The quarter range holds exactly the times in the year and quarter of
      `now`. */
  lemma QuarterRangeIsQuarter(now: int, t: int)
    ensures var c := CivilFromDays(Day(now));
      var ct := CivilFromDays(Day(t));
      IsDateInRange(Some(t), CurrentQuarter(now)) <==> ct.year == c.year && ct.month / 3 == c.month / 3
  {
    var c := CivilFromDays(Day(now));
    var ct := CivilFromDays(Day(t));
    QuarterMonths(now, t);
    SameQuarter(c.month, ct.month);
  }

  /** The quarter range holds exactly the times in the three months from
      the quarter's first. */
  lemma QuarterMonths(now: int, t: int)
    ensures var c := CivilFromDays(Day(now));
      var ct := CivilFromDays(Day(t));
      var first := QuarterStart(c.month);
      IsDateInRange(Some(t), CurrentQuarter(now)) <==> ct.year == c.year && first <= ct.month < first + 3
  {
    var c := CivilFromDays(Day(now));
    assert CurrentQuarter(now) == MonthsBetween(c.year, QuarterStart(c.month), QuarterStart(c.month) + 3);
    QuarterSpan(c.year, c.month, t);
  }

  lemma QuarterSpan(y: int, m: int, t: int)
    requires 0 <= m < 12
    ensures var first := QuarterStart(m);
      var ct := CivilFromDays(Day(t));
      (IsDateInRange(Some(t), MonthsBetween(y, first, first + 3)) <==> ct.year == y && first <= ct.month < first + 3)
  {
    MonthsRange(y, QuarterStart(m), QuarterStart(m) + 3, t);
  }

  lemma SameQuarter(m: int, n: int)
    requires 0 <= m < 12 && 0 <= n < 12
    ensures QuarterStart(m) <= n < QuarterStart(m) + 3 <==> n / 3 == m / 3
  {
  }

  /** A time in the month range of `now` is in its quarter range too. */
  lemma MonthInsideQuarter(now: int, t: int)
    ensures IsDateInRange(Some(t), CurrentMonth(now)) ==> IsDateInRange(Some(t), CurrentQuarter(now))
  {
    MonthRangeIsMonth(now, t);
    QuarterRangeIsQuarter(now, t);
  }

  /** Each preset range holds `now` itself. */
  lemma PresetsHoldNow(now: int)
    ensures IsDateInRange(Some(now), CurrentWeek(now))
    ensures IsDateInRange(Some(now), CurrentMonth(now))
    ensures IsDateInRange(Some(now), CurrentQuarter(now))
  {
    WeekRangeIsWeek(now, now);
    MonthRangeIsMonth(now, now);
    QuarterRangeIsQuarter(now, now);
  }
}

=== FILE: expense_charts.dfy ===
/** The charts panel of `src/components/ExpenseCharts.jsx`: a pie of the
    by-primary-category summary and the same rows as a list with bars, in the
    order the summary arrived. */
module ExpenseCharts {
  import opened Options
  import opened Seqs
  import opened SummaryItems
  import PieChart

  function CategoryName(item: SummaryItem): string { item.id }

  /** The panel: the pie chart (`None` is its placeholder) and the list
      (`None` is "No data available"). */
  datatype Panel = Panel(pie: Option<seq<PieChart.Slice>>, list: Option<seq<Row>>)

  function Show(summary: Option<seq<SummaryItem>>): (r: Panel)
    ensures r.pie == PieChart.Chart(Some(summary.GetOr([])))
    ensures r.list.None? <==> summary.None? || summary.value == []
    ensures r.list.Some? ==> |r.list.value| == |summary.value|
    ensures r.list.Some? ==> forall i :: 0 <= i < |summary.value| ==>
      r.list.value[i].name == summary.value[i].id && r.list.value[i].amount == ValueOr0(summary.value[i])
    ensures r.list.Some? ==> forall i :: 0 <= i < |summary.value| ==>
      r.list.value[i].percent == Percent(ValueOr0(summary.value[i]), Sum(summary.value, ValueOr0))
  {
    var data := summary.GetOr([]);
    var total := Sum(data, ValueOr0);
    Panel(PieChart.Chart(Some(data)),
          if data == [] then None else Some(Rows(data, CategoryName, ValueOr0, total)))
  }

  /** The list's shares add up to 100% whenever its total is positive. */
  lemma ListIsWhole(summary: seq<SummaryItem>)
    requires Sum(summary, ValueOr0) > 0
    ensures Show(Some(summary)).list.Some?
    ensures SumReal(Show(Some(summary)).list.value, RowPercent) == 100.0
  {
    RowsMakeWhole(summary, summary, CategoryName, ValueOr0);
  }

  /** When every row has a non-zero value the pie and the list show the same
      amounts under the same names, in the same order; a row whose value is
      missing or zero is drawn in the pie with its `total` instead. */
  lemma PieMatchesList(summary: seq<SummaryItem>)
    requires forall i :: 0 <= i < |summary| ==> TruthyNumber(summary[i].value) && summary[i].id != ""
    requires PieChart.Chart(Some(summary)).Some?
    ensures var p := Show(Some(summary));
      && p.pie.Some? && p.list.Some?
      && |p.pie.value| == |p.list.value|
      && forall i :: 0 <= i < |p.list.value| ==>
           p.pie.value[i].value == p.list.value[i].amount && p.pie.value[i].name == p.list.value[i].name
  {
  }

  /** Wherever a row has no value (missing or zero) but a non-zero
      total, the two views disagree about it: the pie draws the total, the
      list shows 0. */
  lemma PieAndListDisagreeOnTotalOnlyRows(summary: seq<SummaryItem>, i: int)
    requires 0 <= i < |summary|
    requires !TruthyNumber(summary[i].value) && TruthyNumber(summary[i].total)
    requires PieChart.Chart(Some(summary)).Some?
    ensures var p := Show(Some(summary));
      && p.pie.Some? && p.list.Some?
      && p.pie.value[i].value == summary[i].total.value != 0
      && p.list.value[i].amount == 0
  {
    var total := Sum(summary, PieChart.PieValue);
    assert PieChart.Chart(Some(summary)) == Some(PieChart.Slices(summary, total, 0));
  }
}

=== FILE: expense_form.dfy ===
/** The add/edit dialog of `src/components/ExpenseForm.jsx`: how it is
    filled from the expense being edited, how a field edit changes it, and
    what it hands to `onSave`. Dates are `YYYY-MM-DD` texts; `now` is the
    clock's time value. */
module ExpenseForm {
  import opened Options
  import opened Text
  import opened Records
  import opened Calendar
  import opened DateText
  import Api

  /** `formData`; `expense` is the description. */
  datatype FormData = FormData(expense: string, amount: string, date: string, primary: string, secondary: string)

  /** The `name` attribute of each input. */
  datatype FieldName = ExpenseField | AmountField | DateField | PrimaryField | SecondaryField

  /** The empty form: today's date and nothing else. */
  function Blank(now: int): (r: FormData)
    ensures r.expense == "" && r.amount == "" && r.primary == "" && r.secondary == ""
    ensures r.date == ToIsoDate(now)
  {
    FormData("", "", ToIsoDate(now), "", "")
  }

  /** The population effect: the edited expense's fields, a falsy amount
      shown empty, and the day of `created` unless it is `0`, which is
      falsy and shows today; without an expense, the empty form. */
  function Populate(editing: Option<Expense>, now: int): (r: FormData)
    ensures editing.None? ==> r == Blank(now)
    ensures editing.Some? ==> r.expense == editing.value.description
    ensures editing.Some? ==> r.primary == editing.value.primary && r.secondary == editing.value.secondary
    ensures editing.Some? ==> (r.amount == "" <==> !TruthyNumber(editing.value.amount))
    ensures editing.Some? && TruthyNumber(editing.value.amount) ==> r.amount == IntText(editing.value.amount.value)
    ensures editing.Some? ==> r.date == ToIsoDate(if editing.value.created != 0 then editing.value.created else now)
  {
    match editing
    case None => Blank(now)
    case Some(e) =>
      FormData(e.description,
               if TruthyNumber(e.amount) then IntText(e.amount.value) else "",
               ToIsoDate(if e.created != 0 then e.created else now),
               e.primary, e.secondary)
  }

  function Get(f: FormData, name: FieldName): string {
    match name
    case ExpenseField => f.expense
    case AmountField => f.amount
    case DateField => f.date
    case PrimaryField => f.primary
    case SecondaryField => f.secondary
  }

  /** `handleChange`: `{...prev, [name]: value}`. */
  function HandleChange(f: FormData, name: FieldName, value: string): (r: FormData)
    ensures Get(r, name) == value
    ensures forall other :: other != name ==> Get(r, other) == Get(f, other)
  {
    match name
    case ExpenseField => f.(expense := value)
    case AmountField => f.(amount := value)
    case DateField => f.(date := value)
    case PrimaryField => f.(primary := value)
    case SecondaryField => f.(secondary := value)
  }

  /** A form is determined by its five fields. */
  lemma FieldsDetermineForm(f: FormData, g: FormData)
    requires forall name :: Get(f, name) == Get(g, name)
    ensures f == g
  {
    assert Get(f, ExpenseField) == Get(g, ExpenseField);
    assert Get(f, AmountField) == Get(g, AmountField);
    assert Get(f, DateField) == Get(g, DateField);
    assert Get(f, PrimaryField) == Get(g, PrimaryField);
    assert Get(f, SecondaryField) == Get(g, SecondaryField);
  }

  /** Typing back a field's old value restores the form. */
  lemma ChangeBackRestores(f: FormData, name: FieldName, value: string)
    ensures HandleChange(HandleChange(f, name, value), name, Get(f, name)) == f
  {
    var g := HandleChange(HandleChange(f, name, value), name, Get(f, name));
    FieldsDetermineForm(g, f);
  }

  // ---------------------------------------------------------------- submit

  /** The second argument of `onSave(expense.id, …)` when editing. */
  function UpdateOf(f: FormData): (r: Api.UpdateInput)
    ensures r.expense == f.expense && r.amount == f.amount && r.created == f.date
    ensures r.primarycategory == f.primary && r.secondarycategory == f.secondary
  {
    Api.UpdateInput(f.expense, f.amount, f.date, f.primary, f.secondary)
  }

  /** The only argument of `onSave(…)` when adding: one category, the
      primary if non-empty, else the secondary if non-empty, else none. */
  function AddOf(f: FormData): (r: Api.AddInput)
    ensures r.expense == f.expense && r.amount == f.amount && r.date == Some(f.date)
    ensures f.primary != "" ==> r.category == Some(f.primary)
    ensures f.primary == "" && f.secondary != "" ==> r.category == Some(f.secondary)
    ensures f.primary == "" && f.secondary == "" ==> r.category.None?
  {
    Api.AddInput(f.expense, f.amount, Some(f.date),
                 if f.primary != "" then Some(f.primary)
                 else if f.secondary != "" then Some(f.secondary)
                 else None)
  }

  datatype Submission = Update(id: Id, changes: Api.UpdateInput) | Add(input: Api.AddInput)

  /** `handleSubmit`: an update of the edited expense's id, or an add. */
  function Submit(editing: Option<Expense>, f: FormData): (r: Submission)
    ensures r.Update? <==> editing.Some?
    ensures r.Update? ==> r.id == editing.value.id && r.changes == UpdateOf(f)
    ensures r.Add? ==> r.input == AddOf(f)
  {
    match editing
    case Some(e) => Update(e.id, UpdateOf(f))
    case None => Add(AddOf(f))
  }

  // ---------------------------------------------------------------- browser validation

  /** The part of a number text before any exponent has a non-zero digit. */
  predicate MantissaNonZero(s: string)
    decreases |s|
  {
    s != [] && s[0] != 'e' && s[0] != 'E' && (('1' <= s[0] <= '9') || MantissaNonZero(s[1..]))
  }

  /** `min="0"` is violated: the amount is a number text below zero. */
  predicate BelowZero(amount: string) {
    amount != "" && amount[0] == '-' && MantissaNonZero(amount[1..])
  }

  /** What the browser's interactive constraint validation (WHATWG HTML
      standard, "Constraints") lets through to `onSubmit`: the description, the
      amount and the date are `required`, and the amount is not below
      `min="0"`. A date input holds either nothing or a valid date, so a
      filled one reads as a date. */
  predicate Submittable(f: FormData) {
    f.expense != "" && f.amount != "" && ParseDateOnly(f.date).Some? && !BelowZero(f.amount)
  }

  /** Pressing the submit button: a form that fails validation is not
      submitted and `handleSubmit` does not run; otherwise it does. */
  function Press(editing: Option<Expense>, f: FormData): (r: Option<Submission>)
    ensures r.Some? <==> Submittable(f)
    ensures r.Some? ==> r.value == Submit(editing, f)
  {
    if Submittable(f) then Some(Submit(editing, f)) else None
  }

  /** Whatever is submitted carries a description, an amount and a date
      that reads as one: `formatDateForAPI` never meets an invalid date from
      the dialog, and for four-digit years the date sent is the date shown. */
  lemma PressSendsFilledForm(editing: Option<Expense>, f: FormData)
    requires Press(editing, f).Some?
    ensures var sub := Press(editing, f).value;
      && (sub.Update? ==> && sub.changes.expense != "" && sub.changes.amount != ""
                          && ParseDateOnly(sub.changes.created).Some?
                          && (1000 <= ParseDateOnly(f.date).value.year ==> Api.UpdateRequest(sub.changes).created == f.date))
      && (sub.Add? ==> sub.input.expense != "" && sub.input.amount != "" && sub.input.date == Some(f.date))
  {
    Api.UpdateSendsFormDate(UpdateOf(f));
  }

  /** The dialog's title, or `None` when it is closed and nothing renders. */
  function Title(isOpen: bool, editing: Option<Expense>): (r: Option<string>)
    ensures r.None? <==> !isOpen
    ensures r.Some? ==> r.value == if editing.Some? then "Edit Expense" else "Add New Expense"
  {
    if !isOpen then None
    else if editing.Some? then Some("Edit Expense") else Some("Add New Expense")
  }

  // ---------------------------------------------------------------- round trips

  /** An add sends a category exactly when one of the two was filled in. */
  lemma AddSendsFirstCategory(f: FormData)
    ensures var body := Api.AddRequest(AddOf(f));
      (body.category.Some? <==> f.primary != "" || f.secondary != "")
      && (body.category.Some? ==> body.category.value == if f.primary != "" then f.primary else f.secondary)
  {
  }

  /** Opening an expense and saving it untouched sends back its own
      description, categories and day (for a four-digit year and a
      non-zero `created`). */
  lemma UntouchedEditSendsExpense(e: Expense, now: int)
    requires e.created != 0
    requires 1000 <= CivilFromDays(Day(e.created)).year <= 9999
    ensures var body := Api.UpdateRequest(UpdateOf(Populate(Some(e), now)));
      && body.expense == e.description
      && body.created == ToIsoDate(e.created)
      && (body.primarycategory.Some? <==> e.primary != "")
      && (body.primarycategory.Some? ==> body.primarycategory.value == e.primary)
  {
    var c := CivilFromDays(Day(e.created));
    IsoDateRoundTrip(c);
    Api.UpdateSendsFormDate(UpdateOf(Populate(Some(e), now)));
  }
}

=== FILE: expense_list.dfy ===
/** The expense list of `src/components/ExpenseList.jsx`: which state it
    shows, the total over the listed amounts, the selection checkbox of each
    card and the delete confirmation. Locale formatting of dates and
    amounts is not modelled. */
module ExpenseList {
  import opened Options
  import opened Seqs
  import opened Records
  import opened BulkActions
  import DateUtils

  /** `expenses.reduce((sum, expense) => sum + expense.amount, acc)`: a
      missing amount makes the sum NaN (`None`), and NaN stays NaN. */
  function AddAmounts(acc: Option<int>, xs: seq<Expense>): (r: Option<int>)
    ensures r.Some? <==> acc.Some? && forall i :: 0 <= i < |xs| ==> xs[i].amount.Some?
    ensures r.Some? ==> r.value == acc.value + Sum(xs, AmountOr0)
    decreases |xs|
  {
    if xs == [] then acc
    else
      var next := if acc.Some? && xs[0].amount.Some? then Some(acc.value + xs[0].amount.value) else None;
      var r := AddAmounts(next, xs[1..]);
      assert forall i :: 1 <= i < |xs| ==> xs[i] == xs[1..][i - 1];
      r
  }

  /** `totalAmount`. */
  function Total(xs: seq<Expense>): (r: Option<int>)
    ensures r.Some? <==> forall i :: 0 <= i < |xs| ==> xs[i].amount.Some?
    ensures r.Some? ==> r.value == Sum(xs, AmountOr0)
  {
    AddAmounts(Some(0), xs)
  }

  /** One card: the expense and its checkbox (`None` when no select handler
      is given, else whether it is ticked). */
  datatype Card = Card(expense: Expense, checkbox: Option<bool>)

  /** `selectedIds?.has(expense.id) || false`, shown only with a handler. */
  function Checkbox(id: Id, selectable: bool, selected: Option<seq<Id>>): (r: Option<bool>)
    ensures r.Some? <==> selectable
    ensures r.Some? ==> (r.value <==> selected.Some? && id in selected.value)
  {
    if selectable then Some(selected.Some? && id in selected.value) else None
  }

  function Cards(xs: seq<Expense>, selectable: bool, selected: Option<seq<Id>>): (r: seq<Card>)
    ensures |r| == |xs|
    ensures forall i :: 0 <= i < |xs| ==> r[i] == Card(xs[i], Checkbox(xs[i].id, selectable, selected))
  {
    seq(|xs|, i requires 0 <= i < |xs| => Card(xs[i], Checkbox(xs[i].id, selectable, selected)))
  }

  datatype Body =
    | Loading
    | Failure(message: string)
    | Empty                                   // "No expenses found for the selected period."
    | Listing(total: Option<int>, cards: seq<Card>)

  /** The header shows the range caption exactly when a range is given. */
  datatype View = View(showsRange: bool, body: Body)

  function Show(expenses: seq<Expense>, range: Option<DateUtils.Range>, loading: bool, error: Option<string>,
                selectable: bool, selected: Option<seq<Id>>): (r: View)
    ensures r.showsRange <==> range.Some?
    ensures r.body.Loading? <==> loading
    ensures r.body.Failure? <==> !loading && TruthyText(error)
    ensures r.body.Failure? ==> r.body.message == error.value
    ensures r.body.Empty? <==> !loading && !TruthyText(error) && expenses == []
    ensures r.body.Listing? ==> r.body.total == Total(expenses) && |r.body.cards| == |expenses|
    ensures r.body.Listing? ==> forall i :: 0 <= i < |expenses| ==> r.body.cards[i].expense == expenses[i]
  {
    var body :=
      if loading then Loading
      else if TruthyText(error) then Failure(error.value)
      else if expenses == [] then Empty
      else Listing(Total(expenses), Cards(expenses, selectable, selected));
    View(range.Some?, body)
  }

  /** The delete button: `onDelete(id)` only when a handler is given and the
      confirmation is answered yes. */
  function DeleteClick(hasHandler: bool, id: Id, confirmed: bool): (r: Option<Id>)
    ensures r.Some? <==> hasHandler && confirmed
    ensures r.Some? ==> r.value == id
  {
    if hasHandler && confirmed then Some(id) else None
  }

  /** Every card of a listing is ticked exactly when the membership-based
      header flag says all are, which the count-based header of the bulk bar
      need not agree with. */
  lemma CardsTickedIffAllSelected(expenses: seq<Expense>, selected: seq<Id>)
    requires expenses != []
    ensures var cards := Cards(expenses, true, Some(selected));
      (forall i :: 0 <= i < |cards| ==> cards[i].checkbox == Some(true))
        <==> MembershipFlags(expenses, Some(selected)).all
  {
    var cards := Cards(expenses, true, Some(selected));
    assert forall i :: 0 <= i < |cards| ==> (cards[i].checkbox == Some(true) <==> expenses[i].id in selected);
  }

  /** Whenever as many ids are selected as there are cards but none of them
      is on the page, the bulk bar's header box is ticked while every card
      is unticked. */
  lemma HeaderTickedOverUntickedCards(visible: seq<Expense>, selected: seq<Id>)
    requires visible != [] && |selected| == |visible|
    requires forall i :: 0 <= i < |visible| ==> visible[i].id !in selected
    ensures var cards := Cards(visible, true, Some(selected));
      && SelectionFlags(visible, Some(selected)).all
      && forall i :: 0 <= i < |cards| ==> cards[i].checkbox == Some(false)
  {
  }
}

=== FILE: expense_summary.dfy ===
/** The by-primary-category summary card of `src/components/ExpenseSummary.jsx`:
    a spinner, an error, an empty message, or the category rows with their
    shares of the grand total, largest first. */
module ExpenseSummary {
  import opened Options
  import opened Seqs
  import opened Sorting
  import opened SummaryItems

  /** Every row carries a value, so `parseFloat(b.value) - parseFloat(a.value)`
      is never `NaN`. */
  predicate AllValued(items: seq<SummaryItem>) {
    forall i :: 0 <= i < |items| ==> items[i].value.Some?
  }

  function ValueKey(item: SummaryItem): Key {
    Num(ValueOr0(item))
  }

  /** `[...summary].sort((a, b) => parseFloat(b.value) - parseFloat(a.value))`.
      With a missing value the comparator answers `NaN` and the order is the
      engine's; that case keeps the input order. */
  function LargestFirst(items: seq<SummaryItem>): (r: seq<SummaryItem>)
    ensures multiset(r) == multiset(items) && |r| == |items|
    ensures AllValued(items) ==> AllValued(r)
    ensures AllValued(items) ==> forall i :: 0 < i < |r| ==> r[i - 1].value.value >= r[i].value.value
    ensures !AllValued(items) ==> r == items
  {
    if AllValued(items) then
      var r := SortBy(items, ValueKey, true);
      assert forall i :: 0 <= i < |r| ==> r[i].value.Some? by {
        forall i | 0 <= i < |r| ensures r[i].value.Some? {
          assert r[i] in multiset(items);
        }
      }
      r
    else items
  }

  /** What the card shows below its header. */
  datatype View =
    | Loading
    | Failure(message: string)
    | Empty
    | Listing(total: int, rows: seq<Row>)

  function RowName(item: SummaryItem): string { item.id }

  /** The card for a summary, a loading flag and an error message. */
  function Show(summary: Option<seq<SummaryItem>>, loading: bool, error: Option<string>): (r: View)
    ensures r.Loading? <==> loading
    ensures r.Failure? <==> !loading && TruthyText(error)
    ensures r.Failure? ==> r.message == error.value
    ensures r.Empty? <==> !loading && !TruthyText(error) && (summary.None? || summary.value == [])
    ensures r.Listing? ==> summary.Some? && |r.rows| == |summary.value| > 0
    ensures r.Listing? ==> r.total == Sum(summary.value, ValueOr0)
    ensures r.Listing? ==> forall i :: 0 <= i < |r.rows| ==> r.rows[i].percent == Percent(r.rows[i].amount, r.total)
    ensures r.Listing? && AllValued(summary.value) ==>
      forall i :: 0 < i < |r.rows| ==> r.rows[i - 1].amount >= r.rows[i].amount
  {
    if loading then Loading
    else if TruthyText(error) then Failure(error.value)
    else if summary.None? || summary.value == [] then Empty
    else
      var total := Sum(summary.value, ValueOr0);
      var sorted := LargestFirst(summary.value);
      Listing(total, Rows(sorted, RowName, ValueOr0, total))
  }

  /** The listed rows are the summary's rows, none dropped or repeated, and
      when the total is positive their shares add up to 100%. */
  lemma ListingIsWhole(summary: seq<SummaryItem>)
    requires summary != []
    ensures var v := Show(Some(summary), false, None);
      && v.Listing?
      && multiset(LargestFirst(summary)) == multiset(summary)
      && v.rows == Rows(LargestFirst(summary), RowName, ValueOr0, v.total)
      && (v.total > 0 ==> SumReal(v.rows, RowPercent) == 100.0)
  {
    var v := Show(Some(summary), false, None);
    if v.total > 0 {
      RowsMakeWhole(summary, LargestFirst(summary), RowName, ValueOr0);
    }
  }

  /** With non-negative values every listed share is a percentage. */
  lemma ListedSharesArePercentages(summary: seq<SummaryItem>, i: int)
    requires summary != []
    requires forall j :: 0 <= j < |summary| ==> ValueOr0(summary[j]) >= 0
    requires 0 <= i < |summary|
    ensures var v := Show(Some(summary), false, None);
      0.0 <= v.rows[i].percent <= 100.0
  {
    var sorted := LargestFirst(summary);
    var k := IndexOf(summary, sorted[i]) by {
      assert sorted[i] in multiset(summary);
    }
    ShareIsPercentage(summary, ValueOr0, k);
  }
}

=== FILE: export.dfy ===
/** The CSV export and the printable report of `src/utils/exportUtils.js`.

    The browser side (the `Blob`, the download link, `window.open`, the
    print timer) is left out; what is modelled is the text handed to it.
    `toLocaleDateString` is the parameter `date`, and amounts are integers. */
module Export {
  import opened Options
  import opened Text
  import opened Seqs
  import opened Records
  import opened Csv
  import ExpenseList
  import DateUtils

  // ---------------------------------------------------------------- CSV

  const Headers: seq<string> := ["Date", "Expense", "Amount", "Primary Category", "Secondary Category", "ID"]

  const HeaderLine: string := Join(Headers, ",")

  /** The six cells of one row: the locale date, the quoted description,
      `expense.amount || 0`, the two quoted categories and the id. */
  function CsvFields(e: Expense, date: int -> string): (r: seq<Field>)
    ensures |r| == 6
  {
    [Bare(date(e.created)), Quoted(e.description), Bare(IntText(AmountOr0(e))),
     Quoted(e.primary), Quoted(e.secondary), Bare(e.id)]
  }

  /** The texts a reader should get back from the row of `e`. */
  function RowTexts(e: Expense, date: int -> string): seq<string> {
    [date(e.created), e.description, IntText(AmountOr0(e)), e.primary, e.secondary, e.id]
  }

  function CsvRow(e: Expense, date: int -> string): string {
    Record(CsvFields(e, date))
  }

  /** `exportToCSV`: nothing (the "No expenses to export" alert) for a
      missing or empty list, else the header line and one row per expense,
      joined with newlines. */
  function CsvContent(expenses: Option<seq<Expense>>, date: int -> string): (r: Option<string>)
    ensures r.None? <==> expenses.None? || expenses.value == []
  {
    match expenses
    case None => None
    case Some(xs) =>
      if xs == [] then None
      else Some(Join(Lines(HeaderLine, xs, date), "\n"))
  }

  /** The header line, then one line per expense. */
  function Lines(header: string, xs: seq<Expense>, date: int -> string): (r: seq<string>)
    ensures |r| == |xs| + 1 && r[0] == header
    ensures forall i :: 0 <= i < |xs| ==> r[i + 1] == CsvRow(xs[i], date)
  {
    [header] + seq(|xs|, i requires 0 <= i < |xs| => CsvRow(xs[i], date))
  }

  /** What a row needs to read back: no line break in any text, and no comma
      or quote in the two cells written without quotes. */
  predicate Exportable(e: Expense, date: int -> string) {
    && '\n' !in e.description && '\n' !in e.primary && '\n' !in e.secondary
    && ',' !in date(e.created) && '"' !in date(e.created) && '\n' !in date(e.created)
    && ',' !in e.id && '"' !in e.id && '\n' !in e.id
  }

  /** The text of an integer is digits after an optional minus sign. */
  lemma IntTextPlain(i: int)
    ensures ',' !in IntText(i) && '"' !in IntText(i) && '\n' !in IntText(i)
  {
    var d := Decimal(if i < 0 then -i else i);
    forall c | c in d
      ensures IsDigit(c)
    {
      var k :| 0 <= k < |d| && d[k] == c;
    }
  }

  lemma QuotedPlain(t: string)
    requires '\n' !in t
    ensures '\n' !in Quote(t)
  {
    assert '\n' !in "\"\"";
  }

  /** One row is a single line that reads back as the six texts. */
  lemma RowRoundTrip(e: Expense, date: int -> string)
    requires Exportable(e, date)
    ensures '\n' !in CsvRow(e, date)
    ensures ParseRecord(CsvRow(e, date)) == Some(RowTexts(e, date))
  {
    var fields := CsvFields(e, date);
    RowFieldsOk(e, date);
    RecordAvoids(fields, '\n');
    RecordRoundTrip(fields);
    assert Texts(fields) == RowTexts(e, date);
  }

  /** Every cell of an exportable row may be written as it is, and none
      holds a line break. */
  lemma RowFieldsOk(e: Expense, date: int -> string)
    requires Exportable(e, date)
    ensures forall i :: 0 <= i < 6 ==> BareOk(CsvFields(e, date)[i]) && '\n' !in Render(CsvFields(e, date)[i])
  {
    IntTextPlain(AmountOr0(e));
    QuotedPlain(e.description);
    QuotedPlain(e.primary);
    QuotedPlain(e.secondary);
  }

  /** The header line reads back as the six headers. */
  lemma HeaderRoundTrip()
    ensures '\n' !in HeaderLine
    ensures ParseRecord(HeaderLine) == Some(Headers)
  {
    var fields := seq(|Headers|, i requires 0 <= i < |Headers| => Bare(Headers[i]));
    HeadersPlain();
    assert Record(fields) == HeaderLine by {
      assert seq(|fields|, i requires 0 <= i < |fields| => Render(fields[i])) == Headers;
    }
    RecordRoundTrip(fields);
    assert Texts(fields) == Headers;
    JoinAvoids(Headers, ",", '\n');
  }

  lemma HeadersPlain()
    ensures forall i :: 0 <= i < |Headers| ==> ',' !in Headers[i] && '"' !in Headers[i] && '\n' !in Headers[i]
  {
    forall i | 0 <= i < |Headers|
      ensures ',' !in Headers[i] && '"' !in Headers[i] && '\n' !in Headers[i]
    {
      var h := Headers[i];
      assert forall k :: 0 <= k < |h| ==> h[k] == ' ' || 'A' <= h[k] <= 'z';
    }
  }

  /** Reading the exported file line by line, and each line field by field,
      gives back the headers and then every expense's texts, in order. */
  lemma CsvRoundTrip(xs: seq<Expense>, date: int -> string)
    requires xs != []
    requires forall i :: 0 <= i < |xs| ==> Exportable(xs[i], date)
    ensures var lines := Split(CsvContent(Some(xs), date).value, '\n');
      && |lines| == |xs| + 1
      && ParseRecord(lines[0]) == Some(Headers)
      && forall i :: 0 <= i < |xs| ==> ParseRecord(lines[i + 1]) == Some(RowTexts(xs[i], date))
  {
    var all := Lines(HeaderLine, xs, date);
    HeaderRoundTrip();
    forall j | 0 <= j < |all|
      ensures '\n' !in all[j]
      ensures j > 0 ==> ParseRecord(all[j]) == Some(RowTexts(xs[j - 1], date))
    {
      if j > 0 {
        RowRoundTrip(xs[j - 1], date);
      }
    }
    SplitJoin(all, '\n');
  }

  // ---------------------------------------------------------------- print

  /** The date range line: `All Time` without a range, else its two ends. */
  datatype RangeLabel = AllTime | Dates(range: DateUtils.Range)

  /** One table row of the report, every cell as HTML text. */
  datatype PrintRow = PrintRow(date: string, description: string, amount: int, primary: string, secondary: string)

  /** The report: the range line, the expense count, the total and the rows. */
  datatype Report = Report(caption: RangeLabel, count: nat, total: int, rows: seq<PrintRow>)

  /** `text || '-'`. */
  function OrDash(s: string): (r: string)
    ensures r != ""
    ensures s != "" ==> r == s
  {
    if s == "" then "-" else s
  }

  /** The text a browser displays for HTML text holding the references
      `&amp;`, `&lt;` and `&gt;` (section 13.2.5.72 of the WHATWG HTML
      standard, restricted to those three). */
  function Unescape(s: string): string
    decreases |s|
  {
    if |s| >= 5 && s[..5] == "&amp;" then "&" + Unescape(s[5..])
    else if |s| >= 4 && s[..4] == "&lt;" then "<" + Unescape(s[4..])
    else if |s| >= 4 && s[..4] == "&gt;" then ">" + Unescape(s[4..])
    else if s == [] then []
    else [s[0]] + Unescape(s[1..])
  }

  function Entity(c: char): (r: string)
    ensures '<' !in r && '>' !in r
  {
    if c == '&' then "&amp;" else if c == '<' then "&lt;" else if c == '>' then "&gt;" else [c]
  }

  /** HTML text for `s`: every `&`, `<` and `>` as a character reference. */
  function EscapeHtml(s: string): (r: string)
    ensures '<' !in r && '>' !in r
  {
    if s == [] then [] else Entity(s[0]) + EscapeHtml(s[1..])
  }

  /** The escaped text displays as the original text. */
  lemma {:induction false} EscapeHtmlRoundTrip(s: string)
    ensures Unescape(EscapeHtml(s)) == s
    decreases |s|
  {
    if s != [] {
      EscapeHtmlRoundTrip(s[1..]);
      EntityUnescape(s[0], EscapeHtml(s[1..]));
      assert [s[0]] + s[1..] == s;
    }
  }

  /** A character's escape displays as the character, whatever follows. */
  lemma EntityUnescape(c: char, tail: string)
    ensures Unescape(Entity(c) + tail) == [c] + Unescape(tail)
  {
    var t := Entity(c) + tail;
    if c == '&' {
      assert t[..5] == "&amp;" && t[5..] == tail;
    } else if c == '<' {
      assert t[..4] == "&lt;" && t[4..] == tail;
      assert |t| >= 5 ==> t[..5] != "&amp;" by { assert t[1] == 'l'; }
    } else if c == '>' {
      assert t[..4] == "&gt;" && t[4..] == tail;
      assert |t| >= 5 ==> t[..5] != "&amp;" by { assert t[1] == 'g'; }
      assert t[..4] != "&lt;" by { assert t[1] == 'g'; }
    } else {
      assert t[0] == c && t[1..] == tail;
      assert |t| >= 4 ==> t[..4][0] == c;
      assert |t| >= 5 ==> t[..5][0] == c;
    }
  }

  /** `.replace(/</g, '&lt;').replace(/>/g, '&gt;')`: the only escaping
      the report applies, and only to the description. */
  function EscapeAngles(s: string): (r: string)
    ensures '<' !in r && '>' !in r
  {
    ReplaceAll(ReplaceAll(s, '<', "&lt;"), '>', "&gt;")
  }

  /** One row of the report: `safe` escapes every text cell, otherwise only
      the description's angle brackets are escaped, as written. */
  function RowOf(e: Expense, date: int -> string, safe: bool): (r: PrintRow)
    ensures r.date == date(e.created) && r.amount == AmountOr0(e)
  {
    if safe then
      PrintRow(date(e.created), EscapeHtml(e.description), AmountOr0(e), EscapeHtml(OrDash(e.primary)), EscapeHtml(OrDash(e.secondary)))
    else
      PrintRow(date(e.created), EscapeAngles(e.description), AmountOr0(e), OrDash(e.primary), OrDash(e.secondary))
  }

  function ReportOf(xs: seq<Expense>, range: Option<DateUtils.Range>, date: int -> string, safe: bool): (r: Report)
    ensures r.count == |xs| == |r.rows|
    ensures r.caption == if range.Some? then Dates(range.value) else AllTime
    ensures forall i :: 0 <= i < |xs| ==> r.rows[i] == RowOf(xs[i], date, safe)
  {
    Report(if range.Some? then Dates(range.value) else AllTime, |xs|, Sum(xs, AmountOr0),
           seq(|xs|, i requires 0 <= i < |xs| => RowOf(xs[i], date, safe)))
  }

  /** `formatForPrint` as written: the description has only its angle
      brackets escaped and the categories go into the page unescaped. */
  function FormatForPrintAsWritten(xs: seq<Expense>, range: Option<DateUtils.Range>, date: int -> string): (r: Report)
    ensures r.count == |xs| == |r.rows|
    ensures forall i :: 0 <= i < |xs| ==> r.rows[i].description == EscapeAngles(xs[i].description)
    ensures forall i :: 0 <= i < |xs| ==> r.rows[i].primary == OrDash(xs[i].primary)
    ensures forall i :: 0 <= i < |xs| ==> r.rows[i].secondary == OrDash(xs[i].secondary)
    ensures r.total == Sum(xs, AmountOr0)
    ensures forall i :: 0 <= i < |xs| ==> r.rows[i].date == date(xs[i].created) && r.rows[i].amount == AmountOr0(xs[i])
  {
    ReportOf(xs, range, date, false)
  }

  /** `formatForPrint` with every text cell escaped: the count, the total
      with a missing amount as 0, and one row per expense in order. */
  function FormatForPrint(xs: seq<Expense>, range: Option<DateUtils.Range>, date: int -> string): (r: Report)
    ensures r.count == |xs| == |r.rows|
    ensures r.total == Sum(xs, AmountOr0)
    ensures forall i :: 0 <= i < |xs| ==> r.rows[i].date == date(xs[i].created) && r.rows[i].amount == AmountOr0(xs[i])
    ensures forall i :: 0 <= i < |xs| ==>
      && '<' !in r.rows[i].description && '<' !in r.rows[i].primary && '<' !in r.rows[i].secondary
  {
    ReportOf(xs, range, date, true)
  }

  /** Every text cell of the report displays exactly the expense's text
      (a dash for an empty category), and no cell holds markup. */
  lemma PrintShowsTexts(xs: seq<Expense>, range: Option<DateUtils.Range>, date: int -> string)
    ensures var r := FormatForPrint(xs, range, date);
      forall i :: 0 <= i < |xs| ==>
        && Unescape(r.rows[i].description) == xs[i].description
        && Unescape(r.rows[i].primary) == OrDash(xs[i].primary)
        && Unescape(r.rows[i].secondary) == OrDash(xs[i].secondary)
  {
    var r := FormatForPrint(xs, range, date);
    forall i | 0 <= i < |xs|
      ensures Unescape(r.rows[i].description) == xs[i].description
      ensures Unescape(r.rows[i].primary) == OrDash(xs[i].primary)
      ensures Unescape(r.rows[i].secondary) == OrDash(xs[i].secondary)
    {
      assert r.rows[i] == RowOf(xs[i], date, true);
      EscapeHtmlRoundTrip(xs[i].description);
      EscapeHtmlRoundTrip(OrDash(xs[i].primary));
      EscapeHtmlRoundTrip(OrDash(xs[i].secondary));
    }
  }

  /** As written, a category such as `<b>` reaches the page as markup. */
  lemma AsWrittenInjectsMarkup(e: Expense, date: int -> string)
    requires e.primary == "<b>"
    ensures '<' in FormatForPrintAsWritten([e], None, date).rows[0].primary
  {
    assert "<b>"[0] == '<';
  }

  /** As written, a description `&lt;` is displayed as `<`. */
  lemma AsWrittenAltersAmpersandText(e: Expense, date: int -> string)
    requires e.description == "&lt;"
    ensures var cell := FormatForPrintAsWritten([e], None, date).rows[0].description;
      Unescape(cell) == "<" != e.description
  {
    var cell := FormatForPrintAsWritten([e], None, date).rows[0].description;
    assert cell == EscapeAngles(e.description);
    EntityUnescape('<', []);
    assert Entity('<') + [] == e.description;
    AnglesFreeKept(e.description);
  }

  /** Text without angle brackets passes the as-written escaping unchanged. */
  lemma AnglesFreeKept(s: string)
    requires '<' !in s && '>' !in s
    ensures EscapeAngles(s) == s
  {
    NoOccurrenceKeeps(s, '<', "&lt;");
    NoOccurrenceKeeps(s, '>', "&gt;");
  }

  /** Replacing a character that does not occur changes nothing. */
  lemma {:induction false} NoOccurrenceKeeps(s: string, c: char, rep: string)
    requires c !in s
    ensures ReplaceAll(s, c, rep) == s
    decreases |s|
  {
    if s != [] {
      assert s[0] in s;
      NoOccurrenceKeeps(s[1..], c, rep);
      assert [s[0]] + s[1..] == s;
    }
  }

  /** `printExpenses`: nothing (the "No expenses to print" alert) for a
      missing or empty list, else the page `formatForPrint` writes as it
      stands: descriptions with only their angle brackets replaced and the
      categories raw. */
  function PrintExpenses(expenses: Option<seq<Expense>>, range: Option<DateUtils.Range>, date: int -> string): (r: Option<Report>)
    ensures r.None? <==> expenses.None? || expenses.value == []
    ensures r.Some? ==> r.value.count == |expenses.value| == |r.value.rows| > 0 && r.value.total == Sum(expenses.value, AmountOr0)
    ensures r.Some? ==> forall i :: 0 <= i < |expenses.value| ==>
      && r.value.rows[i].description == EscapeAngles(expenses.value[i].description)
      && r.value.rows[i].primary == OrDash(expenses.value[i].primary)
      && r.value.rows[i].secondary == OrDash(expenses.value[i].secondary)
  {
    match expenses
    case None => None
    case Some(xs) => if xs == [] then None else Some(FormatForPrintAsWritten(xs, range, date))
  }

  /** `printExpenses` over the corrected formatter: every text cell
      displays as the expense's text. */
  function PrintExpensesEscaped(expenses: Option<seq<Expense>>, range: Option<DateUtils.Range>, date: int -> string): (r: Option<Report>)
    ensures r.None? <==> expenses.None? || expenses.value == []
    ensures r.Some? ==> r.value.count == |expenses.value| == |r.value.rows| > 0 && r.value.total == Sum(expenses.value, AmountOr0)
    ensures r.Some? ==> forall i :: 0 <= i < |expenses.value| ==>
      && Unescape(r.value.rows[i].description) == expenses.value[i].description
      && Unescape(r.value.rows[i].primary) == OrDash(expenses.value[i].primary)
      && Unescape(r.value.rows[i].secondary) == OrDash(expenses.value[i].secondary)
  {
    match expenses
    case None => None
    case Some(xs) =>
      if xs == [] then None
      else
        PrintShowsTexts(xs, range, date);
        Some(FormatForPrint(xs, range, date))
  }

  /** Text with no `&`, `<` or `>`. */
  predicate PlainText(s: string) {
    '&' !in s && '<' !in s && '>' !in s
  }

  /** Plain text is its own HTML escape. */
  lemma {:induction false} PlainEscapesToItself(s: string)
    requires PlainText(s)
    ensures EscapeHtml(s) == s
    decreases |s|
  {
    if s != [] {
      var t := s[1..];
      assert s == [s[0]] + t;
      assert PlainText(t);
      PlainEscapesToItself(t);
      assert Entity(s[0]) == [s[0]];
    }
  }

  /** The printed page as written and the corrected one are the same page
      whenever no text holds `&`, `<` or `>`: the bug shows only on such
      texts. */
  lemma PrintVersionsAgreeOnPlainText(expenses: Option<seq<Expense>>, range: Option<DateUtils.Range>, date: int -> string)
    requires expenses.Some? ==> forall i :: 0 <= i < |expenses.value| ==> PlainRecord(expenses.value[i])
    ensures PrintExpenses(expenses, range, date) == PrintExpensesEscaped(expenses, range, date)
  {
    if expenses.Some? && expenses.value != [] {
      var xs := expenses.value;
      var a := ReportOf(xs, range, date, false);
      var b := ReportOf(xs, range, date, true);
      forall i | 0 <= i < |xs|
        ensures a.rows[i] == b.rows[i]
      {
        PlainRowAgrees(xs[i], date);
      }
      assert a.rows == b.rows;
    }
  }

  /** No text of the expense holds `&`, `<` or `>`. */
  predicate PlainRecord(e: Expense) {
    PlainText(e.description) && PlainText(e.primary) && PlainText(e.secondary)
  }

  /** A row of plain texts is the same either way it is escaped. */
  lemma PlainRowAgrees(e: Expense, date: int -> string)
    requires PlainRecord(e)
    ensures RowOf(e, date, false) == RowOf(e, date, true)
  {
    AnglesFreeKept(e.description);
    PlainEscapesToItself(e.description);
    PlainEscapesToItself(OrDash(e.primary));
    PlainEscapesToItself(OrDash(e.secondary));
  }

  /** The report's total counts a missing amount as 0; when every amount is
      present it is the list's total. */
  lemma PrintTotalIsListTotal(xs: seq<Expense>, range: Option<DateUtils.Range>, date: int -> string)
    ensures (forall i :: 0 <= i < |xs| ==> xs[i].amount.Some?) ==>
      ExpenseList.Total(xs) == Some(FormatForPrintAsWritten(xs, range, date).total)
    ensures (exists i :: 0 <= i < |xs| && xs[i].amount.None?) ==> ExpenseList.Total(xs).None?
  {
  }
}

=== FILE: filter_and_sort.dfy ===
/** The list view pipeline of `src/utils/filterAndSort.js`: free-text search,
    the two-level category filter and the six sort orders. All three are
    total functions that return a new list and leave their input alone. */
module FilterAndSort {
  import opened Options
  import opened Text
  import opened Seqs
  import opened Sorting
  import opened Records

  // ---------------------------------------------------------------- search

  /** The query is absent, empty or white space only. */
  predicate BlankQuery(query: Option<string>) {
    query.None? || Trim(query.value) == ""
  }

  /** The query as compared: lower-cased, then trimmed. */
  function NormalisedQuery(query: string): string {
    Trim(Lower(query))
  }

  /** `needle` is contained in the lower-cased description, primary or
      secondary category of `e`. */
  predicate MatchesQuery(e: Expense, needle: string) {
    || Contains(Lower(e.description), needle)
    || Contains(Lower(e.primary), needle)
    || Contains(Lower(e.secondary), needle)
  }

  /** `filterExpensesBySearch(expenses, searchQuery)`. */
  function SearchFilter(xs: seq<Expense>, query: Option<string>): (r: seq<Expense>)
    ensures BlankQuery(query) ==> r == xs
    ensures !BlankQuery(query) ==>
      forall e :: e in r <==> e in xs && MatchesQuery(e, NormalisedQuery(query.value))
    ensures IsSubsequence(r, xs)
  {
    if BlankQuery(query) then
      SubsequenceOfSelf(xs);
      xs
    else
      var needle := NormalisedQuery(query.value);
      FilterIsSubsequence(xs, e => MatchesQuery(e, needle));
      Filter(xs, e => MatchesQuery(e, needle))
  }

  lemma {:induction false} SubsequenceOfSelf<T>(xs: seq<T>)
    ensures IsSubsequence(xs, xs)
    decreases |xs|
  {
    if xs != [] {
      SubsequenceOfSelf(xs[1..]);
    }
  }

  /** A kept record is one in which the normalised query occurs, as a
      substring, in the lower-cased description or one of the categories. */
  lemma SearchKeepsIffSubstring(xs: seq<Expense>, query: string, e: Expense)
    requires !BlankQuery(Some(query))
    requires e in xs
    ensures e in SearchFilter(xs, Some(query)) <==>
      || (exists i :: OccursAt(Lower(e.description), NormalisedQuery(query), i))
      || (exists i :: OccursAt(Lower(e.primary), NormalisedQuery(query), i))
      || (exists i :: OccursAt(Lower(e.secondary), NormalisedQuery(query), i))
  {
    var needle := NormalisedQuery(query);
    ContainsIffOccurs(Lower(e.description), needle);
    ContainsIffOccurs(Lower(e.primary), needle);
    ContainsIffOccurs(Lower(e.secondary), needle);
  }

  // ---------------------------------------------------------------- category

  /** Each non-empty filter level must equal the record's category exactly. */
  predicate MatchesCategories(e: Expense, primary: string, secondary: string) {
    && (primary == "" || e.primary == primary)
    && (secondary == "" || e.secondary == secondary)
  }

  /** `filterExpensesByCategory(expenses, primaryCategory, secondaryCategory)`;
      an empty filter text means "any". */
  function CategoryFilter(xs: seq<Expense>, primary: string, secondary: string): (r: seq<Expense>)
    ensures forall e :: e in r <==> e in xs && MatchesCategories(e, primary, secondary)
    ensures primary == "" && secondary == "" ==> r == xs
    ensures IsSubsequence(r, xs)
  {
    var keep := e => MatchesCategories(e, primary, secondary);
    FilterIsSubsequence(xs, keep);
    if primary == "" && secondary == "" then
      FilterAll(xs, keep);
      Filter(xs, keep)
    else
      Filter(xs, keep)
  }

  /** Searching and category filtering commute. */
  lemma SearchCategoryCommute(xs: seq<Expense>, query: Option<string>, primary: string, secondary: string)
    ensures SearchFilter(CategoryFilter(xs, primary, secondary), query)
         == CategoryFilter(SearchFilter(xs, query), primary, secondary)
  {
    if !BlankQuery(query) {
      var needle := NormalisedQuery(query.value);
      FilterCommutes(xs, e => MatchesCategories(e, primary, secondary), e => MatchesQuery(e, needle));
    }
  }

  // ---------------------------------------------------------------- sort

  datatype SortOption =
    | DateDesc | DateAsc | AmountDesc | AmountAsc | NameAsc | NameDesc
    | Unrecognised

  /** The option names the sort selector passes. */
  function ParseSortOption(name: string): SortOption {
    if name == "date-desc" then DateDesc
    else if name == "date-asc" then DateAsc
    else if name == "amount-desc" then AmountDesc
    else if name == "amount-asc" then AmountAsc
    else if name == "name-asc" then NameAsc
    else if name == "name-desc" then NameDesc
    else Unrecognised
  }

  /** The key each comparator reads: `created`, `amount || 0`, or the
      lower-cased description (missing read as `''`). */
  function SortKey(option: SortOption): Expense -> Key {
    match option
    case DateDesc | DateAsc => (e: Expense) => Num(e.created)
    case AmountDesc | AmountAsc => (e: Expense) => Num(AmountOr0(e))
    case _ => (e: Expense) => Word(Lower(e.description))
  }

  predicate Descending(option: SortOption) {
    option == DateDesc || option == AmountDesc || option == NameDesc
  }

  /** `sortExpenses(expenses, sortOption)`: a sorted copy; an unrecognised
      option returns the copy in its original order. */
  function SortExpenses(xs: seq<Expense>, option: SortOption): (r: seq<Expense>)
    ensures multiset(r) == multiset(xs) && |r| == |xs|
    ensures option == Unrecognised ==> r == xs
    ensures option == DateDesc ==> forall i :: 0 < i < |r| ==> r[i - 1].created >= r[i].created
    ensures option == DateAsc ==> forall i :: 0 < i < |r| ==> r[i - 1].created <= r[i].created
    ensures option == AmountDesc ==> forall i :: 0 < i < |r| ==> AmountOr0(r[i - 1]) >= AmountOr0(r[i])
    ensures option == AmountAsc ==> forall i :: 0 < i < |r| ==> AmountOr0(r[i - 1]) <= AmountOr0(r[i])
    ensures option == NameAsc ==>
      forall i :: 0 < i < |r| ==> LexLe(Lower(r[i - 1].description), Lower(r[i].description))
    ensures option == NameDesc ==>
      forall i :: 0 < i < |r| ==> LexLe(Lower(r[i].description), Lower(r[i - 1].description))
    ensures forall k :: WithKey(r, SortKey(option), k) == WithKey(xs, SortKey(option), k)
  {
    if option == Unrecognised then xs
    else
      var r := SortBy(xs, SortKey(option), Descending(option));
      SortedByOption(r, option);
      assert forall k :: WithKey(r, SortKey(option), k) == WithKey(xs, SortKey(option), k) by {
        forall k ensures WithKey(r, SortKey(option), k) == WithKey(xs, SortKey(option), k) {
          SortByStable(xs, SortKey(option), Descending(option), k);
        }
      }
      r
  }

  /** What being sorted by an option's key and direction means for the
      fields the comparator reads. */
  lemma SortedByOption(r: seq<Expense>, option: SortOption)
    requires Sorted(r, SortKey(option), Descending(option))
    ensures option == DateDesc ==> forall i :: 0 < i < |r| ==> r[i - 1].created >= r[i].created
    ensures option == DateAsc ==> forall i :: 0 < i < |r| ==> r[i - 1].created <= r[i].created
    ensures option == AmountDesc ==> forall i :: 0 < i < |r| ==> AmountOr0(r[i - 1]) >= AmountOr0(r[i])
    ensures option == AmountAsc ==> forall i :: 0 < i < |r| ==> AmountOr0(r[i - 1]) <= AmountOr0(r[i])
    ensures option == NameAsc ==>
      forall i :: 0 < i < |r| ==> LexLe(Lower(r[i - 1].description), Lower(r[i].description))
    ensures option == NameDesc ==>
      forall i :: 0 < i < |r| ==> LexLe(Lower(r[i].description), Lower(r[i - 1].description))
  {
    forall i | 0 < i < |r|
      ensures InOrder(SortKey(option)(r[i - 1]), SortKey(option)(r[i]), Descending(option))
    {
    }
  }
}

=== FILE: forgot_password.dfy ===
/** The password-reset screen of `src/components/ForgotPassword.jsx`: a
    request step that sends a code to an email address or phone number, and
    a verify step that sets the new password with that code. The calls
    `forgotPassword` and `resetPassword` are represented by their settled
    outcome only. */
module ForgotPassword {
  import opened Options
  import opened Text
  import opened Phone

  datatype StepName = Request | Verify
  datatype Channel = ByEmail | ByPhone

  datatype ResetState = ResetState(
    step: StepName, via: Channel, email: string, phone: string,
    otp: string, newPassword: string, confirm: string,
    timer: nat, error: string, success: string)

  const Initial: ResetState := ResetState(Request, ByEmail, "", "", "", "", "", 0, "", "")

  /** The identifier a call carries: the email for the email channel, the
      formatted number for the phone channel, the other one `undefined`. */
  datatype Identifier = Identifier(email: Option<string>, phoneNumber: Option<string>)

  datatype Call =
    | NoCall
    | ForgotCall(who: Identifier)                                      // `forgotPassword`
    | ResetCall(who: Identifier, otp: string, newPassword: string)     // `resetPassword`

  const EnterEmail: string := "Please enter your email address"
  const EnterPhone: string := "Please enter your phone number"
  const InvalidPhone: string := "Please enter a valid phone number (e.g., +1234567890)"
  const InvalidOtp: string := "Please enter a valid 6-digit OTP"
  const ShortPassword: string := "Password must be at least 6 characters long"
  const Mismatch: string := "Passwords do not match"
  const SentByEmail: string := "If an account exists with this email, an OTP has been sent."
  const SentByPhone: string := "If an account exists with this phone number, an OTP has been sent via WhatsApp."
  const ResetDone: string := "Password reset successfully! Redirecting to login..."
  const Resent: string := "OTP resent successfully"

  /** Seconds before a code may be resent. */
  const ResendDelay: nat := 600

  function IdentifierOf(st: ResetState): (r: Identifier)
    ensures r.email.Some? <==> st.via.ByEmail?
    ensures r.phoneNumber.Some? <==> st.via.ByPhone?
    ensures r.email.Some? ==> r.email.value == st.email
    ensures r.phoneNumber.Some? ==> r.phoneNumber.value == FormatPhoneNumber(st.phone)
  {
    if st.via.ByEmail? then Identifier(Some(st.email), None) else Identifier(None, Some(FormatPhoneNumber(st.phone)))
  }

  /** Why a request is refused, if it is: an empty field of the chosen
      channel, or a formatted number that fails the check. */
  function RequestCheck(st: ResetState): (r: Option<string>)
    ensures r.None? <==> (st.via.ByEmail? && st.email != "") || (st.via.ByPhone? && st.phone != "" && IsE164(FormatPhoneNumber(st.phone)))
    ensures r == Some(EnterEmail) <==> st.via.ByEmail? && st.email == ""
    ensures r == Some(EnterPhone) <==> st.via.ByPhone? && st.phone == ""
  {
    if st.via.ByEmail? && st.email == "" then Some(EnterEmail)
    else if st.via.ByPhone? && st.phone == "" then Some(EnterPhone)
    else if st.via.ByPhone? && !IsE164(FormatPhoneNumber(st.phone)) then Some(InvalidPhone)
    else None
  }

  /** `handleRequestOTP`: messages cleared; a refused request shows why and
      calls nothing; a successful one moves to the verify step with the
      resend timer running. */
  function RequestOtp(st: ResetState, sent: Outcome<()>): (r: (ResetState, Call))
    ensures RequestCheck(st).Some? ==> r == (st.(error := RequestCheck(st).value, success := ""), NoCall)
    ensures RequestCheck(st).None? ==> r.1 == ForgotCall(IdentifierOf(st))
    ensures RequestCheck(st).None? && sent.Succeeded? ==>
      r.0 == st.(step := Verify, timer := ResendDelay, error := "",
                 success := if st.via.ByEmail? then SentByEmail else SentByPhone)
    ensures RequestCheck(st).None? && sent.Failed? ==> r.0 == st.(error := sent.message, success := "")
  {
    match RequestCheck(st)
    case Some(m) => (st.(error := m, success := ""), NoCall)
    case None =>
      var call := ForgotCall(IdentifierOf(st));
      match sent
      case Succeeded(_) =>
        (st.(step := Verify, timer := ResendDelay, error := "",
             success := if st.via.ByEmail? then SentByEmail else SentByPhone), call)
      case Failed(m) => (st.(error := m, success := ""), call)
  }

  /** The checks of `handleResetPassword`, in order; the first that fails
      is the one reported. */
  function ResetCheck(otp: string, newPassword: string, confirm: string): (r: Option<string>)
    ensures r == Some(InvalidOtp) <==> |otp| != 6
    ensures r == Some(ShortPassword) <==> |otp| == 6 && |newPassword| < 6
    ensures r == Some(Mismatch) <==> |otp| == 6 && |newPassword| >= 6 && newPassword != confirm
    ensures r.None? <==> |otp| == 6 && |newPassword| >= 6 && newPassword == confirm
  {
    if |otp| != 6 then Some(InvalidOtp)
    else if |newPassword| < 6 then Some(ShortPassword)
    else if newPassword != confirm then Some(Mismatch)
    else None
  }

  /** `handleResetPassword`: the code, password and identifier are sent
      only when every check passes. */
  function ResetPassword(st: ResetState, done: Outcome<()>): (r: (ResetState, Call))
    ensures var check := ResetCheck(st.otp, st.newPassword, st.confirm);
      check.Some? ==> r == (st.(error := check.value, success := ""), NoCall)
    ensures ResetCheck(st.otp, st.newPassword, st.confirm).None? ==>
      r.1 == ResetCall(IdentifierOf(st), st.otp, st.newPassword)
    ensures ResetCheck(st.otp, st.newPassword, st.confirm).None? ==>
      r.0 == if done.Succeeded? then st.(error := "", success := ResetDone) else st.(error := done.message, success := "")
  {
    match ResetCheck(st.otp, st.newPassword, st.confirm)
    case Some(m) => (st.(error := m, success := ""), NoCall)
    case None =>
      var call := ResetCall(IdentifierOf(st), st.otp, st.newPassword);
      match done
      case Succeeded(_) => (st.(error := "", success := ResetDone), call)
      case Failed(m) => (st.(error := m, success := ""), call)
  }

  /** `handleResendOTP`: nothing while the timer runs; afterwards the code
      is requested again without the checks of the first request. */
  function ResendOtp(st: ResetState, sent: Outcome<()>): (r: (ResetState, Call))
    ensures st.timer > 0 ==> r == (st, NoCall)
    ensures st.timer == 0 ==> r.1 == ForgotCall(IdentifierOf(st))
    ensures st.timer == 0 && sent.Succeeded? ==> r.0 == st.(error := "", success := Resent, timer := ResendDelay)
    ensures st.timer == 0 && sent.Failed? ==> r.0 == st.(error := sent.message)
  {
    if st.timer > 0 then (st, NoCall)
    else
      var call := ForgotCall(IdentifierOf(st));
      match sent
      case Succeeded(_) => (st.(error := "", success := Resent, timer := ResendDelay), call)
      case Failed(m) => (st.(error := m), call)
  }

  /** `switchToEmail` / `switchToPhone`: both identifiers and both messages
      are cleared. */
  function SwitchTo(st: ResetState, c: Channel): (r: ResetState)
    ensures r.via == c && r.email == "" && r.phone == "" && r.error == "" && r.success == ""
    ensures r.step == st.step && r.otp == st.otp && r.timer == st.timer
  {
    st.(via := c, error := "", success := "", email := "", phone := "")
  }

  /** The Change button of the verify step: back to the request step with
      the code, both passwords and the timer cleared. */
  function ChangeIdentifier(st: ResetState): (r: ResetState)
    ensures r.step == Request && r.otp == "" && r.newPassword == "" && r.confirm == "" && r.timer == 0
    ensures r.via == st.via && r.email == st.email && r.phone == st.phone
  {
    st.(step := Request, otp := "", newPassword := "", confirm := "", timer := 0)
  }

  datatype Event =
    | SwitchTo(to: Channel)
    | EditEmail(email: string)
    | EditPhone(phone: string)
    | RequestOtp(sent: Outcome<()>)
    | ChangeIdentifier
    | OtpInput(text: string)
    | EditNewPassword(password: string)
    | EditConfirm(password: string)
    | ResetPassword(done: Outcome<()>)
    | ResendOtp(sent: Outcome<()>)
    | Tick

  /** The controls each step renders: the channel tabs and the request form
      on the request step; the change button, the code and password fields,
      the reset button and the resend link on the verify step. A form is
      submitted only when the browser finds its `required` fields filled. */
  predicate Offered(st: ResetState, ev: Event) {
    match ev
    case SwitchTo(_) => st.step == Request
    case EditEmail(_) => st.step == Request && st.via.ByEmail?
    case EditPhone(_) => st.step == Request && st.via.ByPhone?
    case RequestOtp(_) => st.step == Request && (if st.via.ByEmail? then st.email != "" else st.phone != "")
    case ResetPassword(_) => st.step == Verify && st.otp != "" && st.newPassword != "" && st.confirm != ""
    case Tick => true
    case _ => st.step == Verify
  }

  function Step(st: ResetState, ev: Event): (r: (ResetState, Call))
    ensures r.1.ResetCall? ==> ev.ResetPassword?
    ensures r.1.ForgotCall? ==> ev.RequestOtp? || ev.ResendOtp?
  {
    match ev
    case SwitchTo(c) => (SwitchTo(st, c), NoCall)
    case EditEmail(s) => (st.(email := s), NoCall)
    case EditPhone(s) => (st.(phone := s), NoCall)
    case RequestOtp(sent) => RequestOtp(st, sent)
    case ChangeIdentifier => (ChangeIdentifier(st), NoCall)
    case OtpInput(text) => (st.(otp := SanitizeOtp(text)), NoCall)
    case EditNewPassword(s) => (st.(newPassword := s), NoCall)
    case EditConfirm(s) => (st.(confirm := s), NoCall)
    case ResetPassword(done) => ResetPassword(st, done)
    case ResendOtp(sent) => ResendOtp(st, sent)
    case Tick => (if st.timer > 0 then st.(timer := st.timer - 1) else st, NoCall)
  }

  // ---------------------------------------------------------------- properties

  /** What the screen keeps through every offered event: the code is at most
      six digits, the timer at most the delay, and on the verify step the
      identifier is one a request accepted. */
  predicate Valid(st: ResetState) {
    && AllDigits(st.otp) && |st.otp| <= 6
    && st.timer <= ResendDelay
    && (st.step == Verify ==> RequestCheck(st).None?)
  }

  lemma InitialValid()
    ensures Valid(Initial)
  {
  }

  lemma StepKeepsValid(st: ResetState, ev: Event)
    requires Valid(st) && Offered(st, ev)
    ensures Valid(Step(st, ev).0)
  {
  }

  /** The verify step is reached only by a successful request. */
  lemma VerifyNeedsRequest(st: ResetState, ev: Event)
    requires st.step == Request && Step(st, ev).0.step == Verify
    ensures ev.RequestOtp? && ev.sent.Succeeded? && RequestCheck(st).None?
    ensures Step(st, ev).0.timer == ResendDelay
  {
  }

  /** Although a resend checks nothing, on a reachable verify step it
      requests a code for an identifier the first request accepted: a
      non-empty email or a valid number. */
  lemma ResendIdentifierValid(st: ResetState, sent: Outcome<()>)
    requires Valid(st) && st.step == Verify && st.timer == 0
    ensures var who := ResendOtp(st, sent).1.who;
      (who.email.Some? && who.email.value != "") || (who.phoneNumber.Some? && IsE164(who.phoneNumber.value))
  {
  }

  /** A reset is attempted exactly when all three checks pass, and a
      failing check calls nothing whatever the outcome would have been. */
  lemma ResetCallIffChecksPass(st: ResetState, done: Outcome<()>)
    ensures ResetPassword(st, done).1 != NoCall <==> |st.otp| == 6 && |st.newPassword| >= 6 && st.newPassword == st.confirm
  {
  }

  /** The `required` fields keep the empty-field messages of the request
      check from ever showing through the form. */
  lemma RequiredHidesEmptyMessages(st: ResetState, sent: Outcome<()>)
    requires Offered(st, Event.RequestOtp(sent))
    ensures RequestCheck(st) != Some(EnterEmail) && RequestCheck(st) != Some(EnterPhone)
  {
  }

  // ---------------------------------------------------------------- as written

  /** The screen after a run of events. */
  function Run(st: ResetState, evs: seq<Event>): ResetState
    decreases |evs|
  {
    if evs == [] then st else Run(Step(st, evs[0]).0, evs[1..])
  }

  /** Every call in the event fails. `forgotPassword` and `resetPassword`
      are imported from `src/services/api.js`, which exports neither. In an
      ES-module build the import does not link, so the screen never renders
      at all. Under a bundler whose CommonJS interop binds a missing export
      to `undefined`, the screen renders but each call throws a `TypeError`
      before any request is made: this predicate describes that case. */
  predicate CallsFail(ev: Event) {
    match ev
    case RequestOtp(sent) => sent.Failed?
    case ResetPassword(done) => done.Failed?
    case ResendOtp(sent) => sent.Failed?
    case _ => true
  }

  /** As written, the screen never leaves the request step and never shows
      a success message, whatever the user does. */
  lemma {:induction false} AsWrittenNeverVerifies(st: ResetState, evs: seq<Event>)
    requires st.step == Request && st.success == ""
    requires forall i :: 0 <= i < |evs| ==> CallsFail(evs[i])
    ensures Run(st, evs).step == Request && Run(st, evs).success == ""
    decreases |evs|
  {
    if evs != [] {
      var next := Step(st, evs[0]).0;
      assert CallsFail(evs[0]);
      assert next.step == Request && next.success == "";
      AsWrittenNeverVerifies(next, evs[1..]);
    }
  }

  /** With the two calls present, a request that passes its checks and
      succeeds opens the verify step with the timer running. */
  lemma RequestReachesVerify(st: ResetState, sent: Outcome<()>)
    requires st.step == Request && RequestCheck(st).None? && sent.Succeeded?
    ensures Step(st, Event.RequestOtp(sent)).0.step == Verify
    ensures Step(st, Event.RequestOtp(sent)).0.timer == ResendDelay
    ensures Step(st, Event.RequestOtp(sent)).1 == ForgotCall(IdentifierOf(st))
  {
  }
}

=== FILE: login.dfy ===
/** The sign-in screen of `src/components/Login.jsx`: an email and password
    form, and a phone form that sends a one-time code and then verifies it.
    Each handler is one transition given the settled outcome of the call it
    awaits; the transition also says which call, if any, was made. */
module LoginForm {
  import opened Options
  import opened Text
  import opened Phone
  import AuthContext

  datatype Method = ByEmail | ByOtp

  /** The form's state; `timer` is the seconds until a resend is allowed. */
  datatype LoginState = LoginState(
    via: Method, email: string, password: string, phone: string,
    otp: string, otpSent: bool, timer: nat, error: string)

  const Initial: LoginState := LoginState(ByEmail, "", "", "", "", false, 0, "")

  /** The call a handler makes. */
  datatype Call =
    | NoCall
    | SignInCall(email: string, password: string)   // `login(email, password)`
    | SendOtpCall(phone: string)                      // `sendOTP(phone)`
    | VerifyCall(phone: string, otp: string)          // `loginWithOTP(phone, otp)`

  const EnterPhone: string := "Please enter your phone number"
  const InvalidPhone: string := "Please enter a valid phone number (e.g., +1234567890)"
  const InvalidOtp: string := "Please enter a valid 6-digit OTP"

  /** Seconds before a code may be resent. */
  const ResendDelay: nat := 300

  datatype Event =
    | SwitchTo(to: Method)
    | EditEmail(email: string)
    | EditPassword(password: string)
    | EditPhone(phone: string)
    | ChangeNumber
    | OtpInput(text: string)
    | EmailLogin(result: AuthContext.LoginResult)
    | SendOtp(sent: Outcome<()>)
    | OtpLogin(result: AuthContext.LoginResult)
    | ResendOtp(sent: Outcome<()>)
    | Tick

  /** `switchToEmail` / `switchToOTP`: the method changes and the code step
      is forgotten; what was typed is kept. */
  function SwitchTo(st: LoginState, m: Method): (r: LoginState)
    ensures r.via == m && r.error == "" && !r.otpSent && r.otp == "" && r.timer == 0
    ensures r.email == st.email && r.password == st.password && r.phone == st.phone
  {
    st.(via := m, error := "", otpSent := false, otp := "", timer := 0)
  }

  /** The Change Number button: back to the phone form. */
  function ChangeNumber(st: LoginState): (r: LoginState)
    ensures !r.otpSent && r.otp == "" && r.timer == 0
    ensures r.via == st.via && r.phone == st.phone && r.error == st.error
  {
    st.(otpSent := false, otp := "", timer := 0)
  }

  /** `handleEmailLogin`: always signs in with the typed credentials and
      shows the failure, if any. */
  function EmailLogin(st: LoginState, result: AuthContext.LoginResult): (r: (LoginState, Call))
    ensures r.1 == SignInCall(st.email, st.password)
    ensures result.Success? ==> r.0 == st.(error := "")
    ensures result.Failure? ==> r.0 == st.(error := result.error)
  {
    var error := if result.Failure? then result.error else "";
    (st.(error := error), SignInCall(st.email, st.password))
  }

  /** `handleSendOTP`: an empty or malformed number is refused before any
      call; a valid one is sent formatted, and a successful send opens the
      code step with the resend timer running. */
  function SendOtp(st: LoginState, sent: Outcome<()>): (r: (LoginState, Call))
    ensures st.phone == "" ==> r == (st.(error := EnterPhone), NoCall)
    ensures st.phone != "" && !IsE164(FormatPhoneNumber(st.phone)) ==> r == (st.(error := InvalidPhone), NoCall)
    ensures r.1 != NoCall <==> st.phone != "" && IsE164(FormatPhoneNumber(st.phone))
    ensures r.1 != NoCall ==> r.1 == SendOtpCall(FormatPhoneNumber(st.phone))
    ensures r.1 != NoCall && sent.Succeeded? ==> r.0 == st.(otpSent := true, timer := ResendDelay, error := "")
    ensures r.1 != NoCall && sent.Failed? ==> r.0 == st.(error := sent.message)
  {
    if st.phone == "" then (st.(error := EnterPhone), NoCall)
    else
      var formatted := FormatPhoneNumber(st.phone);
      if !IsE164(formatted) then (st.(error := InvalidPhone), NoCall)
      else
        match sent
        case Succeeded(_) => (st.(otpSent := true, timer := ResendDelay, error := ""), SendOtpCall(formatted))
        case Failed(m) => (st.(error := m), SendOtpCall(formatted))
  }

  /** `handleOTPLogin`: only a code of exactly six characters is verified,
      against the formatted number. */
  function OtpLogin(st: LoginState, result: AuthContext.LoginResult): (r: (LoginState, Call))
    ensures r.1 != NoCall <==> |st.otp| == 6
    ensures |st.otp| != 6 ==> r.0 == st.(error := InvalidOtp)
    ensures |st.otp| == 6 ==> r.1 == VerifyCall(FormatPhoneNumber(st.phone), st.otp)
    ensures |st.otp| == 6 ==> r.0 == st.(error := if result.Failure? then result.error else "")
  {
    if |st.otp| != 6 then (st.(error := InvalidOtp), NoCall)
    else
      var error := if result.Failure? then result.error else "";
      (st.(error := error), VerifyCall(FormatPhoneNumber(st.phone), st.otp))
  }

  /** `handleResendOTP`: nothing while the timer runs; afterwards the
      formatted number is sent again, without the checks of the first send. */
  function ResendOtp(st: LoginState, sent: Outcome<()>): (r: (LoginState, Call))
    ensures st.timer > 0 ==> r == (st, NoCall)
    ensures st.timer == 0 ==> r.1 == SendOtpCall(FormatPhoneNumber(st.phone))
    ensures st.timer == 0 && sent.Succeeded? ==> r.0 == st.(timer := ResendDelay, error := "")
    ensures st.timer == 0 && sent.Failed? ==> r.0 == st.(error := sent.message)
  {
    if st.timer > 0 then (st, NoCall)
    else
      var call := SendOtpCall(FormatPhoneNumber(st.phone));
      match sent
      case Succeeded(_) => (st.(timer := ResendDelay, error := ""), call)
      case Failed(m) => (st.(error := m), call)
  }

  /** One second of the resend countdown. */
  function Tick(st: LoginState): (r: LoginState)
    ensures r.timer == if st.timer > 0 then st.timer - 1 else 0
    ensures r.(timer := st.timer) == st
  {
    if st.timer > 0 then st.(timer := st.timer - 1) else st
  }

  /** The screen's reaction to one event. */
  function Step(st: LoginState, ev: Event): (r: (LoginState, Call))
    ensures !ev.SendOtp? && !ev.ResendOtp? ==> !r.1.SendOtpCall?
    ensures !ev.EmailLogin? ==> !r.1.SignInCall?
    ensures !ev.OtpLogin? ==> !r.1.VerifyCall?
  {
    match ev
    case SwitchTo(m) => (SwitchTo(st, m), NoCall)
    case EditEmail(s) => (st.(email := s), NoCall)
    case EditPassword(s) => (st.(password := s), NoCall)
    case EditPhone(s) => (st.(phone := s), NoCall)
    case ChangeNumber => (ChangeNumber(st), NoCall)
    case OtpInput(text) => (st.(otp := SanitizeOtp(text)), NoCall)
    case EmailLogin(result) => EmailLogin(st, result)
    case SendOtp(sent) => SendOtp(st, sent)
    case OtpLogin(result) => OtpLogin(st, result)
    case ResendOtp(sent) => ResendOtp(st, sent)
    case Tick => (Tick(st), NoCall)
  }

  /** The code step's footer: the countdown while the timer runs, else the
      resend button (`None`). */
  function ResendFooter(st: LoginState): (r: Option<(nat, string)>)
    ensures r.Some? <==> st.timer > 0
    ensures r.Some? ==> AllDigits(r.value.1) && |r.value.1| == 2
    ensures r.Some? ==> r.value.0 * 60 + DigitsValue(r.value.1) == st.timer && DigitsValue(r.value.1) < 60
  {
    if st.timer > 0 then Some(Countdown(st.timer)) else None
  }

  // ---------------------------------------------------------------- properties

  /** What every reachable state keeps: the code is at most six digits and
      the timer at most the resend delay. */
  predicate Valid(st: LoginState) {
    AllDigits(st.otp) && |st.otp| <= 6 && st.timer <= ResendDelay
  }

  lemma InitialValid()
    ensures Valid(Initial)
  {
  }

  lemma StepKeepsValid(st: LoginState, ev: Event)
    requires Valid(st)
    ensures Valid(Step(st, ev).0)
  {
  }

  /** Every code sent passes the number check, read by the automaton. */
  lemma SentNumbersAccepted(st: LoginState, sent: Outcome<()>)
    requires SendOtp(st, sent).1 != NoCall
    ensures AcceptsE164(SendOtp(st, sent).1.phone)
  {
    AcceptsIffE164(FormatPhoneNumber(st.phone));
  }

  /** The code step opens only through a successful send of a valid number. */
  lemma CodeStepNeedsSend(st: LoginState, ev: Event)
    requires !st.otpSent && Step(st, ev).0.otpSent
    ensures ev.SendOtp? && ev.sent.Succeeded?
    ensures Step(st, ev).1 == SendOtpCall(FormatPhoneNumber(st.phone)) && IsE164(FormatPhoneNumber(st.phone))
  {
  }

  /** Typing a code and submitting it verifies exactly when the typed text
      held at least six digits, and then verifies the first six. */
  lemma TypedCodeVerified(st: LoginState, text: string, result: AuthContext.LoginResult)
    ensures var typed := Step(st, OtpInput(text)).0;
      (OtpLogin(typed, result).1 != NoCall <==> |KeepDigits(text)| >= 6)
      && (|KeepDigits(text)| >= 6 ==> OtpLogin(typed, result).1.otp == KeepDigits(text)[..6])
  {
    var typed := Step(st, OtpInput(text)).0;
    assert typed.otp == SanitizeOtp(text);
    SanitizedFull(text);
  }

  /** `n` seconds of countdown. */
  function Ticks(st: LoginState, n: nat): LoginState
    decreases n
  {
    if n == 0 then st else Ticks(Tick(st), n - 1)
  }

  /** The countdown only moves the timer, by one a second, down to zero. */
  lemma {:induction false} TicksCountDown(st: LoginState, n: nat)
    ensures Ticks(st, n).timer == if st.timer > n then st.timer - n else 0
    ensures Ticks(st, n).(timer := st.timer) == st
    decreases n
  {
    if n > 0 {
      TicksCountDown(Tick(st), n - 1);
    }
  }

  /** After a successful send the resend is refused for the whole delay and
      allowed as soon as it has passed. */
  lemma ResendAfterDelay(st: LoginState, sent: Outcome<()>, again: Outcome<()>, n: nat)
    requires SendOtp(st, sent).1 != NoCall && sent.Succeeded?
    ensures var waited := Ticks(SendOtp(st, sent).0, n);
      (ResendOtp(waited, again).1 != NoCall <==> n >= ResendDelay)
  {
    TicksCountDown(SendOtp(st, sent).0, n);
  }
}

=== FILE: options.dfy ===
/** Optional values and the outcome of an asynchronous collaborator call.

    JavaScript's `undefined`/`null` become `None`; an awaited call that either
    resolves or rejects with an `Error` becomes an `Outcome`, whose failure
    carries the error's `message`. */
module Options {

  datatype Option<+T> = None | Some(value: T) {

    /** The value, or `default` when absent (the `x ?? d` of the source). */
    function GetOr(default: T): T {
      match this
      case Some(v) => v
      case None => default
    }
  }

  /** The settled result of one awaited call. */
  datatype Outcome<+T> = Succeeded(result: T) | Failed(message: string)

  /** JavaScript truthiness of an optional number: absent and `0` are falsy. */
  predicate TruthyNumber(n: Option<int>) {
    n.Some? && n.value != 0
  }

  /** `n || 0` for an optional number. */
  function NumberOr0(n: Option<int>): (r: int)
    ensures TruthyNumber(n) ==> r == n.value
    ensures !TruthyNumber(n) ==> r == 0
  {
    if n.Some? then n.value else 0
  }

  /** JavaScript truthiness of an optional text: absent and `''` are falsy. */
  predicate TruthyText(s: Option<string>) {
    s.Some? && s.value != ""
  }
}

=== FILE: pagination.dfy ===
/** The pager of `src/components/Pagination.jsx`: the window of page numbers
    with ellipses, the "Showing X-Y of N" range and the disabled states of the
    first / previous / next / last buttons. */
module Pagination {
  import opened Options

  datatype PageEntry = Page(n: int) | Ellipsis

  /** Up to this many pages are listed without ellipses. */
  const MaxVisible: int := 5

  /** The pages `from..to` in order (empty when `to < from`). */
  function PageRange(from: int, to: int): (r: seq<PageEntry>)
    ensures |r| == if to < from then 0 else to - from + 1
    ensures forall i :: 0 <= i < |r| ==> r[i] == Page(from + i)
  {
    if to < from then [] else seq(to - from + 1, i => Page(from + i))
  }

  /** `getPageNumbers()` for the given current page and page count. */
  function PageNumbers(current: int, total: int): seq<PageEntry> {
    if total <= MaxVisible then PageRange(1, total)
    else if current <= 3 then PageRange(1, 5) + [Ellipsis, Page(total)]
    else if current >= total - 2 then [Page(1), Ellipsis] + PageRange(total - 4, total)
    else [Page(1), Ellipsis] + PageRange(current - 1, current + 1) + [Ellipsis, Page(total)]
  }

  /** Page numbers listed left to right are strictly increasing. */
  predicate Increasing(r: seq<PageEntry>) {
    forall i, j :: 0 <= i < j < |r| && r[i].Page? && r[j].Page? ==> r[i].n < r[j].n
  }

  /** Ellipses stand only between two page numbers. */
  predicate EllipsesInside(r: seq<PageEntry>) {
    && (|r| > 0 ==> r[0].Page? && r[|r| - 1].Page?)
    && forall i :: 0 < i < |r| && r[i].Ellipsis? ==> r[i - 1].Page?
  }

  /** What every page window keeps: page numbers strictly increasing
      between `1` and `total`, both ends listed, the current page listed
      whenever it is a real page, and no ellipsis at an end or next to
      another. */
  predicate WellShaped(r: seq<PageEntry>, current: int, total: int) {
    && Increasing(r)
    && EllipsesInside(r)
    && (forall i :: 0 <= i < |r| && r[i].Page? ==> 1 <= r[i].n <= total)
    && (total >= 1 ==> Page(1) in r && Page(total) in r)
    && (1 <= current <= total ==> Page(current) in r)
  }

  /** The shape promises of the page window: at most five pages are listed
      as `1..total`; beyond that exactly seven entries; and in every case
      the window is well shaped. */
  lemma PageNumbersShape(current: int, total: int)
    ensures var r := PageNumbers(current, total);
      && (total <= MaxVisible ==> r == PageRange(1, total))
      && (total > MaxVisible ==> |r| == 7)
      && WellShaped(r, current, total)
  {
    if total <= MaxVisible {
      AllPagesShape(current, total);
    } else if current <= 3 {
      StartWindowShape(current, total);
    } else if current >= total - 2 {
      EndWindowShape(current, total);
    } else {
      MiddleWindowShape(current, total);
    }
  }

  lemma AllPagesShape(current: int, total: int)
    requires total <= MaxVisible
    ensures WellShaped(PageRange(1, total), current, total)
  {
    var r := PageRange(1, total);
    if total >= 1 {
      assert r[0] == Page(1) && r[total - 1] == Page(total);
    }
    if 1 <= current <= total {
      assert r[current - 1] == Page(current);
    }
  }

  lemma StartWindowShape(current: int, total: int)
    requires total > MaxVisible && current <= 3
    ensures var r := PageNumbers(current, total);
      |r| == 7 && WellShaped(r, current, total)
  {
    var r := PageNumbers(current, total);
    assert r == [Page(1), Page(2), Page(3), Page(4), Page(5), Ellipsis, Page(total)];
    assert Increasing(r);
    assert EllipsesInside(r);
    assert r[0] == Page(1) && r[6] == Page(total);
    if 1 <= current {
      assert r[current - 1] == Page(current);
    }
  }

  lemma EndWindowShape(current: int, total: int)
    requires total > MaxVisible && 3 < current && current >= total - 2
    ensures var r := PageNumbers(current, total);
      |r| == 7 && WellShaped(r, current, total)
  {
    var r := PageNumbers(current, total);
    assert r == [Page(1), Ellipsis, Page(total - 4), Page(total - 3), Page(total - 2), Page(total - 1), Page(total)];
    assert Increasing(r);
    assert EllipsesInside(r);
    assert r[0] == Page(1) && r[6] == Page(total);
    if current <= total {
      assert r[current - total + 6] == Page(current);
    }
  }

  lemma MiddleWindowShape(current: int, total: int)
    requires total > MaxVisible && 3 < current < total - 2
    ensures var r := PageNumbers(current, total);
      |r| == 7 && WellShaped(r, current, total)
  {
    var r := PageNumbers(current, total);
    assert r == [Page(1), Ellipsis, Page(current - 1), Page(current), Page(current + 1), Ellipsis, Page(total)];
    assert Increasing(r);
    assert EllipsesInside(r);
    assert r[0] == Page(1) && r[6] == Page(total);
    assert r[3] == Page(current);
  }

  /** First item shown: `(currentPage - 1) * itemsPerPage + 1`. */
  function StartItem(current: int, perPage: int): int {
    (current - 1) * perPage + 1
  }

  /** Last item shown: `Math.min(currentPage * itemsPerPage, totalItems)`. */
  function EndItem(current: int, perPage: int, totalItems: int): (r: int)
    ensures r <= totalItems
    ensures r <= current * perPage
    ensures r == current * perPage || r == totalItems
  {
    if current * perPage <= totalItems then current * perPage else totalItems
  }

  /** A page that starts within the list shows between one and
      `itemsPerPage` items. */
  lemma ShowingRangeBounds(current: int, perPage: int, totalItems: int)
    requires current >= 1 && perPage >= 1
    requires StartItem(current, perPage) <= totalItems
    ensures 1 <= StartItem(current, perPage) <= EndItem(current, perPage, totalItems)
    ensures EndItem(current, perPage, totalItems) - StartItem(current, perPage) + 1 <= perPage
  {
    assert (current - 1) * perPage + perPage == current * perPage;
    assert (current - 1) * perPage >= 0;
  }

  /** The page that shows item `k` (1-based). */
  function PageOfItem(k: int, perPage: int): int
    requires k >= 1 && perPage >= 1
  {
    (k - 1) / perPage + 1
  }

  /** The pages' ranges tile the list: every item `1..totalItems` is shown on
      exactly one page, the page `PageOfItem`. */
  lemma PagesTileItems(k: int, perPage: int, totalItems: int, page: int)
    requires perPage >= 1 && 1 <= k <= totalItems && page >= 1
    ensures StartItem(page, perPage) <= k <= EndItem(page, perPage, totalItems)
        <==> page == PageOfItem(k, perPage)
  {
    var q := (k - 1) / perPage;
    assert k - 1 == q * perPage + (k - 1) % perPage;
    if page <= q {
      MulLe(page, q, perPage);
    } else if page >= q + 2 {
      MulLe(q + 1, page - 1, perPage);
      assert (q + 1) * perPage == q * perPage + perPage;
    } else {
      assert page * perPage == q * perPage + perPage;
    }
  }

  lemma MulLe(a: int, b: int, p: int)
    requires a <= b && p >= 0
    ensures a * p <= b * p
  {
    assert b * p - a * p == (b - a) * p;
  }

  /** The rendered pager; `None` when there is at most one page. */
  datatype Pager = Pager(
    pages: seq<PageEntry>,
    startItem: int,
    endItem: int,
    totalItems: int,
    firstDisabled: bool,
    previousDisabled: bool,
    nextDisabled: bool,
    lastDisabled: bool)

  /** The whole component. */
  function Render(current: int, total: int, totalItems: int, perPage: int): (r: Option<Pager>)
    ensures r.None? <==> total <= 1
    ensures r.Some? ==> r.value.pages == PageNumbers(current, total)
    ensures r.Some? ==> r.value.firstDisabled == r.value.previousDisabled == (current == 1)
    ensures r.Some? ==> r.value.nextDisabled == r.value.lastDisabled == (current == total)
    ensures r.Some? ==> r.value.startItem == StartItem(current, perPage)
    ensures r.Some? ==> r.value.endItem == EndItem(current, perPage, totalItems) && r.value.totalItems == totalItems
  {
    if total <= 1 then None
    else
      Some(Pager(
        PageNumbers(current, total),
        StartItem(current, perPage),
        EndItem(current, perPage, totalItems),
        totalItems,
        current == 1, current == 1,
        current == total, current == total))
  }

  /** The page a navigation button asks for. */
  datatype Button = First | Previous | Next | Last

  function Target(b: Button, current: int, total: int): int {
    match b
    case First => 1
    case Previous => current - 1
    case Next => current + 1
    case Last => total
  }

  predicate Disabled(p: Pager, b: Button) {
    match b
    case First => p.firstDisabled
    case Previous => p.previousDisabled
    case Next => p.nextDisabled
    case Last => p.lastDisabled
  }

  /** From a real page, an enabled button always asks for a real page, and
      it is a different one. */
  lemma EnabledButtonsStayInRange(current: int, total: int, totalItems: int, perPage: int, b: Button)
    requires 1 <= current <= total
    requires Render(current, total, totalItems, perPage).Some?
    requires !Disabled(Render(current, total, totalItems, perPage).value, b)
    ensures 1 <= Target(b, current, total) <= total
    ensures Target(b, current, total) != current
  {
  }
}

=== FILE: phone.dfy ===
/** The phone-number and one-time-code handling shared by
    `src/components/Login.jsx` and `src/components/ForgotPassword.jsx`:
    `formatPhoneNumber`, the check against `/^\+[1-9]\d{1,14}$/` (a number
    of at most 15 digits, as clause 6 of ITU-T Recommendation E.164 allows),
    the code input's sanitiser and the resend countdown. */
module Phone {
  import opened Text

  predicate StartsWithPlus(s: string) {
    s != [] && s[0] == '+'
  }

  /** `formatPhoneNumber(value)`: a value with digits and no leading `+`
      becomes `+91` and its ten digits, or `+` and its digits for any other
      count; anything else is returned as it is. */
  function FormatPhoneNumber(value: string): (r: string)
    ensures StartsWithPlus(value) || KeepDigits(value) == [] ==> r == value
    ensures !StartsWithPlus(value) && |KeepDigits(value)| == 10 ==> r == "+91" + KeepDigits(value)
    ensures !StartsWithPlus(value) && KeepDigits(value) != [] && |KeepDigits(value)| != 10 ==> r == "+" + KeepDigits(value)
  {
    var digits := KeepDigits(value);
    if |digits| > 0 && !StartsWithPlus(value) then
      if |digits| == 10 then "+91" + digits else "+" + digits
    else value
  }

  /** `/^\+[1-9]\d{1,14}$/.test(s)`. */
  predicate IsE164(s: string) {
    3 <= |s| <= 16 && s[0] == '+' && '1' <= s[1] <= '9' && AllDigits(s[1..])
  }

  // ---------------------------------------------------------------- the pattern as an automaton

  /** Where a left-to-right reading of the pattern stands: before the `+`,
      before the leading digit, after `count` further digits, or failed. */
  datatype Stage = ExpectPlus | ExpectLead | InDigits(count: nat) | Dead

  function StepE164(st: Stage, c: char): Stage {
    match st
    case ExpectPlus => if c == '+' then ExpectLead else Dead
    case ExpectLead => if '1' <= c <= '9' then InDigits(0) else Dead
    case InDigits(n) => if IsDigit(c) && n < 14 then InDigits(n + 1) else Dead
    case Dead => Dead
  }

  function RunE164(st: Stage, s: string): Stage
    decreases |s|
  {
    if s == [] then st else RunE164(StepE164(st, s[0]), s[1..])
  }

  /** The automaton accepts after the leading digit and one to fourteen more. */
  predicate AcceptsE164(s: string) {
    var end := RunE164(ExpectPlus, s);
    end.InDigits? && end.count >= 1
  }

  lemma {:induction false} RunDead(s: string)
    ensures RunE164(Dead, s) == Dead
    decreases |s|
  {
    if s != [] {
      RunDead(s[1..]);
    }
  }

  /** Reading digits counts them, up to fourteen. */
  lemma {:induction false} RunDigits(n: nat, s: string)
    requires n <= 14
    ensures RunE164(InDigits(n), s) == if AllDigits(s) && n + |s| <= 14 then InDigits(n + |s|) else Dead
    decreases |s|
  {
    if s != [] {
      if IsDigit(s[0]) && n < 14 {
        RunDigits(n + 1, s[1..]);
        assert AllDigits(s) <==> AllDigits(s[1..]);
      } else {
        RunDead(s[1..]);
      }
    }
  }

  /** The automaton and the predicate agree on every text. */
  lemma AcceptsIffE164(s: string)
    ensures AcceptsE164(s) <==> IsE164(s)
  {
    if s == [] {
    } else if s[0] != '+' {
      RunDead(s[1..]);
    } else if |s| == 1 {
      assert RunE164(ExpectPlus, s) == RunE164(ExpectLead, s[1..]) == ExpectLead;
    } else {
      var t := s[1..];
      assert RunE164(ExpectPlus, s) == RunE164(ExpectLead, t);
      if '1' <= t[0] <= '9' {
        RunDigits(0, t[1..]);
        assert AllDigits(t) <==> AllDigits(t[1..]);
      } else {
        RunDead(t[1..]);
      }
    }
  }

  // ---------------------------------------------------------------- formatting

  /** Formatting twice is formatting once. */
  lemma FormatIdempotent(value: string)
    ensures FormatPhoneNumber(FormatPhoneNumber(value)) == FormatPhoneNumber(value)
  {
  }

  /** A value without a leading `+` passes the check after formatting
      exactly when its digits are ten, or two to fifteen not starting with 0. */
  lemma FormattedAccepted(value: string)
    requires !StartsWithPlus(value)
    ensures var d := KeepDigits(value);
      IsE164(FormatPhoneNumber(value)) <==> |d| == 10 || (2 <= |d| <= 15 && d[0] != '0')
  {
    var d := KeepDigits(value);
    var r := FormatPhoneNumber(value);
    if |d| == 10 {
      assert r[1..] == "91" + d;
      assert AllDigits("91");
    } else if d != [] {
      assert r[1..] == d;
    }
  }

  // ---------------------------------------------------------------- one-time code

  /** The code input: its digits, at most the first six. */
  function SanitizeOtp(text: string): (r: string)
    ensures AllDigits(r)
    ensures |r| == if |KeepDigits(text)| < 6 then |KeepDigits(text)| else 6
    ensures r == KeepDigits(text)[..|r|]
  {
    var d := KeepDigits(text);
    if |d| <= 6 then d else d[..6]
  }

  /** Sanitising a sanitised code changes nothing. */
  lemma SanitizeIdempotent(text: string)
    ensures SanitizeOtp(SanitizeOtp(text)) == SanitizeOtp(text)
  {
  }

  /** A sanitised code has six characters exactly when the text had at least
      six digits. */
  lemma SanitizedFull(text: string)
    ensures |SanitizeOtp(text)| == 6 <==> |KeepDigits(text)| >= 6
  {
  }

  // ---------------------------------------------------------------- countdown

  /** `Math.floor(t / 60)` and `(t % 60).toString().padStart(2, '0')`: the
      minutes and the two-digit seconds, which together denote `t`. */
  function Countdown(t: nat): (r: (nat, string))
    ensures |r.1| == 2 && AllDigits(r.1)
    ensures DigitsValue(r.1) < 60
    ensures r.0 * 60 + DigitsValue(r.1) == t
  {
    (t / 60, Pad2(t % 60))
  }
}

=== FILE: pie_chart.dfy ===
/** The slices of `src/components/PieChart.jsx`: each row's value, label and
    share, and the angular sector it occupies, starting at the top of the
    circle (-90 degrees) and running clockwise.

    The SVG coordinates (sines and cosines), the golden-angle colours and the
    `toFixed(1)` rounding of the shown percentage are floating-point rendering
    and are not modelled; the sector bounds are exact rationals. */
module PieChart {
  import opened Options
  import opened Seqs
  import opened SummaryItems

  /** `parseFloat(item.value || item.total || 0)`. */
  function PieValue(item: SummaryItem): (r: int)
    ensures TruthyNumber(item.value) ==> r == item.value.value
    ensures !TruthyNumber(item.value) && TruthyNumber(item.total) ==> r == item.total.value
    ensures !TruthyNumber(item.value) && !TruthyNumber(item.total) ==> r == 0
  {
    if TruthyNumber(item.value) then item.value.value
    else if TruthyNumber(item.total) then item.total.value
    else 0
  }

  /** `item.id || item.secondarycategory || 'Uncategorized'`. */
  function PieLabel(item: SummaryItem): (r: string)
    ensures r != ""
    ensures item.id != "" ==> r == item.id
    ensures item.id == "" && item.secondary != "" ==> r == item.secondary
  {
    if item.id != "" then item.id
    else if item.secondary != "" then item.secondary
    else "Uncategorized"
  }

  /** One sector: label, value, the sum of the values drawn before it,
      share of the total in percent, the SVG large-arc flag and the expense
      count. Its angles follow from the running sum. */
  datatype Slice = Slice(
    name: string,
    value: int,
    before: int,
    percent: real,
    largeArc: bool,
    count: int)

  /** `(value / total) * 360`. */
  function Angle(value: int, total: int): real
    requires total != 0
  {
    (value as real) * 360.0 / (total as real)
  }

  /** `(value / total) * 100`. */
  function Share(value: int, total: int): real
    requires total != 0
  {
    (value as real) / (total as real) * 100.0
  }

  /** `currentAngle` when the sector is drawn: -90 plus the angles before it. */
  function StartAngle(s: Slice, total: int): real
    requires total != 0
  {
    -90.0 + Angle(s.before, total)
  }

  function EndAngle(s: Slice, total: int): real
    requires total != 0
  {
    -90.0 + Angle(s.before + s.value, total)
  }

  /** A sector spans the angle of its own value. */
  lemma SectorSpan(s: Slice, total: int)
    requires total != 0
    ensures EndAngle(s, total) - StartAngle(s, total) == Angle(s.value, total)
  {
  }

  /** The sectors of `items`, the first drawn after `before` worth of value,
      each following the previous one. */
  function Slices(items: seq<SummaryItem>, total: int, before: int): (r: seq<Slice>)
    requires total != 0
    ensures |r| == |items|
    ensures forall i :: 0 <= i < |r| ==>
      && r[i].name == PieLabel(items[i])
      && r[i].value == PieValue(items[i])
      && r[i].count == CountOr0(items[i])
      && r[i].percent == Share(r[i].value, total)
      && (r[i].largeArc <==> Angle(r[i].value, total) > 180.0)
    ensures |r| > 0 ==> r[0].before == before
    ensures forall i :: 0 < i < |r| ==> r[i].before == r[i - 1].before + r[i - 1].value
    ensures |r| > 0 ==> r[|r| - 1].before + r[|r| - 1].value == before + Sum(items, PieValue)
    decreases |items|
  {
    if items == [] then []
    else
      var item := items[0];
      var value := PieValue(item);
      var rest := Slices(items[1..], total, before + value);
      var r := [Slice(PieLabel(item), value, before, Share(value, total), Angle(value, total) > 180.0, CountOr0(item))] + rest;
      assert |rest| > 0 ==> r[|r| - 1] == rest[|rest| - 1];
      r
  }

  /** The chart: `None` is the "No data available" placeholder, shown for a
      missing or empty list and for a zero total. */
  function Chart(data: Option<seq<SummaryItem>>): (r: Option<seq<Slice>>)
    ensures r.None? <==> data.None? || data.value == [] || Sum(data.value, PieValue) == 0
    ensures r.Some? ==> |r.value| == |data.value|
  {
    if data.None? || data.value == [] then None
    else
      var total := Sum(data.value, PieValue);
      if total == 0 then None
      else Some(Slices(data.value, total, 0))
  }

  /** A drawn chart closes the circle: the first sector starts with nothing
      before it (at -90 degrees), each starts where the previous one ends,
      and the last one ends with the whole total behind it, a full turn
      later (at 270 degrees). */
  lemma ChartClosesCircle(data: seq<SummaryItem>)
    requires Chart(Some(data)).Some?
    ensures var s := Chart(Some(data)).value;
      && s[0].before == 0
      && (forall i :: 0 < i < |s| ==> s[i].before == s[i - 1].before + s[i - 1].value)
      && s[|s| - 1].before + s[|s| - 1].value == Sum(data, PieValue)
  {
  }

  /** Start and end angles of the sectors of a chart drawn over `total`. */
  lemma FullTurn(total: int)
    requires total != 0
    ensures Angle(0, total) == 0.0
    ensures Angle(total, total) == 360.0
  {
    var t := total as real;
    assert t * 360.0 / t == 360.0;
  }

  /** With non-negative values each sector's value is part of the total, so
      no sector runs backwards or is wider than the whole circle; a sector is
      drawn with the large-arc flag exactly when it is more than half. */
  lemma SectorsWithinCircle(data: seq<SummaryItem>, i: int)
    requires Chart(Some(data)).Some?
    requires forall j :: 0 <= j < |data| ==> PieValue(data[j]) >= 0
    requires 0 <= i < |data|
    ensures var s := Chart(Some(data)).value;
      var total := Sum(data, PieValue);
      && 0 <= s[i].value <= total
      && 0.0 <= Angle(s[i].value, total) <= 360.0
      && 0.0 <= s[i].percent <= 100.0
      && (s[i].largeArc <==> s[i].percent > 50.0)
  {
    var total := Sum(data, PieValue);
    TermAtMostSum(data, PieValue, i);
    PartOfWhole(PieValue(data[i]), total);
  }

  lemma PartOfWhole(value: int, total: int)
    requires 0 <= value <= total && total != 0
    ensures 0.0 <= Angle(value, total) <= 360.0
    ensures 0.0 <= Share(value, total) <= 100.0
    ensures Angle(value, total) > 180.0 <==> Share(value, total) > 50.0
  {
    var v := value as real;
    var t := total as real;
    var q := v / t;
    assert 0.0 <= q <= 1.0 by {
      assert q * t == v;
    }
    assert Angle(value, total) == q * 360.0;
    assert Share(value, total) == q * 100.0;
  }
}

=== FILE: records.dfy ===
/** The expense record as the list endpoint returns it.

    JavaScript reads missing text fields through `field || ''`, so a missing
    text field and an empty one are the same value here: `""`. The amount may
    be missing and is optional; `created` is a time value in milliseconds. */
module Records {
  import opened Options

  /** An expense's `id`. */
  type Id = string

  /** One expense: `id`, `expense` (the description), `amount`, `created`,
      `primarycategory` and `secondarycategory`. */
  datatype Expense = Expense(
    id: Id,
    description: string,
    amount: Option<int>,
    created: int,
    primary: string,
    secondary: string)

  /** `expense.amount || 0`. */
  function AmountOr0(e: Expense): int {
    NumberOr0(e.amount)
  }
}

=== FILE: secondary_summary.dfy ===
/** The by-secondary-category pop-up of `src/components/SecondarySummary.jsx`:
    its load cycle, the rows it lists largest first, and the pie chart data it
    derives from them.

    The fetch itself is `fetchSecondarySummary` (see `Api`); here its settled
    outcome is an event. */
module SecondarySummary {
  import opened Options
  import opened Seqs
  import opened Sorting
  import opened SummaryItems
  import PieChart

  /** The component's state: `loading`, `error` and `secondarySummary`. */
  datatype Panel = Panel(loading: bool, error: Option<string>, rows: seq<SummaryItem>)

  const Initial: Panel := Panel(true, None, [])

  datatype Event =
    | Reload                                   // the effect on `primaryCategory` / `dateRange`
    | Settled(outcome: Outcome<seq<SummaryItem>>)

  function Handle(p: Panel, ev: Event): (r: Panel)
    ensures ev.Reload? ==> r.loading && r.error.None? && r.rows == p.rows
    ensures ev.Settled? ==> !r.loading
    ensures ev.Settled? && ev.outcome.Succeeded? ==> r.rows == ev.outcome.result && r.error == p.error
    ensures ev.Settled? && ev.outcome.Failed? ==> r.rows == [] && r.error == Some(ev.outcome.message)
  {
    match ev
    case Reload => p.(loading := true, error := None)
    case Settled(Succeeded(data)) => p.(loading := false, rows := data)
    case Settled(Failed(message)) => Panel(false, Some(message), [])
  }

  /** `item.secondarycategory || 'Uncategorized'`. */
  function SecondaryName(item: SummaryItem): (r: string)
    ensures r != ""
    ensures item.secondary != "" ==> r == item.secondary
  {
    if item.secondary != "" then item.secondary else "Uncategorized"
  }

  function TotalKey(item: SummaryItem): Key {
    Num(TotalOr0(item))
  }

  /** `[...secondarySummary].sort((a, b) => parseFloat(b.total || 0) - parseFloat(a.total || 0))`. */
  function LargestFirst(items: seq<SummaryItem>): (r: seq<SummaryItem>)
    ensures multiset(r) == multiset(items) && |r| == |items|
    ensures forall i :: 0 < i < |r| ==> TotalOr0(r[i - 1]) >= TotalOr0(r[i])
  {
    SortBy(items, TotalKey, true)
  }

  /** The object handed to the pie chart for one row. */
  function PieItem(item: SummaryItem): (r: SummaryItem)
    ensures PieChart.PieLabel(r) == SecondaryName(item)
    ensures PieChart.PieValue(r) == TotalOr0(item)
    ensures CountOr0(r) == CountOr0(item)
  {
    SummaryItem("", None, item.total, SecondaryName(item), Some(CountOr0(item)))
  }

  function PieData(items: seq<SummaryItem>): (r: seq<SummaryItem>)
    ensures |r| == |items|
    ensures forall i :: 0 <= i < |items| ==> r[i] == PieItem(items[i])
  {
    seq(|items|, i requires 0 <= i < |items| => PieItem(items[i]))
  }

  /** What shows below the total when neither loading nor failed: the pie
      (only for a non-empty list) and the rows ("No secondary categories
      found." when there are none). */
  datatype Content = Content(total: int, pie: Option<seq<SummaryItem>>, rows: seq<Row>)

  datatype View = View(spinner: bool, error: Option<string>, content: Option<Content>)

  /** The content for a list of stored rows: the sum of their totals, the
      pie for a non-empty list, and one row per stored row, largest first,
      with its name, amount, count and share of the sum. */
  function Listing(items: seq<SummaryItem>): (c: Content)
    ensures c.total == Sum(items, TotalOr0)
    ensures |c.rows| == |items|
    ensures c.pie.Some? <==> items != []
    ensures forall i :: 0 < i < |c.rows| ==> c.rows[i - 1].amount >= c.rows[i].amount
    ensures forall i :: 0 <= i < |c.rows| ==>
      var item := LargestFirst(items)[i];
      && c.rows[i].name == SecondaryName(item)
      && c.rows[i].amount == TotalOr0(item)
      && c.rows[i].count == CountOr0(item)
      && c.rows[i].percent == Percent(c.rows[i].amount, c.total)
  {
    var total := Sum(items, TotalOr0);
    var sorted := LargestFirst(items);
    var pie := if sorted == [] then None else Some(PieData(sorted));
    Content(total, pie, Rows(sorted, SecondaryName, TotalOr0, total))
  }

  function Show(p: Panel): (r: View)
    ensures r.spinner == p.loading
    ensures r.error.Some? <==> TruthyText(p.error)
    ensures r.error.Some? ==> r.error == p.error
    ensures r.content.Some? <==> !p.loading && !TruthyText(p.error)
    ensures r.content.Some? ==> r.content.value == Listing(p.rows)
    ensures r.content.Some? ==> r.content.value.total == Sum(p.rows, TotalOr0)
    ensures r.content.Some? ==> |r.content.value.rows| == |p.rows|
    ensures r.content.Some? ==> (r.content.value.pie.Some? <==> p.rows != [])
    ensures r.content.Some? ==> forall i :: 0 < i < |r.content.value.rows| ==>
      r.content.value.rows[i - 1].amount >= r.content.value.rows[i].amount
    ensures r.content.Some? ==> forall i :: 0 <= i < |r.content.value.rows| ==>
      var row := r.content.value.rows[i];
      var item := LargestFirst(p.rows)[i];
      && row.name == SecondaryName(item)
      && row.amount == TotalOr0(item)
      && row.count == CountOr0(item)
      && row.percent == Percent(row.amount, r.content.value.total)
  {
    var error := if TruthyText(p.error) then p.error else None;
    if p.loading || TruthyText(p.error) then View(p.loading, error, None)
    else View(false, None, Some(Listing(p.rows)))
  }

  /** The pie and the list agree: sector for sector, the pie shows the
      listed rows' names, amounts and counts in the listed order, and it
      draws its sectors exactly when the listed total is not zero. */
  lemma PieMatchesList(p: Panel)
    requires Show(p).content.Some? && Show(p).content.value.pie.Some?
    ensures var c := Show(p).content.value;
      var chart := PieChart.Chart(c.pie);
      && (chart.Some? <==> c.total != 0)
      && (chart.Some? ==> |chart.value| == |c.rows|)
      && (chart.Some? ==> forall i :: 0 <= i < |c.rows| ==>
            && chart.value[i].name == c.rows[i].name
            && chart.value[i].value == c.rows[i].amount
            && chart.value[i].count == c.rows[i].count)
  {
    var c := Show(p).content.value;
    var sorted := LargestFirst(p.rows);
    PieSum(sorted);
    SumPermutation(sorted, p.rows, TotalOr0);
  }

  /** The listed rows are the stored rows, none dropped or repeated, and
      when the total is positive their shares add up to 100%. */
  lemma ListingIsWhole(p: Panel)
    requires !p.loading && !TruthyText(p.error)
    ensures var c := Show(p).content;
      && c.Some?
      && multiset(LargestFirst(p.rows)) == multiset(p.rows)
      && c.value.rows == Rows(LargestFirst(p.rows), SecondaryName, TotalOr0, c.value.total)
      && (c.value.total > 0 ==> SumReal(c.value.rows, RowPercent) == 100.0)
  {
    var c := Show(p).content.value;
    if c.total > 0 {
      RowsMakeWhole(p.rows, LargestFirst(p.rows), SecondaryName, TotalOr0);
    }
  }

  /** With non-negative totals every listed share is a percentage. */
  lemma ListedSharesArePercentages(p: Panel, i: int)
    requires !p.loading && !TruthyText(p.error)
    requires forall j :: 0 <= j < |p.rows| ==> TotalOr0(p.rows[j]) >= 0
    requires 0 <= i < |p.rows|
    ensures 0.0 <= Show(p).content.value.rows[i].percent <= 100.0
  {
    var sorted := LargestFirst(p.rows);
    var k := IndexOf(p.rows, sorted[i]) by {
      assert sorted[i] in multiset(p.rows);
    }
    ShareIsPercentage(p.rows, TotalOr0, k);
  }

  lemma {:induction false} PieSum(items: seq<SummaryItem>)
    ensures Sum(PieData(items), PieChart.PieValue) == Sum(items, TotalOr0)
    decreases |items|
  {
    if items != [] {
      PieSum(items[1..]);
      assert PieData(items)[1..] == PieData(items[1..]);
    }
  }

  /** A load that fails with a message shows that message and nothing else;
      one that succeeds lists exactly the rows received. */
  lemma LoadCycle(p: Panel, data: seq<SummaryItem>, message: string)
    requires message != ""
    ensures var failed := Show(Handle(Handle(p, Reload), Settled(Failed(message))));
      failed == View(false, Some(message), None)
    ensures var shown := Show(Handle(Handle(p, Reload), Settled(Succeeded(data))));
      && shown.content.Some?
      && shown.content.value.total == Sum(data, TotalOr0)
      && multiset(LargestFirst(data)) == multiset(data)
  {
  }
}

=== FILE: seqs.dfy ===
/** Order-preserving filtering and summation over sequences: the
    `Array.prototype.filter` and `reduce((sum, x) => sum + f(x), 0)` the
    components use. */
module Seqs {

  /** `xs.filter(p)`. */
  function Filter<T>(xs: seq<T>, p: T -> bool): (r: seq<T>)
    ensures |r| <= |xs|
    ensures forall i :: 0 <= i < |r| ==> p(r[i])
    ensures forall i :: 0 <= i < |xs| && p(xs[i]) ==> xs[i] in r
    ensures forall x :: x in r ==> x in xs
  {
    if xs == [] then []
    else (if p(xs[0]) then [xs[0]] else []) + Filter(xs[1..], p)
  }

  /** `a` is `b` with some elements removed, the rest kept in order. */
  predicate IsSubsequence<T(==)>(a: seq<T>, b: seq<T>)
    decreases |b|
  {
    if a == [] then true
    else if b == [] then false
    else (a[0] == b[0] && IsSubsequence(a[1..], b[1..])) || IsSubsequence(a, b[1..])
  }

  /** A filter keeps an order-preserving subsequence of its input. */
  lemma {:induction false} FilterIsSubsequence<T>(xs: seq<T>, p: T -> bool)
    ensures IsSubsequence(Filter(xs, p), xs)
    decreases |xs|
  {
    if xs != [] {
      FilterIsSubsequence(xs[1..], p);
      var r := Filter(xs, p);
      if p(xs[0]) {
        assert r[0] == xs[0] && r[1..] == Filter(xs[1..], p);
      } else {
        assert r == Filter(xs[1..], p);
        assert r == [] || IsSubsequence(r, xs[1..]);
      }
    }
  }

  /** A filter whose predicate holds everywhere returns its input. */
  lemma {:induction false} FilterAll<T>(xs: seq<T>, p: T -> bool)
    requires forall i :: 0 <= i < |xs| ==> p(xs[i])
    ensures Filter(xs, p) == xs
    decreases |xs|
  {
    if xs != [] {
      FilterAll(xs[1..], p);
      assert [xs[0]] + xs[1..] == xs;
    }
  }

  /** Filtering twice keeps what both predicates keep, whatever the order. */
  lemma {:induction false} FilterConjunction<T>(xs: seq<T>, p: T -> bool, q: T -> bool)
    ensures Filter(Filter(xs, p), q) == Filter(xs, x => p(x) && q(x))
    decreases |xs|
  {
    if xs != [] {
      FilterConjunction(xs[1..], p, q);
      var fp := Filter(xs, p);
      if p(xs[0]) {
        assert fp == [xs[0]] + Filter(xs[1..], p);
        assert fp[1..] == Filter(xs[1..], p);
      } else {
        assert fp == Filter(xs[1..], p);
      }
    }
  }

  /** Two filters commute. */
  lemma FilterCommutes<T>(xs: seq<T>, p: T -> bool, q: T -> bool)
    ensures Filter(Filter(xs, p), q) == Filter(Filter(xs, q), p)
  {
    FilterConjunction(xs, p, q);
    FilterConjunction(xs, q, p);
    FilterSamePredicate(xs, x => p(x) && q(x), x => q(x) && p(x));
  }

  lemma {:induction false} FilterSamePredicate<T>(xs: seq<T>, p: T -> bool, q: T -> bool)
    requires forall x :: p(x) == q(x)
    ensures Filter(xs, p) == Filter(xs, q)
    decreases |xs|
  {
    if xs != [] {
      FilterSamePredicate(xs[1..], p, q);
    }
  }

  /** `xs.reduce((sum, x) => sum + f(x), 0)`. */
  function Sum<T>(xs: seq<T>, f: T -> int): int {
    if xs == [] then 0 else f(xs[0]) + Sum(xs[1..], f)
  }

  /** The same sum over reals. */
  function SumReal<T>(xs: seq<T>, f: T -> real): real {
    if xs == [] then 0.0 else f(xs[0]) + SumReal(xs[1..], f)
  }

  /** A sum of non-negative terms bounds each of its terms. */
  lemma {:induction false} TermAtMostSum<T>(xs: seq<T>, f: T -> int, i: int)
    requires forall j :: 0 <= j < |xs| ==> f(xs[j]) >= 0
    requires 0 <= i < |xs|
    ensures 0 <= f(xs[i]) <= Sum(xs, f)
    decreases |xs|
  {
    SumNonNegative(xs[1..], f);
    if i > 0 {
      TermAtMostSum(xs[1..], f, i - 1);
    }
  }

  lemma {:induction false} SumNonNegative<T>(xs: seq<T>, f: T -> int)
    requires forall j :: 0 <= j < |xs| ==> f(xs[j]) >= 0
    ensures Sum(xs, f) >= 0
    decreases |xs|
  {
    if xs != [] {
      SumNonNegative(xs[1..], f);
    }
  }

  /** A sum does not depend on the order of its terms. */
  lemma {:induction false} SumPermutation<T>(xs: seq<T>, ys: seq<T>, f: T -> int)
    requires multiset(xs) == multiset(ys)
    ensures Sum(xs, f) == Sum(ys, f)
    decreases |xs|
  {
    if xs == [] {
      assert |ys| == |multiset(ys)| == 0;
    } else {
      var x := xs[0];
      assert x in multiset(xs);
      var k := IndexOf(ys, x);
      var rest := ys[..k] + ys[k + 1..];
      RemoveAt(ys, k);
      assert multiset(xs[1..]) == multiset(xs) - multiset{x} by {
        assert xs == [x] + xs[1..];
      }
      SumPermutation(xs[1..], rest, f);
      SumRemoveAt(ys, k, f);
    }
  }

  lemma RemoveAt<T>(ys: seq<T>, k: nat)
    requires k < |ys|
    ensures multiset(ys[..k] + ys[k + 1..]) == multiset(ys) - multiset{ys[k]}
  {
    assert ys == ys[..k] + [ys[k]] + ys[k + 1..];
  }

  lemma SumRemoveAt<T>(ys: seq<T>, k: nat, f: T -> int)
    requires k < |ys|
    ensures Sum(ys, f) == f(ys[k]) + Sum(ys[..k] + ys[k + 1..], f)
  {
    SumSplit(ys[..k], [ys[k]] + ys[k + 1..], f);
    SumSplit(ys[..k], ys[k + 1..], f);
    assert ys[..k] + ([ys[k]] + ys[k + 1..]) == ys;
    assert ([ys[k]] + ys[k + 1..])[1..] == ys[k + 1..];
  }

  /** Sums distribute over concatenation. */
  lemma {:induction false} SumSplit<T>(xs: seq<T>, ys: seq<T>, f: T -> int)
    ensures Sum(xs + ys, f) == Sum(xs, f) + Sum(ys, f)
    decreases |xs|
  {
    if xs == [] {
      assert xs + ys == ys;
    } else {
      SumSplit(xs[1..], ys, f);
      assert (xs + ys)[0] == xs[0];
      assert (xs + ys)[1..] == xs[1..] + ys;
    }
  }

  function IndexOf<T(==)>(xs: seq<T>, x: T): (k: nat)
    requires x in xs
    ensures k < |xs| && xs[k] == x
  {
    if xs[0] == x then 0 else 1 + IndexOf(xs[1..], x)
  }
}

=== FILE: sorting.dfy ===
/** Sorting by a key, the way the components call `Array.prototype.sort` with
    a comparator that compares one numeric or textual key.

    The sort is an insertion sort. It is stable, as `Array.prototype.sort`
    is required to be since ECMAScript 2019 (section 23.1.3.30 of ECMA-262):
    elements with equal keys keep their relative order. */
module Sorting {

  /** A sort key: a number (amount, timestamp) or a text (lower-cased name). */
  datatype Key = Num(n: int) | Word(s: string)

  /** Lexicographic order on code points, a prefix before its extensions. */
  predicate LexLe(a: string, b: string)
    decreases |a|
  {
    a == [] || (b != [] && (a[0] < b[0] || (a[0] == b[0] && LexLe(a[1..], b[1..]))))
  }

  predicate LexLt(a: string, b: string) {
    LexLe(a, b) && a != b
  }

  lemma {:induction false} LexLeTotal(a: string, b: string)
    ensures LexLe(a, b) || LexLe(b, a)
    decreases |a|
  {
    if a != [] && b != [] && a[0] == b[0] {
      LexLeTotal(a[1..], b[1..]);
    }
  }

  lemma {:induction false} LexLeReflexive(a: string)
    ensures LexLe(a, a)
    decreases |a|
  {
    if a != [] {
      LexLeReflexive(a[1..]);
    }
  }

  lemma {:induction false} LexLeAntisymmetric(a: string, b: string)
    requires LexLe(a, b) && LexLe(b, a)
    ensures a == b
    decreases |a|
  {
    if a != [] {
      LexLeAntisymmetric(a[1..], b[1..]);
      assert a == [a[0]] + a[1..] && b == [b[0]] + b[1..];
    }
  }

  lemma {:induction false} LexLeTransitive(a: string, b: string, c: string)
    requires LexLe(a, b) && LexLe(b, c)
    ensures LexLe(a, c)
    decreases |a|
  {
    if a != [] && a[0] == b[0] && b[0] == c[0] {
      LexLeTransitive(a[1..], b[1..], c[1..]);
    }
  }

  predicate KeyLe(a: Key, b: Key) {
    match (a, b)
    case (Num(x), Num(y)) => x <= y
    case (Word(x), Word(y)) => LexLe(x, y)
    case (Num(_), Word(_)) => true
    case (Word(_), Num(_)) => false
  }

  /** `a` may precede `b` in a list sorted ascending, or descending. */
  predicate InOrder(a: Key, b: Key, descending: bool) {
    if descending then KeyLe(b, a) else KeyLe(a, b)
  }

  lemma InOrderTotal(a: Key, b: Key, descending: bool)
    ensures InOrder(a, b, descending) || InOrder(b, a, descending)
  {
    if a.Word? && b.Word? {
      LexLeTotal(a.s, b.s);
    }
  }

  /** Every adjacent pair of `xs` is in order. */
  predicate Sorted<T>(xs: seq<T>, key: T -> Key, descending: bool) {
    forall i :: 0 < i < |xs| ==> InOrder(key(xs[i - 1]), key(xs[i]), descending)
  }

  /** Inserts `x` into a sorted list before the first element it may precede. */
  function Insert<T(==)>(x: T, s: seq<T>, key: T -> Key, descending: bool): (r: seq<T>)
    requires Sorted(s, key, descending)
    ensures Sorted(r, key, descending)
    ensures multiset(r) == multiset(s) + multiset{x}
    ensures r[0] == x || (|s| > 0 && r[0] == s[0])
  {
    if s == [] then [x]
    else if InOrder(key(x), key(s[0]), descending) then
      ConsSorted(x, s, key, descending);
      [x] + s
    else
      var rest := Insert(x, s[1..], key, descending);
      InsertBehind(x, s, rest, key, descending);
      [s[0]] + rest
  }

  /** Keeping the head of `s` in front of `x` inserted into the tail keeps
      the list sorted and adds exactly `x`. */
  lemma InsertBehind<T>(x: T, s: seq<T>, rest: seq<T>, key: T -> Key, descending: bool)
    requires s != [] && Sorted(s, key, descending) && !InOrder(key(x), key(s[0]), descending)
    requires Sorted(rest, key, descending)
    requires multiset(rest) == multiset(s[1..]) + multiset{x}
    requires rest[0] == x || (|s| > 1 && rest[0] == s[1])
    ensures Sorted([s[0]] + rest, key, descending)
    ensures multiset([s[0]] + rest) == multiset(s) + multiset{x}
  {
    InOrderTotal(key(x), key(s[0]), descending);
    assert s == [s[0]] + s[1..];
    ConsSorted(s[0], rest, key, descending);
  }

  /** An element in order with the head of a sorted list extends it. */
  lemma ConsSorted<T>(h: T, t: seq<T>, key: T -> Key, descending: bool)
    requires Sorted(t, key, descending)
    requires t != [] ==> InOrder(key(h), key(t[0]), descending)
    ensures Sorted([h] + t, key, descending)
  {
    var r := [h] + t;
    forall i | 0 < i < |r|
      ensures InOrder(key(r[i - 1]), key(r[i]), descending)
    {
      if i > 1 {
        assert r[i - 1] == t[i - 2] && r[i] == t[i - 1];
      }
    }
  }

  /** A sorted permutation of `xs`. */
  function SortBy<T(==)>(xs: seq<T>, key: T -> Key, descending: bool): (r: seq<T>)
    ensures Sorted(r, key, descending)
    ensures multiset(r) == multiset(xs)
    ensures |r| == |xs|
  {
    if xs == [] then []
    else
      var r := Insert(xs[0], SortBy(xs[1..], key, descending), key, descending);
      assert xs == [xs[0]] + xs[1..];
      assert |r| == |multiset(r)|;
      r
  }

  // ---------------------------------------------------------------- stability

  /** The elements of `s` whose key is `k`, in their order in `s`. */
  function WithKey<T>(s: seq<T>, key: T -> Key, k: Key): (r: seq<T>)
    ensures |r| <= |s|
  {
    if s == [] then []
    else if key(s[0]) == k then [s[0]] + WithKey(s[1..], key, k)
    else WithKey(s[1..], key, k)
  }

  /** An element is in order with itself, so `Insert` stops in front of the
      first element sharing its key. */
  lemma InOrderReflexive(a: Key, descending: bool)
    ensures InOrder(a, a, descending)
  {
    if a.Word? {
      LexLeReflexive(a.s);
    }
  }

  /** Inserting `x` puts it in front of every element with its key and
      leaves the others' order alone. */
  lemma {:induction false} InsertWithKey<T>(x: T, s: seq<T>, key: T -> Key, descending: bool, k: Key)
    requires Sorted(s, key, descending)
    ensures WithKey(Insert(x, s, key, descending), key, k) == if key(x) == k then [x] + WithKey(s, key, k) else WithKey(s, key, k)
    decreases |s|
  {
    if s == [] {
      assert [x][1..] == [];
    } else if InOrder(key(x), key(s[0]), descending) {
      assert ([x] + s)[1..] == s;
    } else {
      SortedTail(s, key, descending);
      InsertWithKey(x, s[1..], key, descending, k);
      InsertPastHead(x, s, key, descending, k);
    }
  }

  /** The step of `InsertWithKey` where `x` goes past the head of `s`. */
  lemma InsertPastHead<T>(x: T, s: seq<T>, key: T -> Key, descending: bool, k: Key)
    requires s != [] && Sorted(s, key, descending) && !InOrder(key(x), key(s[0]), descending)
    requires Sorted(s[1..], key, descending)
    requires var t := s[1..];
      WithKey(Insert(x, t, key, descending), key, k) == if key(x) == k then [x] + WithKey(t, key, k) else WithKey(t, key, k)
    ensures WithKey(Insert(x, s, key, descending), key, k) == if key(x) == k then [x] + WithKey(s, key, k) else WithKey(s, key, k)
  {
    InOrderReflexive(key(x), descending);
    var rest := Insert(x, s[1..], key, descending);
    assert Insert(x, s, key, descending) == [s[0]] + rest;
    assert s == [s[0]] + s[1..];
    BehindHead(x, s[0], s[1..], rest, key, k);
  }

  /** An element kept in front of `x` does not share its key, so it does
      not change where `x` stands among the elements with key `k`. */
  lemma BehindHead<T>(x: T, h: T, tail: seq<T>, rest: seq<T>, key: T -> Key, k: Key)
    requires key(h) != key(x)
    requires WithKey(rest, key, k) == if key(x) == k then [x] + WithKey(tail, key, k) else WithKey(tail, key, k)
    ensures WithKey([h] + rest, key, k) == if key(x) == k then [x] + WithKey([h] + tail, key, k) else WithKey([h] + tail, key, k)
  {
    assert ([h] + rest)[1..] == rest;
    assert ([h] + tail)[1..] == tail;
  }

  lemma SortedTail<T>(s: seq<T>, key: T -> Key, descending: bool)
    requires s != [] && Sorted(s, key, descending)
    ensures Sorted(s[1..], key, descending)
  {
    forall i | 0 < i < |s[1..]|
      ensures InOrder(key(s[1..][i - 1]), key(s[1..][i]), descending)
    {
      assert s[1..][i - 1] == s[i] && s[1..][i] == s[i + 1];
    }
  }

  /** `SortBy` is stable: for every key, the elements carrying it appear in
      the result in the order they had in the input. */
  lemma {:induction false} SortByStable<T>(xs: seq<T>, key: T -> Key, descending: bool, k: Key)
    ensures WithKey(SortBy(xs, key, descending), key, k) == WithKey(xs, key, k)
    decreases |xs|
  {
    if xs != [] {
      SortByStable(xs[1..], key, descending, k);
      InsertWithKey(xs[0], SortBy(xs[1..], key, descending), key, descending, k);
    }
  }
}

=== FILE: summary_items.dfy ===
/** The rows the summary endpoints return and the share-of-total arithmetic
    that the summary list, the secondary summary, the chart list and the pie
    chart all perform.

    Amounts arrive as numbers or numeric strings and go through `parseFloat`;
    here they are integers (whole currency units or cents), and a share is an
    exact rational number before any `toFixed(1)` rounding. */
module SummaryItems {
  import opened Options
  import opened Seqs

  /** One row of a summary: `id` (the primary category of the by-primary
      summary), `value` (its total), `total` and `secondarycategory` and
      `count` (the rows of the by-secondary summary). Missing text is `""`. */
  datatype SummaryItem = SummaryItem(
    id: string,
    value: Option<int>,
    total: Option<int>,
    secondary: string,
    count: Option<int>)

  /** `parseFloat(item.value || 0)`. */
  function ValueOr0(item: SummaryItem): int {
    NumberOr0(item.value)
  }

  /** `parseFloat(item.total || 0)`. */
  function TotalOr0(item: SummaryItem): int {
    NumberOr0(item.total)
  }

  /** `item.count || 0`. */
  function CountOr0(item: SummaryItem): int {
    NumberOr0(item.count)
  }

  /** `total > 0 ? (amount / total) * 100 : 0`, before rounding. */
  function Percent(amount: int, total: int): (r: real)
    ensures total <= 0 ==> r == 0.0
    ensures total > 0 ==> r * (total as real) == (amount as real) * 100.0
  {
    if total > 0 then (amount as real) * 100.0 / (total as real) else 0.0
  }

  /** A non-negative part of a total is between 0 and 100 percent of it. */
  lemma PercentBounds(amount: int, total: int)
    requires 0 <= amount <= total
    ensures 0.0 <= Percent(amount, total) <= 100.0
  {
    if total > 0 {
      var p := Percent(amount, total);
      assert p * (total as real) <= 100.0 * (total as real);
    }
  }

  /** Shares of a positive total add up the way their amounts do. */
  lemma {:induction false} PercentsAdd(xs: seq<SummaryItem>, f: SummaryItem -> int, total: int)
    requires total > 0
    ensures SumReal(xs, x => Percent(f(x), total)) * (total as real) == (Sum(xs, f) as real) * 100.0
    decreases |xs|
  {
    if xs != [] {
      PercentsAdd(xs[1..], f, total);
      var g := x => Percent(f(x), total);
      assert SumReal(xs, g) == g(xs[0]) + SumReal(xs[1..], g);
      assert SumReal(xs, g) * (total as real)
          == g(xs[0]) * (total as real) + SumReal(xs[1..], g) * (total as real);
    }
  }

  /** Every row's share of the sum of all rows, over all rows, is 100%. */
  lemma SharesMakeWhole(xs: seq<SummaryItem>, f: SummaryItem -> int)
    requires Sum(xs, f) > 0
    ensures SumReal(xs, x => Percent(f(x), Sum(xs, f))) == 100.0
  {
    PercentsAdd(xs, f, Sum(xs, f));
    var s := SumReal(xs, x => Percent(f(x), Sum(xs, f)));
    RealCancel(s, 100.0, Sum(xs, f) as real);
  }

  lemma RealCancel(a: real, b: real, c: real)
    requires c != 0.0 && a * c == b * c
    ensures a == b
  {
    assert a == a * c / c && b == b * c / c;
  }

  /** Each row's share of a sum of non-negative rows is a percentage. */
  lemma ShareIsPercentage(xs: seq<SummaryItem>, f: SummaryItem -> int, i: int)
    requires forall j :: 0 <= j < |xs| ==> f(xs[j]) >= 0
    requires 0 <= i < |xs|
    ensures 0.0 <= Percent(f(xs[i]), Sum(xs, f)) <= 100.0
  {
    TermAtMostSum(xs, f, i);
    PercentBounds(f(xs[i]), Sum(xs, f));
  }

  // ---------------------------------------------------------------- rows

  /** One rendered row of a summary list: its name, amount, share of the
      list's total, and expense count. */
  datatype Row = Row(name: string, amount: int, percent: real, count: int)

  /** The rows for `items`, in the same order, each with its share of `total`. */
  function Rows(items: seq<SummaryItem>, nameOf: SummaryItem -> string, amountOf: SummaryItem -> int, total: int): (r: seq<Row>)
    ensures |r| == |items|
    ensures forall i :: 0 <= i < |items| ==>
      r[i] == Row(nameOf(items[i]), amountOf(items[i]), Percent(amountOf(items[i]), total), CountOr0(items[i]))
  {
    seq(|items|, i requires 0 <= i < |items| =>
      Row(nameOf(items[i]), amountOf(items[i]), Percent(amountOf(items[i]), total), CountOr0(items[i])))
  }

  function RowPercent(row: Row): real { row.percent }

  lemma {:induction false} RowPercentsSum(items: seq<SummaryItem>, nameOf: SummaryItem -> string, amountOf: SummaryItem -> int, total: int)
    ensures SumReal(Rows(items, nameOf, amountOf, total), RowPercent) == SumReal(items, x => Percent(amountOf(x), total))
    decreases |items|
  {
    if items != [] {
      RowPercentsSum(items[1..], nameOf, amountOf, total);
      assert Rows(items, nameOf, amountOf, total)[1..] == Rows(items[1..], nameOf, amountOf, total);
    }
  }

  /** The shares shown in a list of rows add up to 100% whenever the total
      they are shares of is the positive sum of a permutation of the rows. */
  lemma RowsMakeWhole(items: seq<SummaryItem>, listed: seq<SummaryItem>, nameOf: SummaryItem -> string, amountOf: SummaryItem -> int)
    requires multiset(listed) == multiset(items)
    requires Sum(items, amountOf) > 0
    ensures SumReal(Rows(listed, nameOf, amountOf, Sum(items, amountOf)), RowPercent) == 100.0
  {
    SumPermutation(listed, items, amountOf);
    RowPercentsSum(listed, nameOf, amountOf, Sum(items, amountOf));
    SharesMakeWhole(listed, amountOf);
  }
}

=== FILE: text.dfy ===
/** String operations the source borrows from JavaScript's `String.prototype`:
    lower-casing, trimming, substring search, digit extraction, decimal
    rendering, padding, joining, splitting and character replacement.

    Lower-casing covers ASCII letters only and trimming the ASCII white-space
    characters plus U+00A0 and U+FEFF; the wider Unicode tables of the
    JavaScript engine are not modelled. */
module Text {

  // ---------------------------------------------------------------- case

  predicate IsUpper(c: char) { 'A' <= c <= 'Z' }

  function LowerChar(c: char): char {
    if IsUpper(c) then (c as int + 32) as char else c
  }

  /** `s.toLowerCase()`, restricted to ASCII letters. */
  function Lower(s: string): (r: string)
    ensures |r| == |s|
    ensures forall i :: 0 <= i < |s| ==> r[i] == LowerChar(s[i])
  {
    seq(|s|, i requires 0 <= i < |s| => LowerChar(s[i]))
  }

  // ---------------------------------------------------------------- trim

  predicate IsSpace(c: char) {
    c == ' ' || c == '\t' || c == '\n' || c == '\r' || c == '\U{000B}'
    || c == '\U{000C}' || c == '\U{00A0}' || c == '\U{FEFF}'
  }

  predicate AllSpace(s: string) {
    forall i :: 0 <= i < |s| ==> IsSpace(s[i])
  }

  function TrimStart(s: string): (r: string)
    ensures |r| <= |s| && r == s[|s| - |r|..]
    ensures r == "" || !IsSpace(r[0])
    decreases |s|
  {
    if |s| > 0 && IsSpace(s[0]) then TrimStart(s[1..]) else s
  }

  function TrimEnd(s: string): (r: string)
    ensures |r| <= |s| && r == s[..|r|]
    ensures r == "" || !IsSpace(r[|r| - 1])
    decreases |s|
  {
    if |s| > 0 && IsSpace(s[|s| - 1]) then TrimEnd(s[..|s| - 1]) else s
  }

  /** `s.trim()`. */
  function Trim(s: string): string {
    TrimEnd(TrimStart(s))
  }

  lemma {:induction false} TrimStartEmptyIffBlank(s: string)
    ensures TrimStart(s) == "" <==> AllSpace(s)
    decreases |s|
  {
    if |s| > 0 && IsSpace(s[0]) {
      TrimStartEmptyIffBlank(s[1..]);
      assert AllSpace(s) <==> AllSpace(s[1..]) by {
        if AllSpace(s[1..]) {
          forall i | 0 <= i < |s| ensures IsSpace(s[i]) {
            if i > 0 { assert s[i] == s[1..][i - 1]; }
          }
        }
      }
    }
  }

  lemma {:induction false} TrimEndOfBlank(s: string)
    requires AllSpace(s)
    ensures TrimEnd(s) == ""
    decreases |s|
  {
    if |s| > 0 {
      TrimEndOfBlank(s[..|s| - 1]);
    }
  }

  /** A string trims to `''` exactly when every character is white space. */
  lemma TrimEmptyIffBlank(s: string)
    ensures Trim(s) == "" <==> AllSpace(s)
  {
    TrimStartEmptyIffBlank(s);
    var t := TrimStart(s);
    if AllSpace(s) {
      assert t == "";
    } else {
      assert t != "" && !IsSpace(t[0]);
      assert TrimEnd(t) != "" by {
        if TrimEnd(t) == "" {
          NonBlankTrimEnd(t);
        }
      }
    }
  }

  lemma {:induction false} NonBlankTrimEnd(s: string)
    requires s != "" && !IsSpace(s[0])
    ensures TrimEnd(s) != ""
    decreases |s|
  {
    if |s| > 1 && IsSpace(s[|s| - 1]) {
      NonBlankTrimEnd(s[..|s| - 1]);
    }
  }

  // ---------------------------------------------------------------- search

  predicate IsPrefix(p: string, s: string) {
    |p| <= |s| && s[..|p|] == p
  }

  /** `s.includes(p)`, computed by scanning the suffixes of `s`. */
  predicate Contains(s: string, p: string)
    decreases |s|
  {
    IsPrefix(p, s) || (|s| > 0 && Contains(s[1..], p))
  }

  /** `p` occurs in `s` starting at index `i`. */
  predicate OccursAt(s: string, p: string, i: int) {
    0 <= i && i + |p| <= |s| && s[i..i + |p|] == p
  }

  /** The scan finds `p` exactly when `p` occurs at some index of `s`. */
  lemma {:induction false} ContainsIffOccurs(s: string, p: string)
    ensures Contains(s, p) <==> exists i :: OccursAt(s, p, i)
    decreases |s|
  {
    if IsPrefix(p, s) {
      assert OccursAt(s, p, 0);
    } else if |s| > 0 {
      ContainsIffOccurs(s[1..], p);
      if Contains(s[1..], p) {
        var i :| OccursAt(s[1..], p, i);
        OccursInTail(s, p, i);
      } else if exists i :: OccursAt(s, p, i) {
        var i :| OccursAt(s, p, i);
        if i > 0 {
          OccursPastHead(s, p, i);
        }
      }
    }
  }

  /** An occurrence in the tail is one in `s`, a place further on. */
  lemma OccursInTail(s: string, p: string, i: int)
    requires |s| > 0 && OccursAt(s[1..], p, i)
    ensures OccursAt(s, p, i + 1)
  {
    assert s[1..][i..i + |p|] == s[i + 1..i + 1 + |p|];
  }

  /** An occurrence past the head of `s` is one in its tail. */
  lemma OccursPastHead(s: string, p: string, i: int)
    requires 0 < i && OccursAt(s, p, i)
    ensures OccursAt(s[1..], p, i - 1)
  {
    assert s[1..][i - 1..i - 1 + |p|] == s[i..i + |p|];
  }

  // ---------------------------------------------------------------- digits

  predicate IsDigit(c: char) { '0' <= c <= '9' }

  predicate AllDigits(s: string) {
    forall i :: 0 <= i < |s| ==> IsDigit(s[i])
  }

  /** `s.replace(/\D/g, '')`: the digits of `s`, in order. */
  function KeepDigits(s: string): (r: string)
    ensures AllDigits(r)
    ensures |r| <= |s|
    ensures AllDigits(s) ==> r == s
  {
    if s == [] then []
    else (if IsDigit(s[0]) then [s[0]] else []) + KeepDigits(s[1..])
  }

  function DigitChar(d: nat): char
    requires d < 10
  {
    ('0' as int + d) as char
  }

  function DigitValue(c: char): nat
    requires IsDigit(c)
  {
    c as int - '0' as int
  }

  /** `String(n)` for a natural number: its shortest decimal rendering. */
  function Decimal(n: nat): (r: string)
    ensures 1 <= |r| && AllDigits(r)
    ensures n < 10 <==> |r| == 1
    decreases n
  {
    if n < 10 then [DigitChar(n)] else Decimal(n / 10) + [DigitChar(n % 10)]
  }

  /** The number a string of decimal digits denotes. */
  function DigitsValue(s: string): nat
    requires AllDigits(s)
  {
    if s == [] then 0 else DigitsValue(s[..|s| - 1]) * 10 + DigitValue(s[|s| - 1])
  }

  /** Reading back a rendering gives the rendered number. */
  lemma {:induction false} DecimalRoundTrip(n: nat)
    ensures DigitsValue(Decimal(n)) == n
    decreases n
  {
    if n >= 10 {
      DecimalRoundTrip(n / 10);
      var r := Decimal(n);
      assert r[..|r| - 1] == Decimal(n / 10);
    }
  }

  /** Renderings of numbers in 10..99 have two digits, in 1000..9999 four. */
  lemma DecimalWidth(n: nat)
    ensures 10 <= n < 100 ==> |Decimal(n)| == 2
    ensures 1000 <= n < 10000 ==> |Decimal(n)| == 4
  {
    if 10 <= n < 100 {
      assert |Decimal(n / 10)| == 1;
    }
    if 1000 <= n < 10000 {
      assert |Decimal(n / 1000)| == 1;
      assert |Decimal(n / 100)| == 2;
      assert |Decimal(n / 10)| == 3;
    }
  }

  /** Two digit strings of one length with one value are equal. */
  lemma {:induction false} DigitsInjective(a: string, b: string)
    requires AllDigits(a) && AllDigits(b) && |a| == |b|
    requires DigitsValue(a) == DigitsValue(b)
    ensures a == b
    decreases |a|
  {
    if a != [] {
      var n := |a| - 1;
      var x, y := DigitsValue(a[..n]), DigitsValue(b[..n]);
      var p, q := DigitValue(a[n]), DigitValue(b[n]);
      assert x * 10 + p == y * 10 + q;
      assert x == y && p == q;
      DigitsInjective(a[..n], b[..n]);
      assert a == a[..n] + [a[n]] && b == b[..n] + [b[n]];
    }
  }

  /** `String(i)` for any integer: a minus sign before negative values. */
  function IntText(i: int): (r: string)
    ensures |r| >= 1
    ensures i >= 0 ==> r == Decimal(i)
    ensures i < 0 ==> r == "-" + Decimal(-i)
  {
    if i < 0 then "-" + Decimal(-i) else Decimal(i)
  }

  /** `s.padStart(width, c)`. */
  function PadStart(s: string, width: nat, c: char): (r: string)
    ensures |r| == if |s| >= width then |s| else width
    ensures r[|r| - |s|..] == s
    ensures forall i :: 0 <= i < |r| - |s| ==> r[i] == c
  {
    if |s| >= width then s else seq(width - |s|, _ => c) + s
  }

  /** `String(n).padStart(2, '0')`. */
  function Pad2(n: nat): (r: string)
    ensures AllDigits(r) && |r| >= 2
    ensures n < 100 ==> |r| == 2
    ensures DigitsValue(r) == n
  {
    var d := Decimal(n);
    DecimalRoundTrip(n);
    DecimalWidth(n);
    if |d| >= 2 then d
    else
      var r := ['0'] + d;
      assert r[..1] == "0";
      r
  }

  function Pow10(w: nat): (r: nat)
    ensures r >= 1
  {
    if w == 0 then 1 else 10 * Pow10(w - 1)
  }

  /** A number below `10^w` renders in at most `w` digits. */
  lemma {:induction false} DecimalFits(n: nat, w: nat)
    requires 1 <= w && n < Pow10(w)
    ensures |Decimal(n)| <= w
    decreases w
  {
    if n >= 10 {
      assert w >= 2;
      DecimalFits(n / 10, w - 1);
    }
  }

  /** Leading zeros do not change the value of a digit string. */
  lemma {:induction false} ZerosValue(zeros: string, s: string)
    requires AllDigits(s)
    requires forall i :: 0 <= i < |zeros| ==> zeros[i] == '0'
    ensures AllDigits(zeros + s)
    ensures DigitsValue(zeros + s) == DigitsValue(s)
    decreases |zeros| + |s|
  {
    var t := zeros + s;
    if s == [] {
      assert t == zeros;
      if zeros != [] {
        ZerosValue(zeros[..|zeros| - 1], []);
        assert zeros[..|zeros| - 1] + [] == t[..|t| - 1];
      }
    } else {
      ZerosValue(zeros, s[..|s| - 1]);
      assert t[..|t| - 1] == zeros + s[..|s| - 1];
    }
  }

  /** `String(n).padStart(w, '0')` for `n < 10^w`: exactly `w` digits that
      read back as `n`. */
  lemma PadDecimal(n: nat, w: nat)
    requires 1 <= w && n < Pow10(w)
    ensures var r := PadStart(Decimal(n), w, '0');
      |r| == w && AllDigits(r) && DigitsValue(r) == n
  {
    var d := Decimal(n);
    DecimalFits(n, w);
    DecimalRoundTrip(n);
    var r := PadStart(d, w, '0');
    assert r == r[..|r| - |d|] + d;
    ZerosValue(r[..|r| - |d|], d);
  }

  // ---------------------------------------------------------------- join / split

  /** `xs.join(sep)`. */
  function Join(xs: seq<string>, sep: string): string {
    if |xs| == 0 then ""
    else if |xs| == 1 then xs[0]
    else xs[0] + sep + Join(xs[1..], sep)
  }

  /** A character in no part and not in the separator is not in the join. */
  lemma {:induction false} JoinAvoids(xs: seq<string>, sep: string, c: char)
    requires c !in sep
    requires forall i :: 0 <= i < |xs| ==> c !in xs[i]
    ensures c !in Join(xs, sep)
    decreases |xs|
  {
    if |xs| > 1 {
      JoinAvoids(xs[1..], sep, c);
    }
  }

  /** Splits `s` at every occurrence of the character `c` (`s.split(c)`). */
  function Split(s: string, c: char): (r: seq<string>)
    ensures |r| >= 1
    ensures forall i :: 0 <= i < |r| ==> c !in r[i]
    decreases |s|
  {
    if s == [] then [""]
    else
      var rest := Split(s[1..], c);
      if s[0] == c then [""] + rest else [[s[0]] + rest[0]] + rest[1..]
  }

  lemma {:induction false} SplitPrefix(a: string, b: string, c: char)
    requires c !in a
    ensures Split(a + [c] + b, c) == [a] + Split(b, c)
    decreases |a|
  {
    if a == [] {
      assert a + [c] + b == [c] + b;
      assert ([c] + b)[1..] == b;
    } else {
      var s := a + [c] + b;
      assert s[1..] == a[1..] + [c] + b;
      SplitPrefix(a[1..], b, c);
      assert [a[0]] + a[1..] == a;
    }
  }

  lemma {:induction false} SplitNoSeparator(a: string, c: char)
    requires c !in a
    ensures Split(a, c) == [a]
    decreases |a|
  {
    if a != [] {
      SplitNoSeparator(a[1..], c);
      assert [a[0]] + a[1..] == a;
    }
  }

  /** Splitting a join at a separator that no part contains recovers the parts. */
  lemma {:induction false} SplitJoin(xs: seq<string>, c: char)
    requires |xs| >= 1
    requires forall i :: 0 <= i < |xs| ==> c !in xs[i]
    ensures Split(Join(xs, [c]), c) == xs
    decreases |xs|
  {
    if |xs| == 1 {
      SplitNoSeparator(xs[0], c);
    } else {
      SplitJoin(xs[1..], c);
      SplitPrefix(xs[0], Join(xs[1..], [c]), c);
      assert [xs[0]] + xs[1..] == xs;
    }
  }

  // ---------------------------------------------------------------- replace

  /** `s.replace(/c/g, rep)`: every `c` becomes `rep`. */
  function ReplaceAll(s: string, c: char, rep: string): (r: string)
    ensures c !in rep ==> c !in r
    ensures forall d :: d !in s && d !in rep ==> d !in r
  {
    if s == [] then []
    else (if s[0] == c then rep else [s[0]]) + ReplaceAll(s[1..], c, rep)
  }
}
